=== FILE: README.md ===
# AntUnit, modelled in Dafny

AntUnit runs the targets of an Ant build file as unit tests. This project models:

- `AntUnitScriptRunner`, its core. It scans the targets of a script and hands out
  projects for isolation: the project used for the scan serves the first clean request,
  and every later request gets a fresh project. It runs `suiteSetUp`, then for each test
  the batch `[setUp?, test]` followed by `tearDown`, then `suiteTearDown`. Each failure
  is classified by walking the cause chain for an `AssertionFailedException`. Progress is
  reported to an `AntUnitExecutionNotifier`.
- The older `<antunit>` task (`AntUnit`), which runs every test on the one project
  parsed from a build file and forwards each report to all attached listeners.
- The assertion and log tasks and conditions: `<assertTrue>` (`AssertTask`),
  `<expectfailure>`, `LogCapturer`, `<logcontains>`, `LogContent` and
  `<resourceexists>`.
- The JUnit 3 bridge: `AntUnitTestCase` and `JUnitNotificationAdapter`.
- The report listeners in `listener/`: `BaseAntUnitListener`, `PlainAntUnitListener`
  and `FailureAntUnitListener`.

Every operation is a pure function. A mutable Java object becomes a value that each
call takes and returns.

- **Runner calls.** Each runner call returns a `Step`: the observable events in order
  (calls on projects and on the notifier), the runner state afterwards, and the
  throwable that escapes, if any.
- **Projects.** A project is known by the ordinal of the factory call that created it.
  The factory's failures are scripted per call.
- **Target outcomes.** The outcome of running a target is scripted per target name, so
  every project parsed from the same file behaves alike.
- **Outside inputs.** I/O, clocks and the platform are parameters:
  - the line separator;
  - the file separator;
  - the base-relative path of a build file;
  - whether a report file can be opened;
  - elapsed times, already formatted as text.

Java's `finally` semantics are followed throughout. An exception thrown from a
`finally` block replaces the one in flight.

Modules:

- `Wrappers`, `Strings` and `Exceptions` are shared: `Option`/`Result`, the string
  operations the source uses, and the `Throwable` hierarchy with its cause chain.
- Every other module is named after the class it models.
- `ScriptRunnerProperties` holds the lemmas about the runner.

## Model

Paths are relative to the repository root.

| member | source | states |
|---|---|---|
| Exceptions.AssertionFailedException | src/main/org/apache/ant/antunit/AssertionFailedException.java:29-40 | An assertion failure is a `BuildException` that carries the assertion marker. |
| Exceptions.FindMarker | src/main/org/apache/ant/antunit/AntUnitScriptRunner.java:274-283 | Walking the cause chain while it consists of `BuildException`s finds the first `AssertionFailedException`. The result is absent iff no marker is reachable that way. |
| Strings.IndexOf | src/main/org/apache/ant/antunit/LogContains.java:71 | `indexOf` is -1 iff the pattern does not occur. Otherwise it is the first position where the pattern occurs. |
| Strings.CodeUnits | src/main/org/apache/ant/antunit/listener/FailureAntUnitListener.java:201 | A character is one UTF-16 code unit below U+10000 and a surrogate pair above. The pair decodes back to the character, and a single unit is never a surrogate. |
| Strings.IndexOfUnit | src/main/org/apache/ant/antunit/junit3/AntUnitTestCase.java:156 | `indexOf` over code units is -1 iff the unit is absent. Otherwise it is a position holding the unit with no earlier occurrence. |
| Strings.Utf16Injective | src/main/org/apache/ant/antunit/listener/FailureAntUnitListener.java:201 | Different strings have different UTF-16 encodings. |
| Strings.CompareUnits | src/main/org/apache/ant/antunit/listener/FailureAntUnitListener.java:201 | The comparison of two code-unit sequences is zero exactly when they are equal. |
| Strings.CompareTo | src/main/org/apache/ant/antunit/listener/FailureAntUnitListener.java:201 | `String.compareTo`, taken over UTF-16 code units, is zero exactly for equal strings. |
| Strings.SupplementarySortsBySurrogate | src/main/org/apache/ant/antunit/listener/FailureAntUnitListener.java:201 | U+1F600 sorts before U+FFFD, because the unit compared is its high surrogate 0xD83D and not its scalar value. |
| Strings.CompareToAntisymmetric | src/main/org/apache/ant/antunit/listener/FailureAntUnitListener.java:201 | Swapping the operands of `String.compareTo` negates the result. |
| Strings.LessTransitive | src/main/org/apache/ant/antunit/listener/FailureAntUnitListener.java:50 | The string order that sorts the set of failed tests is transitive. |
| Strings.NatToStringRoundTrip | src/main/org/apache/ant/antunit/AntUnit.java:86-89 | A decimal count printed into a message can be read back as the same number. |
| ScriptRunner.CreateProject | src/main/org/apache/ant/antunit/ProjectFactory.java:34-41 | Factory call number k fails iff a failure is scripted for it, and then with that failure. Otherwise it yields project k. |
| ScriptRunner.ScanTestTargets | src/main/org/apache/ant/antunit/AntUnitScriptRunner.java:130-137 | The test targets are exactly the targets whose name starts with "test" and is not "test" itself, kept in the order the target table iterates its names. |
| ScriptRunner.ScanKeepsDistinct | src/main/org/apache/ant/antunit/AntUnitScriptRunner.java:125-137 | Target names that are the distinct keys of the target table give distinct test targets. |
| ScriptRunnerProperties.ScanAppend | src/main/org/apache/ant/antunit/AntUnitScriptRunner.java:130-137 | The scan of two runs of targets is the scan of the first followed by the scan of the second, so no test target moves. |
| ScriptRunner.Construct | src/main/org/apache/ant/antunit/AntUnitScriptRunner.java:122-138 | The constructor fails iff the first factory call fails. Otherwise the four hook flags say which hook targets exist, the scanned project is current and clean, and the test targets are those of the scan. |
| ScriptRunner.GetCurrentProject | src/main/org/apache/ant/antunit/AntUnitScriptRunner.java:146-153 | An existing current project is returned unchanged. Without one, the factory is called and a new project becomes current and clean. |
| ScriptRunner.GetCleanProject | src/main/org/apache/ant/antunit/AntUnitScriptRunner.java:158-166 | A clean current project is reused exactly once. A dirty or missing one is replaced by a factory call. Whatever is returned is marked dirty. |
| ScriptRunner.GetName | src/main/org/apache/ant/antunit/AntUnitScriptRunner.java:179-181 | The name is the script's project name. |
| ScriptRunner.StartSuite | src/main/org/apache/ant/antunit/AntUnitScriptRunner.java:189-203 | The suite counts as started only when `suiteSetUp` ran without a `BuildException`. A failed start leaves the flag as it was. |
| ScriptRunner.RunHook | src/main/org/apache/ant/antunit/AntUnitScriptRunner.java:191-199 | A hook runs on a clean project. A successful hook leaves exactly one execution event and nothing escapes. |
| ScriptRunner.CatchHook | src/main/org/apache/ant/antunit/AntUnitScriptRunner.java:195-198 | A hook's `BuildException` is reported as a start of the hook followed by its classified outcome. Any other throwable escapes with no report. |
| ScriptRunner.Batch | src/main/org/apache/ant/antunit/AntUnitScriptRunner.java:217-221 | The batch ends with the test and starts with `setUp` iff the script has one. |
| ScriptRunner.RunTargets | src/main/org/apache/ant/antunit/AntUnitScriptRunner.java:226 | Executing a batch stops at the first target that throws and raises that throwable. It completes iff no target of the batch throws. |
| ScriptRunner.CatchTest | src/main/org/apache/ant/antunit/AntUnitScriptRunner.java:224-229 | Only a `BuildException` from the batch is reported, as one classified outcome for the test. Any other throwable escapes unreported. |
| ScriptRunner.FireFailOrError | src/main/org/apache/ant/antunit/AntUnitScriptRunner.java:272-288 | Exactly one outcome is reported per caught `BuildException`. It is a failure iff an assertion marker lies on the `BuildException` cause chain, carrying the first such marker; otherwise it is an error carrying the original exception. |
| ScriptRunner.RunTarget | src/main/org/apache/ant/antunit/AntUnitScriptRunner.java:212-245 | Running a test before the suite started raises an error and does nothing else. Running a test never changes whether the suite is started. |
| ScriptRunner.TargetThrown | src/main/org/apache/ant/antunit/AntUnitScriptRunner.java:224-244 | A test lets a throwable escape iff its batch or its `tearDown` threw something other than a `BuildException`. One from `tearDown` replaces one from the batch. |
| ScriptRunner.RunAll | src/main/org/apache/ant/antunit/AntUnitScriptRunner.java:302-306 | The loop over the tests keeps the runner state well formed and the suite started. |
| ScriptRunner.EndSuite | src/main/org/apache/ant/antunit/AntUnitScriptRunner.java:253-265 | When nothing escapes, the last event is the current project's build-finished event carrying `caught`, and the suite is no longer started. |
| ScriptRunner.FinishBuild | src/main/org/apache/ant/antunit/AntUnitScriptRunner.java:263-264 | Build-finished is fired iff a current project exists or the factory can create one. It is then the last event, it carries `caught`, and the suite is no longer started. Otherwise the factory's failure escapes and no event is added. |
| ScriptRunner.RunSuite | src/main/org/apache/ant/antunit/AntUnitScriptRunner.java:296-312 | When `runSuite` returns normally, the suite is no longer started. |
| ScriptRunnerProperties.HooksAreNeverTestTargets | src/main/org/apache/ant/antunit/AntUnitScriptRunner.java:126-137 | No hook name and not "test" itself is ever scanned as a test target. |
| ScriptRunnerProperties.FirstCleanRequestReusesScannedProject | src/main/org/apache/ant/antunit/AntUnitScriptRunner.java:122-166 | The first clean request after construction gets the scanned project 0 and makes it dirty, without a factory call. |
| ScriptRunnerProperties.CleanRequestsNeverShareAProject | src/main/org/apache/ant/antunit/AntUnitScriptRunner.java:158-166 | The projects that successive clean requests receive are strictly increasing, so no two requests share a project. |
| ScriptRunnerProperties.CleanProjectFailure | src/main/org/apache/ant/antunit/AntUnitScriptRunner.java:158-161 | A clean request fails only with a failure the factory produced. |
| ScriptRunnerProperties.CurrentProjectFailure | src/main/org/apache/ant/antunit/AntUnitScriptRunner.java:146-150 | Asking for the current project fails only with a failure the factory produced. |
| ScriptRunnerProperties.TargetRunsOnOneProject | src/main/org/apache/ant/antunit/AntUnitScriptRunner.java:216-243 | The batch and the `tearDown` of one test run on the same project, and that project runs nothing else for the test. |
| ScriptRunnerProperties.RunSuiteIsolatesTargets | src/main/org/apache/ant/antunit/AntUnitScriptRunner.java:212-265 | Over a whole suite, every hook run and every test runs on a project no earlier one used, so no test sees another's state. |
| ScriptRunnerProperties.FirstRunUsesScannedProject | src/main/org/apache/ant/antunit/AntUnitScriptRunner.java:122-166 | The first thing a fresh runner executes runs on the scanned project. |
| ScriptRunner.TargetTrace | src/main/org/apache/ant/antunit/AntUnitScriptRunner.java:216-244 | A test on a clean project registers a log capturer, notifies its start and runs its batch, in that order. `tearDown` runs on that project iff the script has one. |
| ScriptRunnerProperties.TargetTraceNotes | src/main/org/apache/ant/antunit/AntUnitScriptRunner.java:224-244 | The notifier sees the test's start, then the batch's report, then its end, then `tearDown`'s report, each report under the test's name. |
| ScriptRunnerProperties.RunTargetNotes | src/main/org/apache/ant/antunit/AntUnitScriptRunner.java:216-244 | The notifier sees nothing for a test iff no clean project could be had. Otherwise it sees the test's start, then exactly the outcome the batch's `BuildException` yields, then its end, then exactly the outcome `tearDown`'s `BuildException` yields, all reported under the test's name. |
| ScriptRunnerProperties.TearDownFollowsEndTest | src/main/org/apache/ant/antunit/AntUnitScriptRunner.java:229-244 | With a clean project and a `tearDown` target, `tearDown` runs on that project right after the test's end is reported, whatever the batch threw. The throwable that escapes is the one the batch and `tearDown` leave. |
| ScriptRunnerProperties.StartSuiteNotes | src/main/org/apache/ant/antunit/AntUnitScriptRunner.java:189-203 | `suiteSetUp` reaches the notifier only when it fails, as a start of `suiteSetUp` plus its outcome. A successful start notifies nothing. |
| ScriptRunnerProperties.EndSuiteNotes | src/main/org/apache/ant/antunit/AntUnitScriptRunner.java:253-262 | `suiteTearDown` reaches the notifier only as a start of `suiteTearDown` plus its outcome. |
| ScriptRunnerProperties.RunAllNotes | src/main/org/apache/ant/antunit/AntUnitScriptRunner.java:302-306 | The notifications of the loop are one complete start/outcomes/end block per test, for a prefix of the requested tests in order. The prefix is all of them when nothing escapes. |
| ScriptRunnerProperties.RunSuiteNotes | src/main/org/apache/ant/antunit/AntUnitScriptRunner.java:296-312 | A suite notifies `suiteSetUp` reports, then test blocks for a prefix of the tests, then `suiteTearDown` reports. A reported `suiteSetUp` failure means no test ran. When the suite started and nothing escaped the loop, every requested test has its block. |
| ScriptRunnerProperties.RunTargetEscapes | src/main/org/apache/ant/antunit/AntUnitScriptRunner.java:212-245 | Whatever escapes a test is either not a `BuildException` or a failure the factory produced. |
| ScriptRunnerProperties.RunAllEscapes | src/main/org/apache/ant/antunit/AntUnitScriptRunner.java:302-306 | Whatever escapes the loop is either not a `BuildException` or a failure the factory produced. |
| ScriptRunnerProperties.RunSuiteFinishesBuild | src/main/org/apache/ant/antunit/AntUnitScriptRunner.java:296-312 | A suite that returns normally ends with the build-finished event. That event carries exactly what escaped `startSuite` or the test loop, which is never a `BuildException` the script raised. |
| ScriptRunnerProperties.RunSuiteEndsWithEndSuite | src/main/org/apache/ant/antunit/AntUnitScriptRunner.java:296-312 | On every path, including a throwing `startSuite` or loop, the suite's events end with those of `endSuite` given what escaped. The suite's outcome is `endSuite`'s. |
| ScriptRunnerProperties.SuiteTearDownAlwaysRuns | src/main/org/apache/ant/antunit/AntUnitScriptRunner.java:253-258 | On every path of `runSuite`, even after `startSuite` or the loop threw, `suiteTearDown` runs whenever a clean project can be had for it. |
| ScriptRunnerProperties.SuiteBodyEscapes | src/main/org/apache/ant/antunit/AntUnitScriptRunner.java:296-310 | The throwable handed to `endSuite` is either not a `BuildException` or a failure the factory produced. |
| ScriptRunnerProperties.RunTargetPasses | src/main/org/apache/ant/antunit/AntUnitScriptRunner.java:212-245 | If no factory call and no target fails, a test notifies exactly its start and its end. |
| ScriptRunnerProperties.RunAllPasses | src/main/org/apache/ant/antunit/AntUnitScriptRunner.java:302-306 | If nothing fails, the loop notifies start and end for every requested test, in order. |
| ScriptRunnerProperties.StartSuitePasses | src/main/org/apache/ant/antunit/AntUnitScriptRunner.java:189-203 | If nothing fails, the suite starts and notifies nothing. |
| ScriptRunnerProperties.EndSuitePasses | src/main/org/apache/ant/antunit/AntUnitScriptRunner.java:253-265 | If nothing fails, ending the suite notifies nothing and lets nothing escape. |
| ScriptRunnerProperties.RunHookPasses | src/main/org/apache/ant/antunit/AntUnitScriptRunner.java:253-262 | With a factory that never fails and targets that never throw, a suite hook completes and notifies nothing. |
| ScriptRunnerProperties.RunSuitePasses | src/main/org/apache/ant/antunit/AntUnitScriptRunner.java:296-312 | If nothing fails, a suite notifies exactly start and end for each requested test, in order, and returns normally. |
| AntUnitTask.TestRules | src/main/org/apache/ant/antunit/AntUnit.java:120 | The task treats every name starting with "test" as a test, "test" itself included, and never `setUp` or `tearDown`. |
| AntUnitTask.Bracket | src/main/org/apache/ant/antunit/AntUnit.java:243-254 | Only test targets reach the listeners, as a start followed by an end. |
| AntUnitTask.ExecuteTargets | src/main/org/apache/ant/antunit/AntUnit.java:128 | Executing a batch forwards only start/end calls for its test targets, and raises what the first throwing target raises. |
| AntUnitTask.Marker | src/main/org/apache/ant/antunit/AntUnit.java:131-142 | The marker the task finds is the first `AssertionFailedException` on the `BuildException` cause chain. |
| AntUnitTask.Report | src/main/org/apache/ant/antunit/AntUnit.java:129-145 | A caught `BuildException` gives exactly one report for the test: a failure iff a marker is on its cause chain, else an error with the exception itself. The report is counted. |
| AntUnitTask.Catch | src/main/org/apache/ant/antunit/AntUnit.java:127-145 | A throwable stays pending after the catch clauses iff it is not a `BuildException`, and then nothing is reported. A caught one is reported and counted, and the counters grow by exactly the reports. |
| AntUnitTask.DoTest | src/main/org/apache/ant/antunit/AntUnit.java:120-150 | The counters grow by exactly the failures and errors reported. A `BuildException` can leave the test only through `tearDown`. |
| AntUnitTask.DoTests | src/main/org/apache/ant/antunit/AntUnit.java:116-152 | Over the target loop, the counters grow by exactly the failures and errors reported. |
| AntUnitTask.LoopRunsPrefix | src/main/org/apache/ant/antunit/AntUnit.java:116-152 | A loop left at the first escaping throwable takes a prefix of its steps, each once and in order. Its calls are those steps' calls one after the other. What leaves it is the throwable of the last step taken, or nothing when every step completed. |
| AntUnitTask.DoTestsIsLoop | src/main/org/apache/ant/antunit/AntUnit.java:116-152 | The target loop is that loop over the table's tests in table order, one `DoTest` step per test. Targets that are not tests add nothing, and the counters do not change any test's calls. |
| AntUnitTask.DoTestsRunsTestsInOrder | src/main/org/apache/ant/antunit/AntUnit.java:116-152 | The task runs a prefix of the table's tests, in table order, each once. Its calls are those tests' blocks. The prefix is all tests when none lets a throwable escape, and otherwise ends at the first that does, whose throwable leaves the loop. |
| AntUnitTask.DoTestPasses | src/main/org/apache/ant/antunit/AntUnit.java:120-150 | A test whose targets all complete notifies exactly its start and end, counts nothing and lets nothing escape, with or without `setUp` and `tearDown`. |
| AntUnitTask.DoTestsPass | src/main/org/apache/ant/antunit/AntUnit.java:116-152 | When no target throws, each test of the table contributes exactly its start and end, in table order. Nothing escapes and nothing is counted. |
| AntUnitTask.DoFile | src/main/org/apache/ant/antunit/AntUnit.java:102-159 | A parse failure escapes before any listener call. Otherwise the file's calls begin with the suite start and end with the suite end, and the counters follow the reports. |
| AntUnitTask.DoFileRunsTests | src/main/org/apache/ant/antunit/AntUnit.java:102-159 | A parsed file's calls are the suite start, the blocks of the tests the loop ran in table order, and the suite end. `buildFinished` receives exactly what left the test loop. |
| AntUnitTask.DoFilePasses | src/main/org/apache/ant/antunit/AntUnit.java:102-159 | When no target of a parsed file throws, its calls are the suite start, start and end of each test in table order, and the suite end. `buildFinished` receives null and nothing is counted. |
| AntUnitTask.FileStep | src/main/org/apache/ant/antunit/AntUnit.java:102-159 | A file adds no calls and leaves the task with its parse failure iff it cannot be parsed. |
| AntUnitTask.DoFileIsStep | src/main/org/apache/ant/antunit/AntUnit.java:102-159 | Whatever the counters, a file's calls and escape are those of its step: nothing and the parse failure, or the suite bracket around the test loop's calls. |
| AntUnitTask.DoFiles | src/main/org/apache/ant/antunit/AntUnit.java:93-100 | Over all files, the counters grow by exactly the failures and errors reported. |
| AntUnitTask.DoFilesIsLoop | src/main/org/apache/ant/antunit/AntUnit.java:93-100 | The file loop is the loop over the files' steps, in order. |
| AntUnitTask.DoFilesRunsFilesInOrder | src/main/org/apache/ant/antunit/AntUnit.java:93-100 | The files run in fileset order, each once, up to and including the first that cannot be parsed. The calls are those files' blocks. That file's parse failure leaves the task, and nothing does when every file parsed. |
| AntUnitTask.Execute | src/main/org/apache/ant/antunit/AntUnit.java:77-100 | No fileset is an error. A parse failure leaves the task as the file loop left it. Otherwise the calls are those of the file loop, and the task fails iff `failOnError` is set and a failure or error was counted, with the summary message. |
| AntUnitTask.Plural | src/main/org/apache/ant/antunit/AntUnit.java:87-89 | The plural suffix is empty exactly for a count of one. |
| AntUnitTask.SummaryDeterminesCounts | src/main/org/apache/ant/antunit/AntUnit.java:85-90 | The summary message built by `Summary` determines the failure and error counts it reports. |
| AntUnitTask.Broadcast | src/main/org/apache/ant/antunit/AntUnit.java:211-227 | Each report goes to every attached listener once, in list order. |
| AntUnitTask.EveryListenerReceivesAllCalls | src/main/org/apache/ant/antunit/AntUnit.java:201-227 | When no listener throws, every attached listener receives exactly the task's call sequence. |
| AntUnitTask.BroadcastFrom | src/main/org/apache/ant/antunit/AntUnit.java:211-227 | With throwing listeners, a fire loop hands the call to listeners in list order and is left at the first that throws, with its throwable. Nothing leaves it iff no listener throws, and then every listener received the call. |
| AntUnitTask.ReachedUnlessEarlierThrows | src/main/org/apache/ant/antunit/AntUnit.java:211-227 | With throwing listeners, a listener receives the call exactly when no listener before it in the list throws. |
| AntUnitTask.NoCallsBeyondTheList | src/main/org/apache/ant/antunit/AntUnit.java:201-227 | A listener that is not attached receives nothing. |
| AntUnitTask.EndTestPrecedesReport | src/main/org/apache/ant/antunit/AntUnit.java:127-145 | In the task, whether or not the file has `setUp` or `tearDown`, a test whose `setUp` passes has its end reach listeners before its failure or error report, and nothing else. |
| AntUnitTask.SetUpFailureReportedWithoutStart | src/main/org/apache/ant/antunit/AntUnit.java:121-131 | When `setUp` throws, with or without `tearDown`, the test is reported with no start or end call. |
| AntUnitTask.TearDownFailureEndsTests | src/main/org/apache/ant/antunit/AntUnit.java:146-154 | A throwing `tearDown` ends the loop over a build file's tests with the `tearDown` exception. |
| AssertTask.Execute | src/main/org/apache/ant/antunit/AssertTask.java:66-75 | The task passes iff it has exactly one condition and that condition holds. Several conditions are a plain `BuildException`. No condition or a false one raises the assertion failure with the task's message and location. |
| AssertTask.RunnerClassifiesAssert | src/main/org/apache/ant/antunit/AssertTask.java:66-75 | A failed assertion is reported as a test failure. Only the too-many-conditions misuse is reported as an error. |
| ExpectFailureTask.Sequential | src/main/org/apache/ant/antunit/ExpectFailureTask.java:53 | The nested tasks complete iff none throws. Otherwise the first throw propagates. |
| ExpectFailureTask.Failure | src/main/org/apache/ant/antunit/ExpectFailureTask.java:58-75 | A failed expectation raises an assertion failure with the user's message when given, otherwise the default text. |
| ExpectFailureTask.Execute | src/main/org/apache/ant/antunit/ExpectFailureTask.java:50-77 | The task passes iff the nested tasks raise a `BuildException` whose message matches any expected message. No failure, or a wrong message, is an assertion failure. A non-`BuildException` passes through. |
| ExpectFailureTask.RaisesOnlyFailures | src/main/org/apache/ant/antunit/ExpectFailureTask.java:50-77 | The task raises only assertion failures, apart from non-`BuildException`s it passes through. |
| ExpectFailureTask.ExpectsAssertionFailure | src/main/org/apache/ant/antunit/ExpectFailureTask.java:54-57 | A failing `<assertTrue>` inside `<expectfailure>` with a matching expected message passes. |
| ExpectFailureTask.ReportsBothMessages | src/main/org/apache/ant/antunit/ExpectFailureTask.java:56-63 | A wrong message is reported with the `Mismatch` text, which quotes both the expected and the actual message. |
| LogCapturer.New | src/main/org/apache/ant/antunit/LogCapturer.java:42-46 | A new capturer is registered as a build listener and under the reference id. Every other reference is kept. |
| LogCapturer.Registered | src/main/org/apache/ant/antunit/LogContent.java:95-98 | A capturer is found iff a capturer object is stored under the reference id. |
| LogCapturer.RemoveFirst | src/main/org/apache/ant/antunit/LogCapturer.java:109 | Removing a listener drops one occurrence of it and keeps the rest. |
| LogCapturer.BuildFinished | src/main/org/apache/ant/antunit/LogCapturer.java:107-113 | Only the finish of its own project unregisters the capturer: the listener and the reference are removed and the capturer detaches. Other events change nothing. |
| LogCapturer.BuildFinishedIdempotent | src/main/org/apache/ant/antunit/LogCapturer.java:107-113 | A second build-finished event changes nothing. |
| LogCapturer.RegistrationLifecycle | src/main/org/apache/ant/antunit/LogCapturer.java:42-113 | A capturer is visible under the reference id from its creation until its project finishes, and not after. |
| LogCapturer.LogAppends | src/main/org/apache/ant/antunit/LogCapturer.java:117-133 | In `Log` (`messageLogged`), a message is appended to exactly the buffers whose level is at or above its priority. |
| LogCapturer.ReplayIsSelection | src/main/org/apache/ant/antunit/LogCapturer.java:117-133 | Each level's log is the concatenation, in order, of the messages whose priority is at most that level. |
| LogCapturer.SelectionNests | src/main/org/apache/ant/antunit/LogCapturer.java:117-133 | A more severe level's log is a selection of every less severe level's log. |
| LogCapturer.DebugKeepsAll | src/main/org/apache/ant/antunit/LogCapturer.java:130-132 | The debug log keeps every message. |
| LogCapturer.OnePerPriority | src/tests/junit/org/apache/ant/antunit/LogCapturerTest.java:41-57 | With one message per priority, each log holds exactly the messages up to its level. |
| LogCapturer.NoSeparator | src/tests/junit/org/apache/ant/antunit/LogCapturerTest.java:73-84 | Messages are concatenated without a separator. |
| LogContains.SetLevel | src/main/org/apache/ant/antunit/LogContains.java:39-41 | Setting the level stores its numeric priority and keeps the text. |
| LogContains.Eval | src/main/org/apache/ant/antunit/LogContains.java:43-75 | A missing text is an error. Without a capturer the condition is false. An unknown level is an error naming it. Otherwise the condition holds iff the selected log contains the text. |
| LogContains.LevelsAreKnown | src/main/org/apache/ant/antunit/LogContains.java:51-70 | Every level the attribute accepts selects a log, so the unknown-level error needs a bad numeric level. |
| LogContains.EvalAgainstMessages | src/main/org/apache/ant/antunit/LogContains.java:43-75 | The condition holds iff the text occurs in the concatenation of the messages logged at or above the chosen level. |
| LogContent.SetLevel | src/main/org/apache/ant/antunit/LogContent.java:60-63 | Setting the level also renames the resource after the level. |
| LogContent.Default | src/main/org/apache/ant/antunit/LogContent.java:41-43 | A new resource reads the info log and is named "info". |
| LogContent.Of | src/main/org/apache/ant/antunit/LogContent.java:51-54 | The two-argument constructor binds the project and the level. |
| LogContent.IsExists | src/main/org/apache/ant/antunit/LogContent.java:78-81 | The resource exists iff a capturer is registered on its project. Without a project the lookup throws a `NullPointerException`. |
| LogContent.InputStream | src/main/org/apache/ant/antunit/LogContent.java:66-122 | The content can be read iff the resource exists. It is then the log of the resource's level. With a project but no capturer, reading fails with an illegal-state error; without a project, with a `NullPointerException`. |
| LogContent.DefaultUnreadable | src/main/org/apache/ant/antunit/LogContent.java:41-43 | A resource made by the no-argument constructor has no project, so reading it throws a `NullPointerException` even when a capturer exists. |
| LogContent.ContentIsSelection | src/main/org/apache/ant/antunit/LogContent.java:100-122 | For a resource with a project, the content is the concatenation of the messages logged at or above the resource's level. |
| LogContent.Equals | src/main/org/apache/ant/antunit/LogContent.java:83-93 | A resource equals itself. It equals another log-content resource iff both have the same project and numeric level. It equals nothing else. |
| LogContent.EqualsIsEquivalence | src/main/org/apache/ant/antunit/LogContent.java:83-93 | Equality is reflexive, symmetric and transitive. |
| LogContent.WarnEqualsWarning | src/main/org/apache/ant/antunit/LogContent.java:91-92 | "warn" and "warning" resources differ in name but are equal. |
| ResourceExists.SetResource | src/main/org/apache/ant/antunit/ResourceExists.java:42-47 | A resource can be set once. A second one is an error. |
| ResourceExists.Add | src/main/org/apache/ant/antunit/ResourceExists.java:56-58 | Adding a nested resource behaves exactly like setting it. |
| ResourceExists.Eval | src/main/org/apache/ant/antunit/ResourceExists.java:60-65 | Without a resource the condition is an error. Otherwise it holds iff the resource exists. |
| ResourceExists.ExactlyOneResource | src/main/org/apache/ant/antunit/ResourceExists.java:42-64 | Configuration fails iff more than one resource is given. None makes evaluation fail. Exactly one gives that resource's existence. |
| AntUnitTestCase.Format | src/main/org/apache/ant/antunit/junit3/AntUnitTestCase.java:162-166 | A test name is the target followed by the script in brackets. |
| AntUnitTestCase.ParseUnits | src/main/org/apache/ant/antunit/junit3/AntUnitTestCase.java:156-158 | Over UTF-16 code units: the cut fails iff the units hold no space, or fewer than two units follow the first one. Otherwise it names the first space and the units after it, minus the first and the last one. |
| AntUnitTestCase.Parse | src/main/org/apache/ant/antunit/junit3/AntUnitTestCase.java:154-160 | Positions count UTF-16 code units, as Java's `indexOf`, `substring` and `length` do. Parsing fails with index-out-of-bounds iff the name has no space, or fewer than two code units follow it. Otherwise the target is the text before the first space. The script is the code units from the second one after that space up to, but not including, the last one; neither bracket is checked. |
| AntUnitTestCase.SupplementaryAfterSpace | src/main/org/apache/ant/antunit/junit3/AntUnitTestCase.java:154-160 | `t 😀` parses with target `t` and an empty script, because the cut falls between the two halves of the surrogate pair. |
| AntUnitTestCase.SupplementaryLastCharacter | src/main/org/apache/ant/antunit/junit3/AntUnitTestCase.java:154-160 | `t x😀` parses with target `t` and the script 0xD83D, a lone high surrogate. |
| AntUnitTestCase.ParseFormat | src/main/org/apache/ant/antunit/junit3/AntUnitTestCase.java:154-166 | Parsing a formatted name gives back its script and target when the target has no space. |
| AntUnitTestCase.FormatParse | src/main/org/apache/ant/antunit/junit3/AntUnitTestCase.java:154-166 | Re-formatting a parsed name, over code units, gives the name back iff the unit after the first space is `[` and the last unit is `]`. |
| AntUnitTestCase.SpaceInTargetIsLost | src/main/org/apache/ant/antunit/junit3/AntUnitTestCase.java:154-156 | A target name containing a space is cut at the space when parsed back. |
| AntUnitTestCase.InSuite | src/main/org/apache/ant/antunit/junit3/AntUnitTestCase.java:100-106 | A case made by its suite has no initialisation error and carries the formatted name. |
| AntUnitTestCase.FromName | src/main/org/apache/ant/antunit/junit3/AntUnitTestCase.java:73-88 | A name that cannot be parsed raises. A suite that cannot be built is kept as the initialisation error. Any other throwable raises. |
| AntUnitTestCase.Run | src/main/org/apache/ant/antunit/junit3/AntUnitTestCase.java:121-131 | A case delegates to its suite iff it has one and no initialisation error. Otherwise it runs alone and throws that error. |
| AntUnitTestCase.RunTest | src/main/org/apache/ant/antunit/junit3/AntUnitTestCase.java:139-141 | Running alone throws the initialisation error, or a `NullPointerException` when there is none. |
| AntUnitTestCase.RunDispatch | src/main/org/apache/ant/antunit/junit3/AntUnitTestCase.java:73-131 | A case delegates to its suite iff the suite was built. A case whose suite failed reports the failure. |
| JUnitNotificationAdapter.TestByTarget | src/main/org/apache/ant/antunit/junit3/JUnitNotificationAdapter.java:41-47 | The map has exactly the targets of the given tests as keys. |
| JUnitNotificationAdapter.LaterTestWins | src/main/org/apache/ant/antunit/junit3/JUnitNotificationAdapter.java:43-46 | When targets repeat, the last test with that target wins. |
| JUnitNotificationAdapter.Lookup | src/main/org/apache/ant/antunit/junit3/JUnitNotificationAdapter.java:51 | A target without a test maps to `null`. |
| JUnitNotificationAdapter.Forward | src/main/org/apache/ant/antunit/junit3/JUnitNotificationAdapter.java:49-67 | Starts and ends are forwarded as such. Failures and errors both become JUnit errors carrying the same throwable. Nothing becomes a JUnit failure. |
| JUnitNotificationAdapter.Adapt | src/main/org/apache/ant/antunit/junit3/JUnitNotificationAdapter.java:49-67 | Every notification is forwarded once, in order. |
| JUnitNotificationAdapter.HooksReachJUnitAsNull | src/main/org/apache/ant/antunit/junit3/JUnitNotificationAdapter.java:49-52 | A notification finds a JUnit test iff some test has its target. Hook notifications therefore reach JUnit with `null`. |
| JUnitNotificationAdapter.FailuresCountAsErrors | src/main/org/apache/ant/antunit/junit3/JUnitNotificationAdapter.java:62-67 | JUnit's error count equals the number of AntUnit failures and errors together. |
| BaseAntUnitListener.Count | src/main/org/apache/ant/antunit/listener/BaseAntUnitListener.java:112-132 | A suite start resets all counters. A test start, a failure and an error each increment only their own counter. |
| BaseAntUnitListener.CountersTallyCalls | src/main/org/apache/ant/antunit/listener/BaseAntUnitListener.java:123-132 | Without a new suite, each counter grows by the number of its calls. |
| BaseAntUnitListener.SuiteCountersTallyItsCalls | src/main/org/apache/ant/antunit/listener/BaseAntUnitListener.java:112-132 | After a suite start, the counters equal the number of test starts, failures and errors since. |
| BaseAntUnitListener.WrapIOException | src/main/org/apache/ant/antunit/listener/BaseAntUnitListener.java:157-161 | A failure to open the report file becomes a `BuildException` whose cause is the I/O exception. |
| BaseAntUnitListener.Normalize | src/main/org/apache/ant/antunit/listener/BaseAntUnitListener.java:174-187 | The normalised name holds no ':' and no separator. Only one leading separator is dropped. |
| BaseAntUnitListener.NormalizeChars | src/main/org/apache/ant/antunit/listener/BaseAntUnitListener.java:180-186 | In the normalised name, a '.' marks a separator and a '_' marks one of '.', ':' or '_'. Every other character is kept. |
| BaseAntUnitListener.ReportFileName | src/main/org/apache/ant/antunit/listener/BaseAntUnitListener.java:151 | The report file name is "TEST-", the normalised build file, '.', then the extension. |
| BaseAntUnitListener.ReportPath | src/main/org/apache/ant/antunit/listener/BaseAntUnitListener.java:152-156 | The report goes to `toDir` when set. Otherwise it is resolved against the parent task's project when there is one, and otherwise against the working directory. |
| BaseAntUnitListener.LogSink | src/main/org/apache/ant/antunit/listener/BaseAntUnitListener.java:139-143 | The log goes to the parent task when there is one, otherwise to standard output. |
| BaseAntUnitListener.GetOut | src/main/org/apache/ant/antunit/listener/BaseAntUnitListener.java:134-167 | "ant" writes to the log only. "file" writes to the report file only. "both" tees the log and the file. Opening the file can fail only for "file" and "both". |
| BaseAntUnitListener.DestinationsFollowSendLogTo | src/main/org/apache/ant/antunit/listener/BaseAntUnitListener.java:134-167 | The stream writes to the log iff the attribute is not "file", and to a file iff it is not "ant". |
| BaseAntUnitListener.GetLocation | src/main/org/apache/ant/antunit/listener/BaseAntUnitListener.java:189-198 | The location is the one a `BuildException` carries, or the unknown location. |
| BaseAntUnitListener.LineOnlyFromBuildExceptions | src/main/org/apache/ant/antunit/listener/BaseAntUnitListener.java:189-198 | A non-zero line number can only come from a `BuildException` that carries it. |
| FailureAntUnitListener.NewTestInfos | src/main/org/apache/ant/antunit/listener/FailureAntUnitListener.java:154-160 | A failed test records whether the project has `setUp` and `tearDown`, the build file, the target and the message. |
| FailureAntUnitListener.AntFile | src/main/org/apache/ant/antunit/listener/FailureAntUnitListener.java:175 | The build-file path uses '/' only: every backslash is replaced and nothing else changes. |
| FailureAntUnitListener.Lines | src/main/org/apache/ant/antunit/listener/FailureAntUnitListener.java:166-193 | A failed test is written as a comment with its message, then an `<ant>` call of its build file. The call lists `setUp` if present, the target, then `tearDown` if present. |
| FailureAntUnitListener.RenderIsLines | src/main/org/apache/ant/antunit/listener/FailureAntUnitListener.java:166-193 | The text of `Render` (`TestInfos.toString`) is exactly those lines, each followed by the line separator. |
| FailureAntUnitListener.CompareTo | src/main/org/apache/ant/antunit/listener/FailureAntUnitListener.java:196-203 | Failed tests are ordered by their rendered text. They compare equal iff the texts are equal. Any other object sorts after. |
| FailureAntUnitListener.CompareToAntisymmetric | src/main/org/apache/ant/antunit/listener/FailureAntUnitListener.java:196-203 | Swapping two failed tests negates the comparison. |
| FailureAntUnitListener.Insert | src/main/org/apache/ant/antunit/listener/FailureAntUnitListener.java:79-84 | Adding to the sorted set keeps it sorted and yields exactly the old elements plus the new one. A duplicate adds nothing. |
| FailureAntUnitListener.InsertPresent | src/main/org/apache/ant/antunit/listener/FailureAntUnitListener.java:50 | Adding an element already present leaves the set unchanged. |
| FailureAntUnitListener.SortedByElements | src/main/org/apache/ant/antunit/listener/FailureAntUnitListener.java:50 | A sorted set is determined by its elements: the order of insertion does not matter. |
| FailureAntUnitListener.BuildFileText | src/main/org/apache/ant/antunit/listener/FailureAntUnitListener.java:91-120 | The generated build file starts with the fixed preamble that re-runs itself through `<au:antunit>`, and ends with `</project>`. |
| FailureAntUnitListener.BuildFileEntry | src/main/org/apache/ant/antunit/listener/FailureAntUnitListener.java:91-120 | The whole build file is the preamble, then the targets of the failed tests before test `k`, then test `k` in target `test<k>`, then the targets of the tests after it, then `</project>`. |
| FailureAntUnitListener.TargetsNumbered | src/main/org/apache/ant/antunit/listener/FailureAntUnitListener.java:107-117 | The k-th failed test, in sorted order, is wrapped in target `test<k>`. |
| FailureAntUnitListener.Record | src/main/org/apache/ant/antunit/listener/FailureAntUnitListener.java:77-85 | A failure or error before any suite start is a `NullPointerException`. Otherwise the set gains exactly the rendered test and stays sorted. |
| FailureAntUnitListener.Handle | src/main/org/apache/ant/antunit/listener/FailureAntUnitListener.java:71-132 | The set stays sorted and only grows. A suite start remembers the project and build file. A failure or error adds exactly its rendered test to the set. A suite end writes the set file with the build file for the whole current set. Test start and end change nothing. The listener fails iff a report comes before any suite, or the file is unset or cannot be opened at a suite end. |
| FailureAntUnitListener.HandleAll | src/main/org/apache/ant/antunit/listener/FailureAntUnitListener.java:50-132 | Over any sequence of calls, the static set of failed tests stays sorted and never loses an element, across suites. |
| FailureAntUnitListener.HandleAllAppend | src/main/org/apache/ant/antunit/listener/FailureAntUnitListener.java:50-132 | Handling two call sequences in turn is handling their concatenation: the written files are concatenated, and a failing call ends the run. |
| FailureAntUnitListener.LaterFilesHold | src/main/org/apache/ant/antunit/listener/FailureAntUnitListener.java:50-132 | An entry of the set is in every build file written afterwards and in the set at the end. |
| FailureAntUnitListener.FailureReachesLaterFiles | src/main/org/apache/ant/antunit/listener/FailureAntUnitListener.java:77-132 | A failure or error reported inside a suite is in the set at the end and in every build file written after it, by its own suite and by every later one. |
| FailureAntUnitListener.EqualFailuresCollapse | src/main/org/apache/ant/antunit/listener/FailureAntUnitListener.java:79-84 | Two failures that render identically are kept once. |
| PlainAntUnitListener.Configure | src/main/org/apache/ant/antunit/listener/PlainAntUnitListener.java:56-65 | The report goes to the log unless `sendLogTo` says otherwise. Report files have the extension "txt". |
| PlainAntUnitListener.LogBlock | src/main/org/apache/ant/antunit/listener/PlainAntUnitListener.java:96-103 | The "Log Output" block appears iff something was logged. |
| PlainAntUnitListener.LocationLine | src/main/org/apache/ant/antunit/listener/PlainAntUnitListener.java:140-147 | A location line appears iff the line number is non-zero. It names the column only when that is non-zero. |
| PlainAntUnitListener.NoLocationWithoutBuildLocation | src/main/org/apache/ant/antunit/listener/PlainAntUnitListener.java:138-150 | In `FormatError` (`formatError`), a problem without a located `BuildException` prints only its kind and its message. |
| PlainAntUnitListener.LocatedFailureShowsLine | src/main/org/apache/ant/antunit/listener/PlainAntUnitListener.java:138-150 | A located `BuildException` prints its kind, then its line, with the column when known, then its message. |
| PlainAntUnitListener.Print | src/main/org/apache/ant/antunit/listener/PlainAntUnitListener.java:119-122 | Printing before any suite started is a `NullPointerException`. Otherwise the text is appended to the buffered details. |
| PlainAntUnitListener.StartSuite | src/main/org/apache/ant/antunit/listener/PlainAntUnitListener.java:67-81 | A suite start fails exactly when `getOut` fails, and with the same throwable. Otherwise it keeps the stream `getOut` opened and writes the `Build File:` header to it. It resets the counters and the details buffer, but not the log. |
| PlainAntUnitListener.EndSuite | src/main/org/apache/ant/antunit/listener/PlainAntUnitListener.java:83-117 | A suite end clears the log and writes once iff an output stream is open. |
| PlainAntUnitListener.Handle | src/main/org/apache/ant/antunit/listener/PlainAntUnitListener.java:67-155 | Logged messages are appended to the log with a newline. Calls update the counters as the base listener does. Only a listener call can fail. |
| PlainAntUnitListener.InsideSuite | src/main/org/apache/ant/antunit/listener/PlainAntUnitListener.java:119-155 | Inside a suite nothing is written. The counters follow the calls, the details buffer gains each test's detail, and the log gains each message. |
| PlainAntUnitListener.SuiteReport | src/main/org/apache/ant/antunit/listener/PlainAntUnitListener.java:67-155 | A suite writes exactly two things: the header `Build File: <file>` (`Header`), then the line `Tests run: R, Failures: F, Errors: E, Time elapsed: T sec` (`Summary`) with the tallied counters, the log block and the buffered details. The log is empty afterwards. |

## Behaviour worth noting

- **A target without a clean project.** `runTarget` asks for a clean project before its
  `try`. A factory failure there escapes the test loop instead of being reported for
  the test (`ScriptRunner.RunTarget`, `ScriptRunnerProperties.RunTargetEscapes`).
- **Suite-level hooks report a start only on failure.** `suiteSetUp` and
  `suiteTearDown` notify a start only inside their `catch`, so a passing hook notifies
  nothing.
- **`endSuite` can be cut short.** A non-`BuildException` from `suiteTearDown` escapes
  `endSuite`. The build-finished event is then never fired and the suite stays started.
- **`finally` replaces the pending throwable.** In `AntUnit` a throwing `tearDown`
  replaces whatever was pending and ends the file's test loop.
- **The `<antunit>` task reuses one project per file.** It runs every test on the one
  project parsed from a build file; only the script runner gives each test a new
  project.
- **The task's order of reports.** The task reports a test's end before its outcome.
  When `setUp` fails, the task reports the test with no start or end.
- **The one-argument suite calls.** `AntUnit.java` calls `startTestSuite(buildFile)` and
  `endTestSuite(buildFile)` with the build file only.
- **A test name is cut in code units.** `TestCaseName(String)` cuts the name with
  `indexOf` and `substring`, which count UTF-16 code units. A name that ends in a
  character above U+FFFF loses only half of it, so the script can end in a lone high
  surrogate (`AntUnitTestCase.SupplementaryLastCharacter`).
- **`String.compareTo` works on UTF-16 code units.** A character above U+FFFF sorts by
  its high surrogate, so the set of failed tests can order such a character before one
  in U+E000 to U+FFFF.

## Left out

- The XML listener, the JUnit 4 runners, `AntUnitSuite`, `ErrorTestCase`,
  `MultiProjectDemuxOutputStream` and `LogForwarder`: output formats and adapters
  around the runner, not part of this model.
- The legacy `PlainAntUnitListener` in the package root: the model follows
  `listener/PlainAntUnitListener.java`.
- Ant's `Project`, `Target`, `FileSet`, `DirectoryScanner` and `ProjectHelper`: parsing
  and executing targets are inputs, a scripted `Script` per file.
- `FileUtils.removeLeadingPath`: the base-relative build-file path is a parameter of
  the listener environment.
- Resolving and writing files: a report destination is a `FilePath` value. The bytes
  written are the string, with no platform encoding.
- Clocks and `NumberFormat`: elapsed times are opaque strings. Counts are printed in
  plain decimal, without the grouping `NumberFormat` adds from 1000 on.
- `System.err.println` in `ResourceExists.setResource`: diagnostic output only.
- `isReference()` in `LogContent`, and `refid` resources: reference resolution is Ant's.
- The `setOutput` call that `AntUnit`'s build-listener adapter makes: it only redirects
  output.
- Output redirection (`handleOutput`, `handleInput` and the flush methods of `AntUnit`).
- JDK exception messages: a wrapped `IOException`'s message is kept without the JDK's
  class-name prefix. `NullPointerException` and `IndexOutOfBoundsException` carry no
  message.
- `AntUnitTestCase.Parse`: names are Dafny strings of Unicode scalar values. A test name
  that itself holds an unpaired surrogate, which a Java `String` allows, is not modelled.
  The script read back is a sequence of code units, so a surrogate pair cut in two is kept.
- `ScriptRunner.Script`: the datatype allows a target name twice, which a project's
  target table cannot hold. `Distinct` states the table's guarantee, and
  `ScriptRunner.ScanKeepsDistinct` shows that the scan keeps it.
- `BaseAntUnitListener.Count`: the counters are unbounded. Java `int` wrap-around after
  2^31 calls is not modelled.
- `FailureAntUnitListener.NewTestInfos`: a `null` exception message is not modelled;
  messages are strings.
- `PlainAntUnitListener.Configure`: setting `sendLogTo` to no value (a `null` attribute)
  is not modelled.
- `PlainAntUnitListener.Handle`: the listener's state after a call throws is not
  modelled; a failing call ends the run.
- `AntUnitTask.EveryListenerReceivesAllCalls`: it assumes no listener throws.
  `BroadcastFrom` models one fire loop whose listeners throw: delivery stops at the first
  thrower. That throwable is not carried into the test and file loops.
- `AntUnitTask.DoFile`: exceptions thrown by listeners are not threaded through the file.
  In `AntUnit.java`, one from `fireBuildStarted` (line 114) leaves `doFile` before
  `buildFinished` is fired. One from `fireBuildFinished` (line 156) replaces `caught`. One
  from a report inside a test passes through `tearDown` and becomes `caught`. The model's
  listener calls assume every listener returns normally.
- `FailureAntUnitListener.Handle`: the inherited counters are not modelled, because this
  listener's output never uses them.
- `ScriptRunner.RunTarget`: the `AssertionError` for a test run before the suite started
  is an `Other` throwable with no message.
- `Exceptions.FindMarker`: a `Throwable` is a finite value, so cause chains are acyclic.
  Java allows a cycle through `initCause`; on one without a marker the loops in
  `AntUnitScriptRunner.java` and `AntUnit.java` never end. That case is not modelled.

=== FILE: AntUnitTask.dfy ===
/** The `<antunit>` task (`AntUnit`), the older orchestration: every target whose name
    starts with "test" runs on the ONE project parsed from each build file, failures are
    classified by the task itself, counted, and every report is forwarded to each
    attached listener in list order. */
module AntUnitTask {
  import opened Wrappers
  import opened Strings
  import opened Exceptions
  import ScriptRunner

  const ErrorTestsFailed := "Tests failed with "
  const ErrorNoFileset := "You must specify at least one nested fileset."

  /** The calls an `AntUnitListener` receives from this task. */
  datatype ListenerCall =
    | StartTestSuite(buildFile: string)
    | EndTestSuite(buildFile: string)
    | StartTest(target: string)
    | EndTest(target: string)
    | AddFailure(target: string, failure: Throwable)
    | AddError(target: string, error: Throwable)

  /** A call as it reaches the listener at position `listener` of the task's list. */
  datatype Delivery = Delivery(listener: nat, call: ListenerCall)

  /** The task's `failures` and `errors` fields. */
  datatype Counts = Counts(failures: nat, errors: nat)

  /** A build file handed out by a fileset: its absolute path and the result of parsing it. */
  datatype BuildFile = BuildFile(path: string, parsed: Result<ScriptRunner.Script, Throwable>)

  /** The outcome of running tests: listener calls in order, the counters afterwards and
      the throwable escaping, if any. */
  datatype Run = Run(calls: seq<ListenerCall>, counts: Counts, thrown: Option<Throwable>)

  /** The task's own rule: every target name starting with "test", "test" itself included. */
  predicate IsTest(name: string) {
    StartsWith(name, ScriptRunner.Test)
  }

  // ------------------------------------------------------------- counting reports

  function Failures(calls: seq<ListenerCall>): nat {
    if |calls| == 0 then 0 else (if calls[0].AddFailure? then 1 else 0) + Failures(calls[1..])
  }

  function Errors(calls: seq<ListenerCall>): nat {
    if |calls| == 0 then 0 else (if calls[0].AddError? then 1 else 0) + Errors(calls[1..])
  }

  lemma {:induction false} CountAppend(a: seq<ListenerCall>, b: seq<ListenerCall>)
    ensures Failures(a + b) == Failures(a) + Failures(b)
    ensures Errors(a + b) == Errors(a) + Errors(b)
    decreases |a|
  {
    if |a| > 0 {
      assert (a + b)[1..] == a[1..] + b;
      CountAppend(a[1..], b);
    } else {
      assert a + b == b;
    }
  }

  lemma CountSingle(c: ListenerCall)
    ensures Failures([c]) == (if c.AddFailure? then 1 else 0)
    ensures Errors([c]) == (if c.AddError? then 1 else 0)
  {
    assert [c][1..] == [];
  }

  /** `counts` plus the reports among `calls`. */
  function Add(counts: Counts, calls: seq<ListenerCall>): Counts {
    Counts(counts.failures + Failures(calls), counts.errors + Errors(calls))
  }

  lemma AddAppend(counts: Counts, a: seq<ListenerCall>, b: seq<ListenerCall>)
    ensures Add(Add(counts, a), b) == Add(counts, a + b)
  {
    CountAppend(a, b);
  }

  // ------------------------------------------------------- running targets

  /** The listener calls caused by running one target: `BuildToAntUnitListener` passes
      targetStarted and targetFinished on only for targets that are tests; Ant fires
      targetFinished even when the target throws. */
  function Bracket(name: string): (r: seq<ListenerCall>)
    ensures IsTest(name) ==> r == [StartTest(name), EndTest(name)]
    ensures !IsTest(name) ==> r == []
    ensures Failures(r) == 0 && Errors(r) == 0
  {
    if IsTest(name) then
      CountSingle(StartTest(name));
      CountSingle(EndTest(name));
      CountAppend([StartTest(name)], [EndTest(name)]);
      assert [StartTest(name)] + [EndTest(name)] == [StartTest(name), EndTest(name)];
      [StartTest(name), EndTest(name)]
    else []
  }

  /** `executeTargets(names)` on the build file's project, with the listener calls it
      causes; the outcome is the runner's, since both stop at the first throwable. */
  function ExecuteTargets(s: ScriptRunner.Script, names: seq<string>): (r: (seq<ListenerCall>, Option<Throwable>))
    ensures r.1 == ScriptRunner.RunTargets(s, names)
    ensures Failures(r.0) == 0 && Errors(r.0) == 0
    ensures forall i :: 0 <= i < |r.0| ==> (r.0[i].StartTest? || r.0[i].EndTest?) && IsTest(r.0[i].target)
    decreases |names|
  {
    if |names| == 0 then ([], None)
    else
      var b := Bracket(names[0]);
      if names[0] in s.throws then (b, Some(s.throws[names[0]]))
      else
        var (rest, t) := ExecuteTargets(s, names[1..]);
        CountAppend(b, rest);
        (b + rest, t)
  }

  /** The task's classifier: an `AssertionFailedException` caught directly is the failure;
      otherwise the walk starts at the cause, through `BuildException`s only. On every
      `BuildException` it picks the same marker as the runner's `fireFailOrError`. */
  function Marker(e: Throwable): (r: Option<Throwable>)
    requires e.IsBuildException()
    ensures r == FindMarker(Some(e))
    ensures r.Some? ==> r.value.IsAssertionFailed()
  {
    if e.IsAssertionFailed() then Some(e)
    else FindMarker(e.cause)
  }

  /** The two catch clauses of the test loop: one `fireFail` or one `fireError`, each of
      which counts itself. */
  function Report(name: string, e: Throwable, counts: Counts): (r: (seq<ListenerCall>, Counts))
    requires e.IsBuildException()
    ensures |r.0| == 1 && (r.0[0].AddFailure? || r.0[0].AddError?) && r.0[0].target == name
    ensures r.0[0].AddFailure? <==> HasMarker(BuildChain(Some(e)))
    ensures r.0[0].AddError? ==> r.0[0].error == e
    ensures r.1 == Add(counts, r.0)
  {
    match Marker(e)
    case Some(m) =>
      CountSingle(AddFailure(name, m));
      ([AddFailure(name, m)], counts.(failures := counts.failures + 1))
    case None =>
      CountSingle(AddError(name, e));
      ([AddError(name, e)], counts.(errors := counts.errors + 1))
  }

  /** The catch clauses of one test: a `BuildException` is reported as a failure or an
      error and goes no further; any other throwable is still pending. */
  function Catch(name: string, ev: seq<ListenerCall>, t: Option<Throwable>, counts: Counts): (r: Run)
    requires Failures(ev) == 0 && Errors(ev) == 0
    ensures r.counts == Add(counts, r.calls)
    ensures r.thrown.None? <==> t.None? || t.value.IsBuildException()
    ensures r.thrown.Some? ==> r.thrown == t && r.calls == ev
  {
    if t.Some? && t.value.IsBuildException() then
      var (rep, c1) := Report(name, t.value, counts);
      AddAppend(counts, ev, rep);
      Run(ev + rep, c1, None)
    else Run(ev, counts, t)
  }

  /** One test: the batch [setUp?, name], the catch clauses, and tearDown in a finally
      that is not guarded, so whatever tearDown throws replaces what was pending. */
  function DoTest(s: ScriptRunner.Script, hasSetUp: bool, hasTearDown: bool, name: string, counts: Counts): (r: Run)
    ensures r.counts == Add(counts, r.calls)
    ensures r.thrown.Some? ==> !r.thrown.value.IsBuildException() || hasTearDown
  {
    var batch := (if hasSetUp then [ScriptRunner.SetUp] else []) + [name];
    var (ev, t) := ExecuteTargets(s, batch);
    var caught := Catch(name, ev, t, counts);
    if hasTearDown then
      var (ev2, t2) := ExecuteTargets(s, [ScriptRunner.TearDown]);
      CountAppend(caught.calls, ev2);
      Run(caught.calls + ev2, caught.counts, if t2.Some? then t2 else caught.thrown)
    else caught
  }

  /** The loop over the project's targets: tests in table order, the rest skipped, left
      at the first escaping throwable. */
  function DoTests(s: ScriptRunner.Script, hasSetUp: bool, hasTearDown: bool, names: seq<string>, counts: Counts): (r: Run)
    ensures r.counts == Add(counts, r.calls)
    decreases |names|
  {
    if |names| == 0 then Run([], counts, None)
    else if !IsTest(names[0]) then DoTests(s, hasSetUp, hasTearDown, names[1..], counts)
    else
      var t := DoTest(s, hasSetUp, hasTearDown, names[0], counts);
      if t.thrown.Some? then t
      else
        var rest := DoTests(s, hasSetUp, hasTearDown, names[1..], t.counts);
        AddAppend(counts, t.calls, rest.calls);
        Run(t.calls + rest.calls, rest.counts, rest.thrown)
  }

  /** The outcome of `doFile`: `caught` is what `fireBuildFinished` receives; `escaped`
      is a parse failure, which happens before the try block and leaves the task. */
  datatype FileRun = FileRun(calls: seq<ListenerCall>, counts: Counts, caught: Option<Throwable>, escaped: Option<Throwable>)

  /** `doFile`: parse, then buildStarted, the tests, and buildFinished on every path. */
  function DoFile(f: BuildFile, counts: Counts): (r: FileRun)
    ensures r.counts == Add(counts, r.calls)
    ensures r.escaped.None? <==> f.parsed.Ok?
    ensures r.escaped.None? ==> |r.calls| >= 2 && r.calls[0] == StartTestSuite(f.path)
                                && r.calls[|r.calls| - 1] == EndTestSuite(f.path)
    ensures r.escaped.Some? ==> r.calls == [] && r.caught.None?
  {
    match f.parsed
    case Err(e) => FileRun([], counts, None, Some(e))
    case Ok(s) =>
      var ts := s.targets;
      var t := DoTests(s, ScriptRunner.SetUp in ts, ScriptRunner.TearDown in ts, ts, counts);
      var calls := [StartTestSuite(f.path)] + t.calls + [EndTestSuite(f.path)];
      assert Add(counts, calls) == t.counts by {
        CountSingle(StartTestSuite(f.path));
        CountSingle(EndTestSuite(f.path));
        AddAppend(counts, [StartTestSuite(f.path)], t.calls);
        AddAppend(counts, [StartTestSuite(f.path)] + t.calls, [EndTestSuite(f.path)]);
      }
      FileRun(calls, t.counts, t.thrown, None)
  }

  /** The files of all filesets, in order, each through `doFile`, stopping at an escape. */
  function DoFiles(files: seq<BuildFile>, counts: Counts): (r: Run)
    ensures r.counts == Add(counts, r.calls)
    decreases |files|
  {
    if |files| == 0 then Run([], counts, None)
    else
      var d := DoFile(files[0], counts);
      if d.escaped.Some? then Run(d.calls, d.counts, d.escaped)
      else
        var rest := DoFiles(files[1..], d.counts);
        AddAppend(counts, d.calls, rest.calls);
        Run(d.calls + rest.calls, rest.counts, rest.thrown)
  }

  function Flatten(filesets: seq<seq<BuildFile>>): seq<BuildFile> {
    if |filesets| == 0 then [] else filesets[0] + Flatten(filesets[1..])
  }

  // --------------------------------------------------- which tests and files run

  /** What one test or one build file contributes to its loop: its listener calls, and the
      throwable that leaves the loop after it, if any. */
  datatype Outcome = Outcome(calls: seq<ListenerCall>, thrown: Option<Throwable>)

  /** A loop that takes its steps in order and is left at the first step whose throwable
      escapes, which is then the loop's. */
  function Loop(steps: seq<Outcome>): (r: Outcome)
    ensures r.thrown.None? <==> forall i :: 0 <= i < |steps| ==> steps[i].thrown.None?
    decreases |steps|
  {
    if |steps| == 0 then Outcome([], None)
    else if steps[0].thrown.Some? then steps[0]
    else
      var rest := Loop(steps[1..]);
      assert forall i :: 1 <= i < |steps| ==> steps[i] == steps[1..][i - 1];
      Outcome(steps[0].calls + rest.calls, rest.thrown)
  }

  /** How many steps the loop takes: all of them, or up to and including the first whose
      throwable escapes. */
  function Ran(steps: seq<Outcome>): (k: nat)
    ensures k <= |steps|
    ensures forall i :: 0 <= i < k - 1 ==> steps[i].thrown.None?
    ensures k < |steps| ==> k > 0 && steps[k - 1].thrown.Some?
    decreases |steps|
  {
    if |steps| == 0 then 0
    else if steps[0].thrown.Some? then 1
    else
      var k := Ran(steps[1..]);
      assert forall i :: 1 <= i < |steps| ==> steps[i] == steps[1..][i - 1];
      1 + k
  }

  /** The calls of the given steps, one block after the other. */
  function Blocks(steps: seq<Outcome>): seq<ListenerCall>
    decreases |steps|
  {
    if |steps| == 0 then [] else steps[0].calls + Blocks(steps[1..])
  }

  /** The loop's calls are the blocks of the steps it took, a prefix of all steps, each
      once and in order; what leaves it is the last of those steps' throwable. */
  lemma {:induction false} LoopRunsPrefix(steps: seq<Outcome>)
    ensures var k := Ran(steps);
      Loop(steps) == Outcome(Blocks(steps[..k]), if k == 0 then None else steps[k - 1].thrown)
    decreases |steps|
  {
    if |steps| > 0 {
      if steps[0].thrown.Some? {
        assert steps[..1] == [steps[0]] && steps[..1][1..] == [];
      } else {
        var rest := steps[1..];
        LoopRunsPrefix(rest);
        var k := Ran(rest);
        assert steps[..k + 1][0] == steps[0] && steps[..k + 1][1..] == rest[..k];
        if k > 0 {
          assert steps[k] == rest[k - 1];
        }
      }
    }
  }

  /** The targets of a table that the loop treats as tests, in table order. */
  function Tests(names: seq<string>): (r: seq<string>)
    ensures |r| <= |names|
    ensures forall i :: 0 <= i < |r| ==> IsTest(r[i])
    decreases |names|
  {
    if |names| == 0 then [] else (if IsTest(names[0]) then [names[0]] else []) + Tests(names[1..])
  }

  lemma TestsCons(names: seq<string>)
    requires |names| > 0
    ensures IsTest(names[0]) ==> Tests(names) == [names[0]] + Tests(names[1..])
    ensures !IsTest(names[0]) ==> Tests(names) == Tests(names[1..])
  {
  }

  /** One test as a step of the test loop; it does not depend on the counters. */
  function TestStep(s: ScriptRunner.Script, hasSetUp: bool, hasTearDown: bool, name: string): Outcome {
    var t := DoTest(s, hasSetUp, hasTearDown, name, Counts(0, 0));
    Outcome(t.calls, t.thrown)
  }

  lemma DoTestIgnoresCounts(s: ScriptRunner.Script, hasSetUp: bool, hasTearDown: bool, name: string, counts: Counts)
    ensures var t := DoTest(s, hasSetUp, hasTearDown, name, counts);
      Outcome(t.calls, t.thrown) == TestStep(s, hasSetUp, hasTearDown, name)
  {
    var batch := (if hasSetUp then [ScriptRunner.SetUp] else []) + [name];
    var (ev, t) := ExecuteTargets(s, batch);
    CatchIgnoresCounts(name, ev, t, counts, Counts(0, 0));
  }

  lemma CatchIgnoresCounts(name: string, ev: seq<ListenerCall>, t: Option<Throwable>, c1: Counts, c2: Counts)
    requires Failures(ev) == 0 && Errors(ev) == 0
    ensures Catch(name, ev, t, c1).calls == Catch(name, ev, t, c2).calls
    ensures Catch(name, ev, t, c1).thrown == Catch(name, ev, t, c2).thrown
  {
    if t.Some? && t.value.IsBuildException() {
      assert Report(name, t.value, c1).0 == Report(name, t.value, c2).0;
    }
  }

  /** The given tests as the steps of the test loop. */
  function TestSteps(s: ScriptRunner.Script, hasSetUp: bool, hasTearDown: bool, tests: seq<string>): (r: seq<Outcome>)
    ensures |r| == |tests|
    ensures forall i :: 0 <= i < |tests| ==> r[i] == TestStep(s, hasSetUp, hasTearDown, tests[i])
    decreases |tests|
  {
    if |tests| == 0 then [] else [TestStep(s, hasSetUp, hasTearDown, tests[0])] + TestSteps(s, hasSetUp, hasTearDown, tests[1..])
  }

  /** `doTests` is the loop over the table's tests: targets that are not tests add nothing. */
  lemma {:induction false} DoTestsIsLoop(s: ScriptRunner.Script, hasSetUp: bool, hasTearDown: bool, names: seq<string>, counts: Counts)
    ensures var r := DoTests(s, hasSetUp, hasTearDown, names, counts);
      Outcome(r.calls, r.thrown) == Loop(TestSteps(s, hasSetUp, hasTearDown, Tests(names)))
    decreases |names|
  {
    if |names| > 0 {
      var rest := names[1..];
      TestsCons(names);
      if !IsTest(names[0]) {
        DoTestsIsLoop(s, hasSetUp, hasTearDown, rest, counts);
      } else {
        var t := DoTest(s, hasSetUp, hasTearDown, names[0], counts);
        DoTestIgnoresCounts(s, hasSetUp, hasTearDown, names[0], counts);
        var steps := TestSteps(s, hasSetUp, hasTearDown, Tests(names));
        assert steps[0] == TestStep(s, hasSetUp, hasTearDown, names[0]);
        assert steps[1..] == TestSteps(s, hasSetUp, hasTearDown, Tests(rest));
        if t.thrown.None? {
          DoTestsIsLoop(s, hasSetUp, hasTearDown, rest, t.counts);
        }
      }
    }
  }

  /** The test loop runs the table's tests in table order, each once, and stops after the
      first that lets a throwable escape, which is then the loop's. */
  lemma {:induction false} DoTestsRunsTestsInOrder(s: ScriptRunner.Script, hasSetUp: bool, hasTearDown: bool, names: seq<string>, counts: Counts)
    ensures var r := DoTests(s, hasSetUp, hasTearDown, names, counts);
      var steps := TestSteps(s, hasSetUp, hasTearDown, Tests(names));
      var k := Ran(steps);
      && r.calls == Blocks(steps[..k])
      && r.thrown == (if k == 0 then None else steps[k - 1].thrown)
  {
    DoTestsIsLoop(s, hasSetUp, hasTearDown, names, counts);
    LoopRunsPrefix(TestSteps(s, hasSetUp, hasTearDown, Tests(names)));
  }

  /** The calls of tests whose targets all complete: a start and an end for each. */
  function Passes(tests: seq<string>): (r: seq<ListenerCall>)
    ensures |r| == 2 * |tests|
    ensures forall i :: 0 <= i < |tests| ==> r[2 * i] == StartTest(tests[i]) && r[2 * i + 1] == EndTest(tests[i])
  {
    if |tests| == 0 then [] else [StartTest(tests[0]), EndTest(tests[0])] + Passes(tests[1..])
  }

  /** A test whose targets all complete notifies its start and end, and nothing else. */
  lemma DoTestPasses(s: ScriptRunner.Script, hasSetUp: bool, hasTearDown: bool, name: string, counts: Counts)
    requires IsTest(name) && s.throws == map[]
    ensures DoTest(s, hasSetUp, hasTearDown, name, counts) == Run([StartTest(name), EndTest(name)], counts, None)
  {
    TestRules(name);
    assert ExecuteTargets(s, []).1 == None;
    assert [name][0] == name && [name][1..] == [];
    var e := ExecuteTargets(s, [name]);
    assert e.1 == None && e.0 == [StartTest(name), EndTest(name)];
    var batch := (if hasSetUp then [ScriptRunner.SetUp] else []) + [name];
    if hasSetUp {
      assert batch[0] == ScriptRunner.SetUp && batch[1..] == [name];
      var b := ExecuteTargets(s, batch);
      assert b.1 == None && b.0 == e.0;
    }
    var down := [ScriptRunner.TearDown];
    assert down[0] == ScriptRunner.TearDown && down[1..] == [];
    var d := ExecuteTargets(s, down);
    assert d.1 == None && d.0 == [];
  }

  /** When no target throws, every test of the table is run in table order, each notifying
      its start and end; nothing escapes and nothing is counted. */
  lemma {:induction false} DoTestsPass(s: ScriptRunner.Script, hasSetUp: bool, hasTearDown: bool, names: seq<string>, counts: Counts)
    requires s.throws == map[]
    ensures DoTests(s, hasSetUp, hasTearDown, names, counts) == Run(Passes(Tests(names)), counts, None)
    decreases |names|
  {
    if |names| > 0 {
      var rest := names[1..];
      TestsCons(names);
      DoTestsPass(s, hasSetUp, hasTearDown, rest, counts);
      if IsTest(names[0]) {
        DoTestPasses(s, hasSetUp, hasTearDown, names[0], counts);
        assert ([names[0]] + Tests(rest))[1..] == Tests(rest);
      }
    }
  }

  /** A parsed build file notifies its start, the blocks of the tests the loop ran in table
      order, then its end; buildFinished receives what escaped the loop. */
  lemma DoFileRunsTests(f: BuildFile, counts: Counts)
    requires f.parsed.Ok?
    ensures var s := f.parsed.value;
      var steps := TestSteps(s, ScriptRunner.SetUp in s.targets, ScriptRunner.TearDown in s.targets, Tests(s.targets));
      var k := Ran(steps);
      && DoFile(f, counts).calls == [StartTestSuite(f.path)] + Blocks(steps[..k]) + [EndTestSuite(f.path)]
      && DoFile(f, counts).caught == (if k == 0 then None else steps[k - 1].thrown)
  {
    var s := f.parsed.value;
    DoTestsRunsTestsInOrder(s, ScriptRunner.SetUp in s.targets, ScriptRunner.TearDown in s.targets, s.targets, counts);
  }

  /** A parsed build file none of whose targets throws notifies its start, a start and an
      end for each of its tests in table order, and its end; buildFinished receives null. */
  lemma DoFilePasses(f: BuildFile, counts: Counts)
    requires f.parsed.Ok? && f.parsed.value.throws == map[]
    ensures DoFile(f, counts).calls == [StartTestSuite(f.path)] + Passes(Tests(f.parsed.value.targets)) + [EndTestSuite(f.path)]
    ensures DoFile(f, counts).caught.None? && DoFile(f, counts).counts == counts
  {
    var s := f.parsed.value;
    DoTestsPass(s, ScriptRunner.SetUp in s.targets, ScriptRunner.TearDown in s.targets, s.targets, counts);
  }

  /** One build file as a step of the file loop: a file that cannot be parsed adds no
      calls and its parse failure leaves the task; a parsed one adds the test loop's calls
      between its start and end, and nothing leaves the task. */
  function FileStep(f: BuildFile): (r: Outcome)
    ensures r.thrown.None? <==> f.parsed.Ok?
  {
    match f.parsed
    case Err(e) => Outcome([], Some(e))
    case Ok(s) =>
      var l := Loop(TestSteps(s, ScriptRunner.SetUp in s.targets, ScriptRunner.TearDown in s.targets, Tests(s.targets)));
      Outcome([StartTestSuite(f.path)] + l.calls + [EndTestSuite(f.path)], None)
  }

  /** `doFile`, whatever the counters, is that step; buildFinished receives what left the
      test loop. */
  lemma DoFileIsStep(f: BuildFile, counts: Counts)
    ensures var d := DoFile(f, counts);
      Outcome(d.calls, d.escaped) == FileStep(f)
    ensures f.parsed.Ok? ==>
      var s := f.parsed.value;
      DoFile(f, counts).caught == Loop(TestSteps(s, ScriptRunner.SetUp in s.targets, ScriptRunner.TearDown in s.targets, Tests(s.targets))).thrown
  {
    if f.parsed.Ok? {
      var s := f.parsed.value;
      DoTestsIsLoop(s, ScriptRunner.SetUp in s.targets, ScriptRunner.TearDown in s.targets, s.targets, counts);
    }
  }

  /** The given files as the steps of the file loop. */
  function FileSteps(files: seq<BuildFile>): (r: seq<Outcome>)
    ensures |r| == |files|
    ensures forall i :: 0 <= i < |files| ==> r[i] == FileStep(files[i])
  {
    seq(|files|, i requires 0 <= i < |files| => FileStep(files[i]))
  }

  /** The file loop is the loop over the files' steps. */
  lemma {:induction false} DoFilesIsLoop(files: seq<BuildFile>, counts: Counts)
    ensures var r := DoFiles(files, counts);
      Outcome(r.calls, r.thrown) == Loop(FileSteps(files))
    decreases |files|
  {
    if |files| > 0 {
      DoFileIsStep(files[0], counts);
      var d := DoFile(files[0], counts);
      var steps := FileSteps(files);
      assert steps[0] == Outcome(d.calls, d.escaped);
      if d.escaped.Some? {
        assert DoFiles(files, counts) == Run(d.calls, d.counts, d.escaped);
        assert Loop(steps) == steps[0];
      } else {
        var rest := DoFiles(files[1..], d.counts);
        assert DoFiles(files, counts).calls == d.calls + rest.calls;
        assert DoFiles(files, counts).thrown == rest.thrown;
        assert steps[1..] == FileSteps(files[1..]);
        DoFilesIsLoop(files[1..], d.counts);
      }
    }
  }

  /** The files are run in order, each once, until one cannot be parsed; its parse failure
      leaves the task. */
  lemma {:induction false} DoFilesRunsFilesInOrder(files: seq<BuildFile>, counts: Counts)
    ensures var r := DoFiles(files, counts);
      var steps := FileSteps(files);
      var k := Ran(steps);
      && r.calls == Blocks(steps[..k])
      && r.thrown == (if k > 0 && files[k - 1].parsed.Err? then Some(files[k - 1].parsed.error) else None)
  {
    DoFilesIsLoop(files, counts);
    LoopRunsPrefix(FileSteps(files));
  }

  /** "s" unless the count is exactly one. */
  function Plural(count: nat): (r: string)
    ensures r == [] <==> count == 1
  {
    if count != 1 then "s" else ""
  }

  function FailureWords(failures: nat): (r: string)
    ensures |r| > 0 && r[0] == ' '
  {
    " failure" + Plural(failures) + " and "
  }

  function ErrorWords(errors: nat): (r: string)
    ensures |r| > 0 && r[0] == ' '
  {
    " error" + Plural(errors)
  }

  /** The message of the final `BuildException`: each noun is plural unless its count is 1. */
  function Summary(failures: nat, errors: nat): string {
    ErrorTestsFailed + NatToString(failures) + FailureWords(failures) + NatToString(errors) + ErrorWords(errors)
  }

  /** `execute`: no fileset is an error; otherwise every file runs, and with failOnError
      any failure or error makes the task fail with the summary. The counters are fields
      of the task, so they start from what earlier executions left. */
  function Execute(filesets: seq<seq<BuildFile>>, failOnError: bool, counts: Counts): (r: Run)
    ensures |filesets| == 0 ==> r == Run([], counts, Some(BuildException(ErrorNoFileset, Some(UnknownLocation))))
    ensures r.counts == Add(counts, r.calls)
    ensures |filesets| > 0 && r.thrown.None? ==> !failOnError || (r.counts.failures == 0 && r.counts.errors == 0)
    ensures |filesets| > 0 && failOnError && DoFiles(Flatten(filesets), counts).thrown.None?
            && (r.counts.failures > 0 || r.counts.errors > 0)
            ==> r.thrown == Some(BuildException(Summary(r.counts.failures, r.counts.errors), Some(UnknownLocation)))
    ensures |filesets| > 0 && DoFiles(Flatten(filesets), counts).thrown.Some? ==> r == DoFiles(Flatten(filesets), counts)
    ensures |filesets| > 0 && DoFiles(Flatten(filesets), counts).thrown.None? ==>
      && r.calls == DoFiles(Flatten(filesets), counts).calls
      && (r.thrown.None? <==> !failOnError || (r.counts.failures == 0 && r.counts.errors == 0))
  {
    if |filesets| == 0 then Run([], counts, Some(BuildException(ErrorNoFileset, Some(UnknownLocation))))
    else
      var d := DoFiles(Flatten(filesets), counts);
      if d.thrown.Some? then d
      else if failOnError && (d.counts.failures > 0 || d.counts.errors > 0) then
        Run(d.calls, d.counts, Some(BuildException(Summary(d.counts.failures, d.counts.errors), Some(UnknownLocation))))
      else d
  }

  // ------------------------------------------------------------ listeners

  /** `fireFail`/`fireError` and the build listeners: one call handed to each of `n`
      listeners in list order. */
  function Broadcast(n: nat, call: ListenerCall): (r: seq<Delivery>)
    ensures |r| == n && forall i :: 0 <= i < n ==> r[i] == Delivery(i, call)
  {
    if n == 0 then [] else Broadcast(n - 1, call) + [Delivery(n - 1, call)]
  }

  function Deliver(n: nat, calls: seq<ListenerCall>): seq<Delivery> {
    if |calls| == 0 then [] else Broadcast(n, calls[0]) + Deliver(n, calls[1..])
  }

  /** What listener `k` sees, in order. */
  function Received(ds: seq<Delivery>, k: nat): seq<ListenerCall> {
    if |ds| == 0 then []
    else (if ds[0].listener == k then [ds[0].call] else []) + Received(ds[1..], k)
  }

  lemma {:induction false} ReceivedAppend(a: seq<Delivery>, b: seq<Delivery>, k: nat)
    ensures Received(a + b, k) == Received(a, k) + Received(b, k)
    decreases |a|
  {
    if |a| > 0 {
      assert (a + b)[1..] == a[1..] + b;
      ReceivedAppend(a[1..], b, k);
    } else {
      assert a + b == b;
    }
  }

  lemma {:induction false} ReceivedBroadcast(n: nat, c: ListenerCall, k: nat)
    ensures Received(Broadcast(n, c), k) == if k < n then [c] else []
    decreases n
  {
    if n > 0 {
      var d := Delivery(n - 1, c);
      ReceivedBroadcast(n - 1, c, k);
      ReceivedAppend(Broadcast(n - 1, c), [d], k);
      assert [d][1..] == [];
    }
  }

  /** Every attached listener receives every call, in the order the task made them. */
  lemma {:induction false} EveryListenerReceivesAllCalls(n: nat, calls: seq<ListenerCall>, k: nat)
    requires k < n
    ensures Received(Deliver(n, calls), k) == calls
    decreases |calls|
  {
    if |calls| > 0 {
      ReceivedAppend(Broadcast(n, calls[0]), Deliver(n, calls[1..]), k);
      ReceivedBroadcast(n, calls[0], k);
      EveryListenerReceivesAllCalls(n, calls[1..], k);
    }
  }

  /** A listener beyond the list receives nothing. */
  lemma {:induction false} NoCallsBeyondTheList(n: nat, calls: seq<ListenerCall>, k: nat)
    requires n <= k
    ensures Received(Deliver(n, calls), k) == []
    decreases |calls|
  {
    if |calls| > 0 {
      ReceivedAppend(Broadcast(n, calls[0]), Deliver(n, calls[1..]), k);
      ReceivedBroadcast(n, calls[0], k);
      NoCallsBeyondTheList(n, calls[1..], k);
    }
  }

  /** One fire loop from listener `i` on when listeners may throw: `throws` maps a listener
      to what it throws on this call. Each listener receives the call in list order, and
      the loop is left at the first that throws, with its throwable. */
  function BroadcastFrom(i: nat, n: nat, call: ListenerCall, throws: map<nat, Throwable>): (r: (seq<Delivery>, Option<Throwable>))
    requires i <= n
    ensures |r.0| <= n - i && forall j :: 0 <= j < |r.0| ==> r.0[j] == Delivery(i + j, call)
    ensures r.1.None? <==> forall j :: i <= j < n ==> j !in throws
    ensures r.1.None? ==> |r.0| == n - i
    ensures r.1.Some? ==> (&& |r.0| > 0 && i + |r.0| - 1 in throws && r.1.value == throws[i + |r.0| - 1]
                           && forall j :: i <= j < i + |r.0| - 1 ==> j !in throws)
    decreases n - i
  {
    if i == n then ([], None)
    else if i in throws then ([Delivery(i, call)], Some(throws[i]))
    else
      var rest := BroadcastFrom(i + 1, n, call, throws);
      ([Delivery(i, call)] + rest.0, rest.1)
  }

  /** With throwing listeners, listener `k` receives the call exactly when no listener
      before it in the list throws. */
  lemma ReachedUnlessEarlierThrows(n: nat, call: ListenerCall, throws: map<nat, Throwable>, k: nat)
    requires k < n
    ensures Received(BroadcastFrom(0, n, call, throws).0, k) == (if forall j :: 0 <= j < k ==> j !in throws then [call] else [])
  {
    var r := BroadcastFrom(0, n, call, throws);
    assert r.0 == Broadcast(|r.0|, call);
    ReceivedBroadcast(|r.0|, call, k);
    if r.1.Some? && k >= |r.0| {
      assert |r.0| - 1 < k && |r.0| - 1 in throws;
    }
  }

  /** The task's test rule is the runner's plus the target named exactly "test"; neither
      treats setUp or tearDown as a test. */
  lemma TestRules(name: string)
    ensures IsTest(name) <==> ScriptRunner.IsTestTarget(name) || name == ScriptRunner.Test
    ensures !IsTest(ScriptRunner.SetUp) && !IsTest(ScriptRunner.TearDown)
  {
    assert ScriptRunner.SetUp[0] != ScriptRunner.Test[0];
    assert ScriptRunner.TearDown[2] != ScriptRunner.Test[2];
  }

  lemma SummaryParts(f: nat, e: nat)
    ensures Summary(f, e) == ErrorTestsFailed + (NatToString(f) + (FailureWords(f) + (NatToString(e) + ErrorWords(e))))
  {
  }

  /** The summary names both counts unambiguously: different counts give different
      messages. */
  lemma SummaryDeterminesCounts(f1: nat, e1: nat, f2: nat, e2: nat)
    requires Summary(f1, e1) == Summary(f2, e2)
    ensures f1 == f2 && e1 == e2
  {
    SummaryParts(f1, e1);
    SummaryParts(f2, e2);
    var x1 := FailureWords(f1) + (NatToString(e1) + ErrorWords(e1));
    var x2 := FailureWords(f2) + (NatToString(e2) + ErrorWords(e2));
    StripPrefix(ErrorTestsFailed, NatToString(f1) + x1, NatToString(f2) + x2);
    DigitsThenOther(NatToString(f1), x1, NatToString(f2), x2);
    NatToStringInjective(f1, f2);
    StripPrefix(FailureWords(f1), NatToString(e1) + ErrorWords(e1), NatToString(e2) + ErrorWords(e2));
    DigitsThenOther(NatToString(e1), ErrorWords(e1), NatToString(e2), ErrorWords(e2));
    NatToStringInjective(e1, e2);
  }

  /** Unlike the runner, the task reports endTest before the test's failure or error,
      because Ant fires targetFinished inside `executeTargets`. setUp and tearDown are not
      tests, so listeners hear nothing of them, whatever tearDown does. */
  lemma EndTestPrecedesReport(s: ScriptRunner.Script, hasSetUp: bool, hasTearDown: bool, name: string, counts: Counts)
    requires IsTest(name) && name in s.throws && s.throws[name].IsBuildException()
    requires hasSetUp ==> ScriptRunner.SetUp !in s.throws
    ensures var r := DoTest(s, hasSetUp, hasTearDown, name, counts);
      && |r.calls| == 3 && r.calls[..2] == [StartTest(name), EndTest(name)]
      && (r.calls[2].AddFailure? || r.calls[2].AddError?) && r.calls[2].target == name
  {
    TestRules(name);
    var batch := (if hasSetUp then [ScriptRunner.SetUp] else []) + [name];
    assert ExecuteTargets(s, batch).0 == [StartTest(name), EndTest(name)] by {
      if hasSetUp {
        assert batch[1..] == [name];
      }
    }
    assert ExecuteTargets(s, [ScriptRunner.TearDown]).0 == [];
  }

  /** A failing setUp is reported against the test although no listener saw it start. */
  lemma SetUpFailureReportedWithoutStart(s: ScriptRunner.Script, hasTearDown: bool, name: string, counts: Counts)
    requires ScriptRunner.SetUp in s.throws && s.throws[ScriptRunner.SetUp].IsBuildException()
    ensures var r := DoTest(s, true, hasTearDown, name, counts);
      && |r.calls| == 1 && (r.calls[0].AddFailure? || r.calls[0].AddError?) && r.calls[0].target == name
  {
    TestRules(name);
    assert ([ScriptRunner.SetUp] + [name])[0] == ScriptRunner.SetUp;
    assert ExecuteTargets(s, [ScriptRunner.TearDown]).0 == [];
  }

  /** tearDown runs in an unguarded finally: once a test has run, whatever tearDown throws
      leaves the loop, and the remaining tests of the file are skipped. */
  lemma {:induction false} TearDownFailureEndsTests(s: ScriptRunner.Script, hasSetUp: bool, names: seq<string>, counts: Counts)
    requires ScriptRunner.TearDown in s.throws
    requires exists i :: 0 <= i < |names| && IsTest(names[i])
    ensures DoTests(s, hasSetUp, true, names, counts).thrown == Some(s.throws[ScriptRunner.TearDown])
    decreases |names|
  {
    if !IsTest(names[0]) {
      var i :| 0 <= i < |names| && IsTest(names[i]);
      assert IsTest(names[1..][i - 1]);
      TearDownFailureEndsTests(s, hasSetUp, names[1..], counts);
    } else {
      assert ExecuteTargets(s, [ScriptRunner.TearDown]).1 == Some(s.throws[ScriptRunner.TearDown]);
    }
  }
}

=== FILE: AntUnitTestCase.dfy ===
/** `AntUnitTestCase`: the JUnit 3 test for one AntUnit target. Its name, `target [script]`,
    identifies the test so that an IDE can re-create it from the name alone. */
module AntUnitTestCase {
  import opened Wrappers
  import opened Strings
  import opened Exceptions

  /** `java.lang.StringIndexOutOfBoundsException`; the index the message names is left out. */
  const IndexOutOfBounds := Throwable(Other, "String index out of range", None, None)


  /** `TestCaseName`: the test's name with the script path and target it stands for. The
      script is kept as the UTF-16 code units a Java `String` holds: a name read back may
      cut a surrogate pair, which no `string` can hold. */
  datatype TestCaseName = TestCaseName(name: string, script: seq<int>, target: string)

  /** `new TestCaseName(script, target)`. */
  function Format(script: string, target: string): (r: TestCaseName)
    ensures r.script == Utf16(script) && r.target == target
    ensures r.name == target + " [" + script + "]"
  {
    TestCaseName(target + " [" + script + "]", Utf16(script), target)
  }

  /** The characters of a name before its first space (all of them when it has none). */
  function BeforeSpace(name: string): (r: string)
    ensures r <= name && ' ' !in r
    ensures |r| < |name| <==> ' ' in name
    ensures |r| < |name| ==> name[|r|] == ' '
    decreases |name|
  {
    if |name| == 0 || name[0] == ' ' then ""
    else
      var r := [name[0]] + BeforeSpace(name[1..]);
      assert name == [name[0]] + name[1..];
      r
  }

  /** The first `x` in `p + [x] + q` is the one after `p` when `p` holds none. */
  lemma {:induction false} FirstUnitAfter(p: seq<int>, x: int, q: seq<int>)
    requires x !in p
    ensures IndexOfUnit(p + [x] + q, x) == |p|
  {
    var u := p + [x] + q;
    var j := IndexOfUnit(u, x);
    assert u[|p|] == x;
    assert forall k :: 0 <= k < |p| ==> u[k] == p[k];
    assert forall k :: 0 <= k < j ==> u[k] == u[..j][k];
  }

  /** A name whose character at `|pre|` is the space after its prefix `pre`. */
  lemma CutAt(name: string, pre: string)
    requires pre < name && name[|pre|] == ' '
    ensures name == pre + [' '] + name[|pre| + 1..]
  {
    assert name == pre + name[|pre|..];
    assert name[|pre|..] == [' '] + name[|pre| + 1..];
  }

  /** The encoding of a name cut at a space. */
  lemma {:induction false} SplitAtSpace(name: string, pre: string)
    requires pre < name && name[|pre|] == ' '
    ensures Utf16(name) == Utf16(pre) + [' ' as int] + Utf16(name[|pre| + 1..])
  {
    CutAt(name, pre);
    Utf16Around(pre, ' ', name[|pre| + 1..]);
  }

  /** The first space of a name, located in characters and in code units: both exist or
      neither does, and the text before it is the same. */
  lemma {:induction false} SpaceUnit(name: string)
    ensures var t := BeforeSpace(name); var u := Utf16(name); var j := IndexOfUnit(u, ' ' as int);
      && (j == -1 <==> ' ' !in name)
      && (j != -1 ==> Utf16(t) == u[..j])
  {
    var t := BeforeSpace(name);
    if ' ' in name {
      var post := name[|t| + 1..];
      SplitAtSpace(name, t);
      BmpCharUnits(t, ' ');
      var v := Utf16(t);
      FirstUnitAfter(v, ' ' as int, Utf16(post));
      assert Utf16(name)[..|v|] == v;
    } else {
      BmpCharUnits(name, ' ');
    }
  }

  /** `substring(0, indexOf(' '))` and `substring(indexOf(' ') + 2, length() - 1)` over
      code units: the position of the first space and the units of the script, or `None`
      when either `substring` would be out of range. */
  function ParseUnits(u: seq<int>): (r: Option<(nat, seq<int>)>)
    ensures var j := IndexOfUnit(u, ' ' as int); r.None? <==> j == -1 || j + 3 > |u|
    ensures r.Some? ==> var j := r.value.0;
      && j == IndexOfUnit(u, ' ' as int) && j + 3 <= |u| && u[j] == ' ' as int && ' ' as int !in u[..j]
      && r.value.1 == u[j + 2..|u| - 1]
  {
    var j := IndexOfUnit(u, ' ' as int);
    if j == -1 || j + 2 > |u| - 1 then None else Some((j, u[j + 2..|u| - 1]))
  }

  /** Cutting `v + [' '] + w` when `v` holds no space. */
  lemma {:induction false} ParseUnitsAt(v: seq<int>, w: seq<int>)
    requires ' ' as int !in v
    ensures ParseUnits(v + [' ' as int] + w) == if |w| < 2 then None else Some((|v|, w[1..|w| - 1]))
  {
    var u := v + [' ' as int] + w;
    FirstUnitAfter(v, ' ' as int, w);
    if |w| >= 2 {
      assert u[|v| + 2..|u| - 1] == w[1..|w| - 1];
    }
  }

  /** `new TestCaseName(name)`: the target is what precedes the first space; the script is
      what lies between two code units after it and the last code unit. Positions count
      UTF-16 code units, as `indexOf`, `substring` and `length` do, and neither bracket is
      checked. */
  function Parse(name: string): (r: Result<TestCaseName, Throwable>)
    ensures var u := Utf16(name); var j := IndexOfUnit(u, ' ' as int);
      r.Err? <==> j == -1 || j + 3 > |u|
    ensures r.Err? ==> r.error == IndexOutOfBounds
    ensures r.Ok? ==> var u := Utf16(name); var j := IndexOfUnit(u, ' ' as int);
      && 0 <= j && j + 3 <= |u|
      && r.value.name == name
      && Utf16(r.value.target) == u[..j]
      && r.value.target < name && ' ' !in r.value.target && name[|r.value.target|] == ' '
      && r.value.script == u[j + 2..|u| - 1]
  {
    match ParseUnits(Utf16(name))
    case None => Err(IndexOutOfBounds)
    case Some((_, script)) =>
      SpaceUnit(name);
      Ok(TestCaseName(name, script, BeforeSpace(name)))
  }

  /** Reading `pre + " " + post` when `pre` holds no space: it fails iff `post` has fewer
      than two code units; otherwise the target is `pre` and the script drops the first
      and the last unit of `post`. */
  lemma {:induction false} ParseAt(n: string, pre: string, post: string)
    requires ' ' !in pre && n == pre + [' '] + post
    ensures var w := Utf16(post);
      && (Parse(n).Err? <==> |w| < 2)
      && (Parse(n).Ok? ==> Parse(n) == Ok(TestCaseName(n, w[1..|w| - 1], pre)))
    ensures Utf16(n) == Utf16(pre) + [' ' as int] + Utf16(post)
    ensures IndexOfUnit(Utf16(n), ' ' as int) == |Utf16(pre)|
  {
    Utf16Around(pre, ' ', post);
    BmpCharUnits(pre, ' ');
    ParseUnitsAt(Utf16(pre), Utf16(post));
    BeforeSpaceAt(pre, post);
  }

  /** `BeforeSpace` stops at the first space. */
  lemma {:induction false} BeforeSpaceAt(pre: string, post: string)
    requires ' ' !in pre
    ensures BeforeSpace(pre + [' '] + post) == pre
    decreases |pre|
  {
    var n := pre + [' '] + post;
    if |pre| > 0 {
      assert n[1..] == pre[1..] + [' '] + post;
      BeforeSpaceAt(pre[1..], post);
      assert pre == [pre[0]] + pre[1..];
    }
  }

  /** A name whose last character lies above U+FFFF: Java cuts its surrogate pair, so
      "t 😀" reads with an empty script. */
  lemma SupplementaryAfterSpace()
    ensures Parse("t \U{1F600}") == Ok(TestCaseName("t \U{1F600}", [], "t"))
  {
    var e := "\U{1F600}";
    assert Utf16(e) == CodeUnits('\U{1F600}') + Utf16([]);
    assert Utf16(e) == [0xD83D, 0xDE00];
    assert "t \U{1F600}" == "t" + [' '] + e;
    ParseAt("t \U{1F600}", "t", e);
  }

  /** And "t x😀" reads with a script that is a lone high surrogate. */
  lemma SupplementaryLastCharacter()
    ensures Parse("t x\U{1F600}") == Ok(TestCaseName("t x\U{1F600}", [0xD83D], "t"))
  {
    var e, xe := "\U{1F600}", "x\U{1F600}";
    assert Utf16(e) == CodeUnits('\U{1F600}') + Utf16([]);
    assert Utf16(e) == [0xD83D, 0xDE00];
    assert xe == "x" + e;
    Utf16Append("x", e);
    assert Utf16("x") == ['x' as int];
    assert Utf16(xe) == ['x' as int, 0xD83D, 0xDE00];
    assert Utf16(xe)[1..|Utf16(xe)| - 1] == [0xD83D];
    assert "t x\U{1F600}" == "t" + [' '] + xe;
    ParseAt("t x\U{1F600}", "t", xe);
  }

  /** A formatted name cut at the space that `Format` puts after the target. */
  lemma FormatSplit(script: string, target: string)
    ensures Format(script, target).name == target + [' '] + ("[" + script + "]")
    ensures Utf16("[" + script + "]") == ['[' as int] + Utf16(script) + [']' as int]
  {
    Utf16Append("[" + script, "]");
    Utf16Append("[", script);
    assert Utf16("[") == ['[' as int];
    assert Utf16("]") == [']' as int];
  }

  /** Reading a formatted name gives back the script and target, provided the target has
      no space (the first space is taken to end it). */
  lemma {:induction false} ParseFormat(script: string, target: string)
    requires ' ' !in target
    ensures Parse(Format(script, target).name) == Ok(Format(script, target))
  {
    var f := Format(script, target);
    FormatSplit(script, target);
    ParseAt(f.name, target, "[" + script + "]");
    var w := Utf16("[" + script + "]");
    assert w[1..|w| - 1] == Utf16(script);
  }

  /** Re-forming `target + " [" + script + "]"` from the parts cut out of a unit sequence
      at a space reproduces it exactly when the brackets stand where that form puts them. */
  lemma {:induction false} Rebracket(v: seq<int>, w: seq<int>, u: seq<int>)
    requires 2 <= |w| && u == v + [' ' as int] + w
    ensures v + [' ' as int, '['  as int] + w[1..|w| - 1] + [']' as int] == u
      <==> u[|v| + 1] == '[' as int && u[|u| - 1] == ']' as int
  {
    var f := v + [' ' as int, '['  as int] + w[1..|w| - 1] + [']' as int];
    assert |f| == |u|;
    if u[|v| + 1] == '[' as int && u[|u| - 1] == ']' as int {
      forall k | 0 <= k < |u| ensures f[k] == u[k] {
        if k < |v| {
        } else if k == |v| {
        } else if k == |v| + 1 {
        } else if k < |u| - 1 {
          assert f[k] == w[1..|w| - 1][k - |v| - 2];
        }
      }
    } else {
      assert f[|v| + 1] == '[' as int && f[|f| - 1] == ']' as int;
    }
  }

  /** Conversely, re-formatting what was read (`target + " [" + script + "]"`, over code
      units) reproduces the name exactly when the brackets stood where the format puts
      them. */
  lemma {:induction false} FormatParse(name: string)
    requires Parse(name).Ok?
    ensures var x := Parse(name).value; var u := Utf16(name); var j := IndexOfUnit(u, ' ' as int);
      Utf16(x.target) + [' ' as int, '['  as int] + x.script + [']' as int] == u
      <==> u[j + 1] == '[' as int && u[|u| - 1] == ']' as int
  {
    var pre := Parse(name).value.target;
    var post := name[|pre| + 1..];
    CutAt(name, pre);
    ParseAt(name, pre, post);
    Rebracket(Utf16(pre), Utf16(post), Utf16(name));
  }

  /** A target with a space does not survive the round trip: only its part before the
      first space is read back. */
  lemma {:induction false} SpaceInTargetIsLost(script: string, before: string, after: string)
    requires ' ' !in before
    ensures Parse(Format(script, before + " " + after).name).Ok?
    ensures Parse(Format(script, before + " " + after).name).value.target == before
  {
    var post := after + " [" + script + "]";
    var n := Format(script, before + " " + after).name;
    assert n == before + [' '] + post;
    Utf16Length(post);
    ParseAt(n, before, post);
  }

  /** A test case: its JUnit name, its target, the suite that runs it (`null` allowed),
      and the `BuildException` met while building that suite from the name. */
  datatype TestCase = TestCase(name: string, target: string, suite: Option<nat>, initialisationException: Option<Throwable>)

  /** The constructor a suite uses: never an initialisation exception. */
  function InSuite(suite: Option<nat>, script: string, target: string): (r: TestCase)
    ensures r.initialisationException.None?
    ensures r.name == Format(script, target).name && r.target == target && r.suite == suite
  {
    TestCase(Format(script, target).name, target, suite, None)
  }

  /** The constructor an IDE uses: parse the name (outside any try), then build the suite;
      a `BuildException` from that is kept, anything else escapes. */
  function FromName(name: string, built: Result<nat, Throwable>): (r: Result<TestCase, Throwable>)
    ensures Parse(name).Err? ==> r == Err(Parse(name).error)
    ensures Parse(name).Ok? && built.Ok? ==> r == Ok(TestCase(name, Parse(name).value.target, Some(built.value), None))
    ensures Parse(name).Ok? && built.Err? && built.error.IsBuildException() ==>
      r == Ok(TestCase(name, Parse(name).value.target, None, Some(built.error)))
    ensures Parse(name).Ok? && built.Err? && !built.error.IsBuildException() ==> r == Err(built.error)
  {
    match Parse(name)
    case Err(e) => Err(e)
    case Ok(n) =>
      match built
      case Ok(s) => Ok(TestCase(name, n.target, Some(s), None))
      case Err(e) =>
        if e.IsBuildException() then Ok(TestCase(name, n.target, None, Some(e)))
        else Err(e)
  }

  /** What `run` does: hand the test to its suite, or run it alone, in which case
      `runTest` throws and the result records that throwable. */
  datatype RunOutcome = Delegated(suite: nat) | RanAlone(thrown: Throwable)

  function Run(t: TestCase): (r: RunOutcome)
    ensures r.Delegated? <==> t.initialisationException.None? && t.suite.Some?
    ensures r.RanAlone? && t.initialisationException.Some? ==> r.thrown == t.initialisationException.value
    ensures r.RanAlone? && t.initialisationException.None? ==> r.thrown == NullPointer
  {
    if t.initialisationException.None? && t.suite.Some? then Delegated(t.suite.value)
    else RanAlone(RunTest(t))
  }

  /** `runTest`: `throw initialisationException`, a `NullPointerException` when it is null. */
  function RunTest(t: TestCase): (r: Throwable)
    ensures t.initialisationException.Some? ==> r == t.initialisationException.value
    ensures t.initialisationException.None? ==> r == NullPointer
  {
    if t.initialisationException.Some? then t.initialisationException.value else NullPointer
  }

  /** A test built by a suite runs through that suite; one re-created from its name does
      too exactly when the suite could be built, and otherwise reports why it could not. */
  lemma RunDispatch(suite: nat, script: string, target: string, name: string, built: Result<nat, Throwable>)
    ensures Run(InSuite(Some(suite), script, target)) == Delegated(suite)
    ensures FromName(name, built).Ok? ==>
      (Run(FromName(name, built).value).Delegated? <==> built.Ok?)
      && (built.Err? ==> Run(FromName(name, built).value) == RanAlone(built.error))
  {
  }
}

=== FILE: AssertTask.dfy ===
/** The `<assertTrue>` task (`AssertTask`): exactly one nested condition, which must hold;
    otherwise an `AssertionFailedException`, the marker of a test failure. */
module AssertTask {
  import opened Wrappers
  import opened Exceptions
  import ScriptRunner

  const TooManyConditions := "You must not specify more than one condition"

  /** `execute`, given the configured message (`DefaultAssertionMessage` unless set), the
      task's location and the outcome each
      nested condition's `eval` would have (a value, or the throwable it raises). Only the
      first condition is ever evaluated, and only when it is the only one. */
  function Execute(message: string, location: Location, conditions: seq<Result<bool, Throwable>>): (r: Option<Throwable>)
    ensures r.None? <==> |conditions| == 1 && conditions[0] == Ok(true)
    ensures |conditions| > 1 ==> r == Some(BuildException(TooManyConditions, Some(location)))
    ensures |conditions| == 0 ==> r == Some(AssertionFailedException(message, Some(location)))
    ensures |conditions| == 1 && conditions[0] == Ok(false) ==> r == Some(AssertionFailedException(message, Some(location)))
    ensures |conditions| == 1 && conditions[0].Err? ==> r == Some(conditions[0].error)
  {
    if |conditions| > 1 then Some(BuildException(TooManyConditions, Some(location)))
    else if |conditions| < 1 then Some(AssertionFailedException(message, Some(location)))
    else
      match conditions[0]
      case Err(e) => Some(e)
      case Ok(b) => if b then None else Some(AssertionFailedException(message, Some(location)))
  }

  /** How the runner reports what the task raises inside a test target: a missing or
      false condition is a failure; a second condition is a configuration error. */
  lemma RunnerClassifiesAssert(name: string, message: string, location: Location, conditions: seq<Result<bool, Throwable>>)
    requires forall i :: 0 <= i < |conditions| ==> conditions[i].Ok?
    requires Execute(message, location, conditions).Some?
    ensures var e := Execute(message, location, conditions).value;
      && e.IsBuildException()
      && (ScriptRunner.FireFailOrError(name, e)[0].Fail? <==> |conditions| <= 1)
      && (ScriptRunner.FireFailOrError(name, e)[0].Fail? ==> ScriptRunner.FireFailOrError(name, e)[0].marker == e)
  {
    var e := Execute(message, location, conditions).value;
    assert BuildChain(Some(e)) == [e] + BuildChain(e.cause);
    if |conditions| <= 1 {
      assert IsFirstMarker(BuildChain(Some(e)), 0);
      assert FindMarker(Some(e)) == Some(e);
    } else {
      assert BuildChain(e.cause) == [];
      assert !HasMarker(BuildChain(Some(e))) by {
        forall i | 0 <= i < |BuildChain(Some(e))|
          ensures !BuildChain(Some(e))[i].IsAssertionFailed()
        {
        }
      }
    }
  }
}

=== FILE: BaseAntUnitListener.dfy ===
/** The bookkeeping shared by the report listeners: counters, the report
    destination, report file names and locations. */
module BaseAntUnitListener {
  import opened Wrappers
  import opened Strings
  import opened Exceptions

  /** A test project as the listeners see it: an identity and its target names. */
  datatype TestProject = TestProject(id: nat, targets: set<string>)

  /** One call of the `AntUnitListener` interface. */
  datatype Call =
    | StartTestSuite(project: TestProject, buildFile: string)
    | EndTestSuite(project: TestProject, buildFile: string)
    | StartTest(target: string)
    | EndTest(target: string)
    | AddFailure(target: string, failure: Throwable)
    | AddError(target: string, error: Throwable)

  /** `runCount`, `failureCount` and `errorCount`. */
  datatype Counters = Counters(run: nat, failures: nat, errors: nat)

  const Zero := Counters(0, 0, 0)

  /** The counter update the base listener makes for one call. */
  function Count(c: Counters, call: Call): (r: Counters)
    ensures call.StartTestSuite? ==> r == Zero
    ensures call.StartTest? ==> r.run == c.run + 1 && r.failures == c.failures && r.errors == c.errors
    ensures call.AddFailure? ==> r.failures == c.failures + 1 && r.run == c.run && r.errors == c.errors
    ensures call.AddError? ==> r.errors == c.errors + 1 && r.run == c.run && r.failures == c.failures
    ensures call.EndTest? || call.EndTestSuite? ==> r == c
  {
    match call
    case StartTestSuite(_, _) => Zero
    case StartTest(_) => c.(run := c.run + 1)
    case AddFailure(_, _) => c.(failures := c.failures + 1)
    case AddError(_, _) => c.(errors := c.errors + 1)
    case _ => c
  }

  /** The counters after the listener has received `calls`, starting from `c`. */
  function CountAll(c: Counters, calls: seq<Call>): Counters
    decreases |calls|
  {
    if |calls| == 0 then c else CountAll(Count(c, calls[0]), calls[1..])
  }

  /** How many calls of each kind `calls` holds, counted independently of the listener. */
  function Tally(calls: seq<Call>): Counters
    decreases |calls|
  {
    if |calls| == 0 then Zero
    else
      var t := Tally(calls[..|calls| - 1]);
      var last := calls[|calls| - 1];
      Counters(t.run + (if last.StartTest? then 1 else 0),
               t.failures + (if last.AddFailure? then 1 else 0),
               t.errors + (if last.AddError? then 1 else 0))
  }

  predicate NoSuiteStart(calls: seq<Call>) {
    forall i :: 0 <= i < |calls| ==> !calls[i].StartTestSuite?
  }

  function Plus(a: Counters, b: Counters): Counters {
    Counters(a.run + b.run, a.failures + b.failures, a.errors + b.errors)
  }

  /** Without a new suite in between, each counter grows by the number of its calls. */
  lemma {:induction false} CountersTallyCalls(c: Counters, calls: seq<Call>)
    requires NoSuiteStart(calls)
    ensures CountAll(c, calls) == Plus(c, Tally(calls))
    decreases |calls|
  {
    if |calls| > 0 {
      var init := calls[..|calls| - 1];
      var last := calls[|calls| - 1];
      assert calls == init + [last];
      CountAllAppend(c, init, last);
      CountersTallyCalls(c, init);
    }
  }

  lemma {:induction false} CountAllAppend(c: Counters, init: seq<Call>, last: Call)
    ensures CountAll(c, init + [last]) == Count(CountAll(c, init), last)
    decreases |init|
  {
    if |init| == 0 {
      assert init + [last] == [last];
    } else {
      assert (init + [last])[1..] == init[1..] + [last];
      CountAllAppend(Count(c, init[0]), init[1..], last);
    }
  }

  /** After `startTestSuite`, the counters are exactly the tally of the calls that followed it. */
  lemma SuiteCountersTallyItsCalls(c: Counters, before: seq<Call>, p: TestProject, buildFile: string, calls: seq<Call>)
    requires NoSuiteStart(calls)
    ensures CountAll(c, before + [StartTestSuite(p, buildFile)] + calls) == Tally(calls)
  {
    var prefix := before + [StartTestSuite(p, buildFile)];
    CountAllSplit(c, prefix, calls);
    CountAllSplit(c, before, [StartTestSuite(p, buildFile)]);
    CountersTallyCalls(Zero, calls);
  }

  lemma {:induction false} CountAllSplit(c: Counters, a: seq<Call>, b: seq<Call>)
    ensures CountAll(c, a + b) == CountAll(CountAll(c, a), b)
    decreases |a|
  {
    if |a| > 0 {
      assert (a + b)[1..] == a[1..] + b;
      CountAllSplit(Count(c, a[0]), a[1..], b);
    } else {
      assert a + b == b;
    }
  }

  /** The `SendLogTo` attribute: only its three values can be set. */
  datatype SendLogTo = AntLog | File | Both {
    function Value(): string {
      match this
      case AntLog => "ant"
      case File => "file"
      case Both => "both"
    }
  }

  /** Where the report file lives: `new File(toDir, name)`, `project.resolveFile(name)`
      or `new File(name)`. */
  datatype FilePath = InDir(dir: string, name: string) | ProjectRelative(name: string) | WorkingDir(name: string)

  /** An output stream the report may go to: the parent task's log, `System.out` or a file. */
  datatype Sink = ParentLog | StandardOut | ReportFile(path: FilePath)

  /** What `getOut` returns. */
  datatype Stream = Single(sink: Sink) | Tee(log: Sink, file: Sink)

  /** The configuration of a report listener. */
  datatype Listener = Listener(logTo: SendLogTo, extension: string, toDir: Option<string>, hasParentTask: bool)

  /** `new BuildException(e)` wrapping an `IOException`. */
  function WrapIOException(e: Throwable): (r: Throwable)
    ensures r.IsBuildException() && !r.IsAssertionFailed() && r.cause == Some(e)
  {
    Throwable(Build, e.message, Some(UnknownLocation), Some(e))
  }

  /** `buildFile` relative to the base directory with one leading separator removed,
      then '.' and ':' turned into '_' and the separator into '.'. */
  function Normalize(relative: string, sep: char): (r: string)
    ensures ':' !in r && sep !in r
    ensures |r| == if |relative| > 0 && relative[0] == sep then |relative| - 1 else |relative|
  {
    var p := if |relative| > 0 && relative[0] == sep then relative[1..] else relative;
    var r := ReplaceChar(ReplaceChar(ReplaceChar(p, '.', '_'), ':', '_'), sep, '.');
    assert forall i :: 0 <= i < |r| ==> r[i] != ':' && r[i] != sep;
    r
  }

  /** For a separator that is none of '.', ':' and '_', a '.' in the result marks a
      separator and a '_' marks one of '.', ':' or '_'; every other character is kept. */
  lemma NormalizeChars(relative: string, sep: char)
    requires sep != '.' && sep != ':' && sep != '_'
    ensures var p := if |relative| > 0 && relative[0] == sep then relative[1..] else relative;
            var r := Normalize(relative, sep);
            |r| == |p| &&
            forall i :: 0 <= i < |r| ==>
              (r[i] == '.' <==> p[i] == sep) &&
              (r[i] == '_' <==> p[i] in ".:_") &&
              (p[i] !in [sep, '.', ':'] ==> r[i] == p[i])
  {
  }

  /** `"TEST-" + normalize(buildFile) + "." + extension`. */
  function ReportFileName(l: Listener, relative: string, sep: char): (r: string)
    ensures StartsWith(r, "TEST-")
    ensures |r| == 6 + |Normalize(relative, sep)| + |l.extension|
    ensures r[|r| - |l.extension| - 1..] == "." + l.extension
    ensures r[5..|r| - |l.extension| - 1] == Normalize(relative, sep)
  {
    var n := Normalize(relative, sep);
    FileNameParts(n, l.extension);
    "TEST-" + n + "." + l.extension
  }

  lemma FileNameParts(n: string, extension: string)
    ensures var r := "TEST-" + n + "." + extension;
      && StartsWith(r, "TEST-") && |r| == 6 + |n| + |extension|
      && r[|r| - |extension| - 1..] == "." + extension
      && r[5..|r| - |extension| - 1] == n
  {
    var r := "TEST-" + n + "." + extension;
    assert r[..5] == "TEST-";
    assert r[5..5 + |n|] == n;
    assert r[5 + |n|..] == "." + extension;
  }

  /** Where the report file is created. */
  function ReportPath(l: Listener, name: string): (r: FilePath)
    ensures r.name == name
    ensures r.InDir? <==> l.toDir.Some?
    ensures r.ProjectRelative? <==> l.toDir.None? && l.hasParentTask
  {
    match l.toDir
    case Some(dir) => InDir(dir, name)
    case None => if l.hasParentTask then ProjectRelative(name) else WorkingDir(name)
  }

  /** The log side of the report: the parent task's log if there is one, else `System.out`. */
  function LogSink(l: Listener): (r: Sink)
    ensures r == ParentLog <==> l.hasParentTask
    ensures !r.ReportFile?
  {
    if l.hasParentTask then ParentLog else StandardOut
  }

  /** `getOut(buildFile)`; `openFailure` is the `IOException` creating the report file
      would throw, if any. */
  function GetOut(l: Listener, relative: string, sep: char, openFailure: Option<Throwable>): (r: Result<Stream, Throwable>)
    ensures l.logTo == AntLog ==> r == Ok(Single(LogSink(l)))
    ensures l.logTo != AntLog && openFailure.Some? ==> r == Err(WrapIOException(openFailure.value))
    ensures l.logTo == File && openFailure.None? ==>
              r == Ok(Single(ReportFile(ReportPath(l, ReportFileName(l, relative, sep)))))
    ensures l.logTo == Both && openFailure.None? ==>
              r == Ok(Tee(LogSink(l), ReportFile(ReportPath(l, ReportFileName(l, relative, sep)))))
  {
    if l.logTo == AntLog then Ok(Single(LogSink(l)))
    else if openFailure.Some? then Err(WrapIOException(openFailure.value))
    else
      var f := ReportFile(ReportPath(l, ReportFileName(l, relative, sep)));
      if l.logTo == File then Ok(Single(f)) else Ok(Tee(LogSink(l), f))
  }

  /** Every stream `getOut` hands out writes to the log iff the attribute names the log,
      and to a file iff it names the file. */
  lemma DestinationsFollowSendLogTo(l: Listener, relative: string, sep: char, openFailure: Option<Throwable>)
    requires GetOut(l, relative, sep, openFailure).Ok?
    ensures var s := GetOut(l, relative, sep, openFailure).value;
            (l.logTo != File <==> (s.Tee? || !s.sink.ReportFile?)) &&
            (l.logTo != AntLog <==> (s.Tee? || s.sink.ReportFile?))
  {
  }

  /** `getLocation(t)`. */
  function GetLocation(t: Throwable): (r: Location)
    ensures t.IsBuildException() && t.location.Some? ==> r == t.location.value
    ensures !(t.IsBuildException() && t.location.Some?) ==> r == UnknownLocation
  {
    if t.IsBuildException() && t.location.Some? then t.location.value else UnknownLocation
  }

  /** Only a `BuildException` can contribute a line number. */
  lemma LineOnlyFromBuildExceptions(t: Throwable)
    ensures GetLocation(t).line != 0 ==> t.IsBuildException() && t.location.Some? && t.location.value.line == GetLocation(t).line
  {
  }
}

=== FILE: Exceptions.dfy ===
/** The exceptions AntUnit inspects: Ant's `BuildException`, its subclass
    `AssertionFailedException` (the marker of an intentional test failure), and
    every other `Throwable`, each with an optional cause. */
module Exceptions {
  import opened Wrappers

  /** A position in a build file; Ant's unknown location has line and column 0. */
  datatype Location = Location(fileName: string, line: nat, column: nat)

  const UnknownLocation := Location("", 0, 0)

  /** The class of a throwable, as far as AntUnit distinguishes them. */
  datatype Kind = Build | AssertionFailed | Other

  datatype Throwable = Throwable(kind: Kind, message: string, location: Option<Location>, cause: Option<Throwable>)
  {
    /** `instanceof BuildException`; an `AssertionFailedException` is one too. */
    predicate IsBuildException() {
      kind == Build || kind == AssertionFailed
    }

    /** `instanceof AssertionFailedException`. */
    predicate IsAssertionFailed() {
      kind == AssertionFailed
    }
  }

  /** `new BuildException(message, location)`. */
  function BuildException(message: string, location: Option<Location>): (r: Throwable)
    ensures r.IsBuildException() && !r.IsAssertionFailed()
  {
    Throwable(Build, message, location, None)
  }

  /** `new AssertionFailedException(message, location)`. */
  function AssertionFailedException(message: string, location: Option<Location>): (r: Throwable)
    ensures r.IsBuildException() && r.IsAssertionFailed()
  {
    Throwable(AssertionFailed, message, location, None)
  }

  /** A `java.lang.NullPointerException`, such as `throw null` or a call on a null reference throws. */
  const NullPointer := Throwable(Other, "", None, None)

  /** The default message of `AssertionFailedException`. */
  const DefaultAssertionMessage := "Test failed"

  /** The nodes `t, t.cause, t.cause.cause, ...` visited while each is a `BuildException`. */
  function BuildChain(t: Option<Throwable>): seq<Throwable>
    decreases t
  {
    match t
    case None => []
    case Some(x) => if x.IsBuildException() then [x] + BuildChain(x.cause) else []
  }

  /** Some node of the chain is an assertion failure. */
  ghost predicate HasMarker(chain: seq<Throwable>) {
    exists i :: 0 <= i < |chain| && chain[i].IsAssertionFailed()
  }

  /** Position `i` holds the first assertion failure of the chain. */
  ghost predicate IsFirstMarker(chain: seq<Throwable>, i: int) {
    0 <= i < |chain| && chain[i].IsAssertionFailed()
    && forall j :: 0 <= j < i ==> !chain[j].IsAssertionFailed()
  }

  /** The walk shared by both classifiers: follow the causes of `t` while they are
      `BuildException`s and stop at the first `AssertionFailedException`. */
  function FindMarker(t: Option<Throwable>): (r: Option<Throwable>)
    ensures r.None? <==> !HasMarker(BuildChain(t))
    ensures r.Some? ==> exists i :: IsFirstMarker(BuildChain(t), i) && BuildChain(t)[i] == r.value
    ensures r.Some? ==> r.value.IsAssertionFailed()
    decreases t
  {
    match t
    case None => None
    case Some(x) =>
      if !x.IsBuildException() then None
      else if x.IsAssertionFailed() then
        assert IsFirstMarker(BuildChain(t), 0);
        Some(x)
      else
        var rest := FindMarker(x.cause);
        assert BuildChain(t) == [x] + BuildChain(x.cause);
        if rest.Some? then
          FirstMarkerOfCause(x, rest.value);
          rest
        else
          rest
  }

  /** A first marker of the cause's chain stays the first marker one node up,
      when that node is a `BuildException` but not a marker. */
  lemma FirstMarkerOfCause(x: Throwable, m: Throwable)
    requires x.IsBuildException() && !x.IsAssertionFailed()
    requires exists i :: IsFirstMarker(BuildChain(x.cause), i) && BuildChain(x.cause)[i] == m
    ensures exists i :: IsFirstMarker(BuildChain(Some(x)), i) && BuildChain(Some(x))[i] == m
  {
    var i :| IsFirstMarker(BuildChain(x.cause), i) && BuildChain(x.cause)[i] == m;
    assert BuildChain(Some(x)) == [x] + BuildChain(x.cause);
    assert IsFirstMarker(BuildChain(Some(x)), i + 1);
  }

  /** The first marker is unique: it is the only position satisfying `IsFirstMarker`. */
  lemma FirstMarkerUnique(chain: seq<Throwable>, i: int, j: int)
    requires IsFirstMarker(chain, i) && IsFirstMarker(chain, j)
    ensures i == j
  {
  }
}

=== FILE: ExpectFailureTask.dfy ===
/** The `<expectfailure>` task (`ExpectFailureTask`): a sequence of nested tasks that must
    fail with a `BuildException`, optionally with a given message. */
module ExpectFailureTask {
  import opened Wrappers
  import opened Exceptions
  import AssertTask

  const ExpectedBuildFailure := "Expected build failure"

  /** The task's attributes; unset is `null`. */
  datatype Expectation = Expectation(expectedMessage: Option<string>, message: Option<string>)

  /** `Sequential.execute`: the nested tasks in order, up to the first that throws. */
  function Sequential(tasks: seq<Option<Throwable>>): (r: Option<Throwable>)
    ensures r.None? <==> forall i :: 0 <= i < |tasks| ==> tasks[i].None?
    ensures r.Some? ==> exists i :: 0 <= i < |tasks| && tasks[i] == r && forall j :: 0 <= j < i ==> tasks[j].None?
  {
    if |tasks| == 0 then None
    else if tasks[0].Some? then tasks[0]
    else
      var r := Sequential(tasks[1..]);
      assert forall j :: 1 <= j < |tasks| ==> tasks[j] == tasks[1..][j - 1];
      r
  }

  /** The message of the mismatch failure. */
  function Mismatch(expected: string, actual: string): string {
    ExpectedBuildFailure + " with message '" + expected + "' but was '" + actual + "'"
  }

  /** The failure raised with the custom message if set, else with `fallback`. */
  function Failure(x: Expectation, fallback: string): (r: Throwable)
    ensures r.IsAssertionFailed() && r.cause.None?
    ensures x.message.Some? ==> r.message == x.message.value
    ensures x.message.None? ==> r.message == fallback
  {
    AssertionFailedException(if x.message.Some? then x.message.value else fallback, Some(UnknownLocation))
  }

  /** `execute`, given what each nested task would throw. */
  function Execute(x: Expectation, tasks: seq<Option<Throwable>>): (r: Option<Throwable>)
    ensures r.None? <==>
      && Sequential(tasks).Some? && Sequential(tasks).value.IsBuildException()
      && (x.expectedMessage.None? || x.expectedMessage.value == Sequential(tasks).value.message)
    ensures Sequential(tasks).None? ==> r == Some(Failure(x, ExpectedBuildFailure))
    ensures Sequential(tasks).Some? && !Sequential(tasks).value.IsBuildException() ==> r == Sequential(tasks)
    ensures Sequential(tasks).Some? && Sequential(tasks).value.IsBuildException() && r.Some? ==>
      r == Some(Failure(x, Mismatch(x.expectedMessage.value, Sequential(tasks).value.message)))
  {
    match Sequential(tasks)
    case None => Some(Failure(x, ExpectedBuildFailure))
    case Some(e) =>
      if !e.IsBuildException() then Some(e)
      else if x.expectedMessage.Some? && x.expectedMessage.value != e.message then
        Some(Failure(x, Mismatch(x.expectedMessage.value, e.message)))
      else None
  }

  /** Whatever the task raises itself is a test failure, never an error: it is an
      `AssertionFailedException`, or the nested throwable that is not a `BuildException`. */
  lemma RaisesOnlyFailures(x: Expectation, tasks: seq<Option<Throwable>>)
    ensures var r := Execute(x, tasks);
      r.Some? ==> r.value.IsAssertionFailed() || (r == Sequential(tasks) && !r.value.IsBuildException())
  {
  }

  /** A failed assertion is a `BuildException` like any other: wrapped in expectfailure
      without an expected message, a false `<assertTrue>` makes the test pass, and so
      does one whose message is the expected one. */
  lemma ExpectsAssertionFailure(message: string, location: Location, expected: Option<string>)
    requires expected.None? || expected.value == message
    ensures Execute(Expectation(expected, None), [AssertTask.Execute(message, location, [Ok(false)])]) == None
  {
    assert Sequential([AssertTask.Execute(message, location, [Ok(false)])]) == AssertTask.Execute(message, location, [Ok(false)]);
  }

  /** With the expected message set, a different message is reported with both texts. */
  lemma ReportsBothMessages(expected: string, e: Throwable)
    requires e.IsBuildException() && e.message != expected
    ensures Execute(Expectation(Some(expected), None), [Some(e)])
      == Some(AssertionFailedException(Mismatch(expected, e.message), Some(UnknownLocation)))
  {
    assert Sequential([Some(e)]) == Some(e);
  }
}

=== FILE: FailureAntUnitListener.dfy ===
/** The listener that writes a build file re-running every failed test target. */
module FailureAntUnitListener {
  import opened Wrappers
  import opened Strings
  import opened Exceptions
  import opened BaseAntUnitListener

  /** What is kept about one failed test: whether its project has `setUp` and
      `tearDown`, the build file, the target and the message shown. */
  datatype TestInfos = TestInfos(hasSetUp: bool, hasTearDown: bool, buildFile: string, target: string, errorMessage: string)

  /** `new TestInfos(project, buildFile, target, e.getMessage())`. */
  function NewTestInfos(p: TestProject, buildFile: string, target: string, e: Throwable): (r: TestInfos)
    ensures r.hasSetUp <==> "setUp" in p.targets
    ensures r.hasTearDown <==> "tearDown" in p.targets
    ensures r.buildFile == buildFile && r.target == target && r.errorMessage == e.message
  {
    TestInfos("setUp" in p.targets, "tearDown" in p.targets, buildFile, target, e.message)
  }

  /** The `antfile` attribute: the build file with every backslash turned into '/'. */
  function AntFile(buildFile: string): (r: string)
    ensures |r| == |buildFile| && '\\' !in r
    ensures forall i :: 0 <= i < |r| && buildFile[i] != '\\' ==> r[i] == buildFile[i]
  {
    ReplaceChar(buildFile, '\\', '/')
  }

  function TargetLine(name: string): string {
    "      <target name=\"" + name + "\"/>"
  }

  /** The lines of the `<ant>` call for one failed test, without line separators. */
  function Lines(t: TestInfos): (r: seq<string>)
    ensures |r| == 4 + (if t.hasSetUp then 1 else 0) + (if t.hasTearDown then 1 else 0)
    ensures r[0] == "    <!-- " + t.errorMessage + " -->"
    ensures r[1] == "    <ant antfile=\"" + AntFile(t.buildFile) + "\" inheritAll=\"false\">"
    ensures t.hasSetUp ==> r[2] == TargetLine("setUp")
    ensures r[if t.hasSetUp then 3 else 2] == TargetLine(t.target)
    ensures t.hasTearDown ==> r[|r| - 2] == TargetLine("tearDown")
    ensures r[|r| - 1] == "    </ant>"
  {
    [Comment(t), AntOpen(t)]
    + (if t.hasSetUp then [TargetLine("setUp")] else [])
    + [TargetLine(t.target)]
    + (if t.hasTearDown then [TargetLine("tearDown")] else [])
    + ["    </ant>"]
  }

  /** Each line followed by the separator `br`. */
  function Join(lines: seq<string>, br: string): string
    decreases |lines|
  {
    if |lines| == 0 then "" else lines[0] + br + Join(lines[1..], br)
  }

  lemma {:induction false} JoinAppend(a: seq<string>, b: seq<string>, br: string)
    ensures Join(a + b, br) == Join(a, br) + Join(b, br)
    decreases |a|
  {
    if |a| == 0 {
      assert a + b == b;
    } else {
      assert (a + b)[1..] == a[1..] + b;
      JoinAppend(a[1..], b, br);
    }
  }

  lemma JoinSingle(line: string, br: string)
    ensures Join([line], br) == line + br
  {
    assert [line][1..] == [];
  }

  /** The comment carrying the error message. */
  function Comment(t: TestInfos): string {
    "    <!-- " + t.errorMessage + " -->"
  }

  /** The opening `<ant>` element. */
  function AntOpen(t: TestInfos): string {
    "    <ant antfile=\"" + AntFile(t.buildFile) + "\" inheritAll=\"false\">"
  }

  /** A line and its separator, or nothing. */
  function Optional(present: bool, line: string, br: string): string {
    if present then line + br else ""
  }

  /** `TestInfos.toString()`, appended in the order of the source. */
  function Render(t: TestInfos, br: string): string {
    Comment(t) + br + AntOpen(t) + br
    + Optional(t.hasSetUp, TargetLine("setUp"), br)
    + TargetLine(t.target) + br
    + Optional(t.hasTearDown, TargetLine("tearDown"), br)
    + "    </ant>" + br
  }

  /** `Join` of at most one line. */
  lemma JoinOptional(lines: seq<string>, br: string)
    requires |lines| <= 1
    ensures Join(lines, br) == if |lines| == 0 then "" else lines[0] + br
  {
    if |lines| == 1 {
      assert lines[1..] == [];
    }
  }

  lemma JoinShape(a: string, b: string, su: seq<string>, c: string, td: seq<string>, d: string, br: string)
    ensures Join([a, b] + su + [c] + td + [d], br)
            == a + br + b + br + Join(su, br) + c + br + Join(td, br) + d + br
  {
    var s1 := [a, b] + su;
    JoinPair(a, b, su, br);
    JoinSnoc(s1, c, br);
    JoinAppend(s1 + [c], td, br);
    JoinSnoc(s1 + [c] + td, d, br);
  }

  lemma JoinSnoc(lines: seq<string>, line: string, br: string)
    ensures Join(lines + [line], br) == Join(lines, br) + line + br
  {
    JoinAppend(lines, [line], br);
    JoinSingle(line, br);
  }

  lemma JoinPair(a: string, b: string, rest: seq<string>, br: string)
    ensures Join([a, b] + rest, br) == a + br + b + br + Join(rest, br)
  {
    assert ([a, b] + rest)[1..] == [b] + rest;
    assert ([b] + rest)[1..] == rest;
  }


  /** The text is the lines of `Lines`, each ended by the line separator: the comment,
      the `<ant>` element, `setUp` iff present, the target, `tearDown` iff present. */
  lemma RenderIsLines(t: TestInfos, br: string)
    ensures Render(t, br) == Join(Lines(t), br)
  {
    var su: seq<string> := if t.hasSetUp then [TargetLine("setUp")] else [];
    var td: seq<string> := if t.hasTearDown then [TargetLine("tearDown")] else [];
    assert Lines(t) == [Comment(t), AntOpen(t)] + su + [TargetLine(t.target)] + td + ["    </ant>"];
    JoinShape(Comment(t), AntOpen(t), su, TargetLine(t.target), td, "    </ant>", br);
    JoinOptional(su, br);
    JoinOptional(td, br);
  }

  /** What `compareTo` may be handed: another `TestInfos` or any other object. */
  datatype Comparand = Infos(infos: TestInfos) | OtherObject

  /** `TestInfos.compareTo(other)`. */
  function CompareTo(t: TestInfos, other: Comparand, br: string): (r: int)
    ensures other.OtherObject? ==> r == -1
    ensures other.Infos? ==> (r == 0 <==> Render(t, br) == Render(other.infos, br))
    ensures other.Infos? ==> (r < 0 <==> Less(Render(t, br), Render(other.infos, br)))
  {
    match other
    case OtherObject => -1
    case Infos(o) => Strings.CompareTo(Render(t, br), Render(o, br))
  }

  /** Two `TestInfos` compare in opposite directions. */
  lemma CompareToAntisymmetric(a: TestInfos, b: TestInfos, br: string)
    ensures CompareTo(a, Infos(b), br) == -CompareTo(b, Infos(a), br)
  {
    Strings.CompareToAntisymmetric(Render(a, br), Render(b, br));
  }

  /** The entries of the sorted set, kept by their `toString`: strictly increasing. */
  predicate Sorted(s: seq<string>) {
    forall i, j :: 0 <= i < j < |s| ==> Less(s[i], s[j])
  }

  /** `TreeSet.add`: the entry goes in its place unless an equal one is present. */
  function Insert(s: seq<string>, x: string): (r: seq<string>)
    requires Sorted(s)
    ensures Sorted(r)
    ensures forall y :: y in r <==> y in s || y == x
    ensures |r| == if x in s then |s| else |s| + 1
    decreases |s|
  {
    if |s| == 0 then [x]
    else if x == s[0] then s
    else if Less(x, s[0]) then
      LessOrdersSorted(s, x);
      [x] + s
    else
      Strings.CompareToAntisymmetric(x, s[0]);
      var rest := Insert(s[1..], x);
      assert forall y :: y in rest ==> Less(s[0], y) by {
        forall y | y in rest ensures Less(s[0], y) {
          if y != x {
            var k :| 0 <= k < |s[1..]| && s[1..][k] == y;
            assert s[k + 1] == y;
          }
        }
      }
      assert forall i :: 0 < i < |[s[0]] + rest| ==> ([s[0]] + rest)[i] in rest;
      assert x in s <==> x in s[1..] by {
        assert s == [s[0]] + s[1..];
      }
      assert s == [s[0]] + s[1..];
      [s[0]] + rest
  }

  lemma LessOrdersSorted(s: seq<string>, x: string)
    requires Sorted(s) && |s| > 0 && Less(x, s[0])
    ensures Sorted([x] + s) && x !in s
  {
    Strings.CompareToAntisymmetric(x, x);
    forall j | 0 < j < |s| ensures Less(x, s[j]) {
      LessTransitive(x, s[0], s[j]);
    }
    assert forall j :: 0 <= j < |s| ==> s[j] != x;
  }

  /** Adding an entry that is already present changes nothing. */
  lemma InsertPresent(s: seq<string>, x: string)
    requires Sorted(s) && x in s
    ensures Insert(s, x) == s
  {
    var r := Insert(s, x);
    SortedByElements(r, s);
  }

  /** A sorted sequence is determined by its elements. */
  lemma {:induction false} SortedByElements(a: seq<string>, b: seq<string>)
    requires Sorted(a) && Sorted(b)
    requires forall y :: y in a <==> y in b
    ensures a == b
    decreases |a|
  {
    if |a| > 0 {
      assert a[0] in a;
    }
    if |b| > 0 {
      assert b[0] in b;
    }
    if |a| > 0 && |b| > 0 {
      if a[0] != b[0] {
        assert b[0] in a;
        assert a[0] in b;
        var i :| 0 <= i < |a| && a[i] == b[0];
        var j :| 0 <= j < |b| && b[j] == a[0];
        assert i > 0 && j > 0;
        assert Less(a[0], a[i]) && Less(b[0], b[j]);
        LessTransitive(a[0], b[0], a[0]);
        Strings.CompareToAntisymmetric(a[0], a[0]);
      }
      assert a == [a[0]] + a[1..] && b == [b[0]] + b[1..];
      forall y | y in a[1..] ensures y in b[1..] {
        TailElement(a, b, y);
      }
      forall y | y in b[1..] ensures y in a[1..] {
        TailElement(b, a, y);
      }
      SortedByElements(a[1..], b[1..]);
      assert a == [a[0]] + a[1..] && b == [b[0]] + b[1..];
    }
  }

  lemma TailElement(a: seq<string>, b: seq<string>, y: string)
    requires Sorted(a) && |a| > 0 && |b| > 0 && a[0] == b[0]
    requires forall z :: z in a <==> z in b
    requires y in a[1..]
    ensures y in b[1..]
  {
    var i :| 0 <= i < |a[1..]| && a[1..][i] == y;
    assert a[i + 1] == y && Less(a[0], y);
    assert y in a;
    if y == b[0] {
      Strings.CompareToAntisymmetric(y, y);
    }
    assert b == [b[0]] + b[1..];
  }

  /** The current suite, remembered by `startTestSuite`. */
  datatype Suite = Suite(project: TestProject, buildFile: string)

  /** The listener's state; `failed` is the static set shared by every suite. */
  datatype Listener = Listener(current: Option<Suite>, failed: seq<string>)

  /** A written build file. */
  datatype Written = Written(file: string, text: string)

  /** The state after one call, and the build file it wrote, if any. */
  datatype Step = Step(st: Listener, written: Option<Written>)

  /** The environment of the listener: the line separator, the file set by `setFile`
      and the `IOException` opening that file would throw. */
  datatype Env = Env(br: string, file: Option<string>, openFailure: Option<Throwable>)

  const Header := "<project default=\"antunit\" xmlns:au=\"antlib:org.apache.ant.antunit\">"

  /** The fixed head of the generated build file: the `antunit` target re-running it. */
  function Preamble(br: string): string {
    Header + br + br
    + "  <target name=\"antunit\">" + br
    + "    <au:antunit>" + br
    + "      <au:plainlistener/>" + br
    + "      <file file=\"${ant.file}\"/>" + br
    + "    </au:antunit>" + br
    + "  </target>" + br
    + br + br
  }

  /** The target `test<n>` wrapping one entry. */
  function TargetBlock(n: nat, entry: string, br: string): string {
    "  <target name=\"test" + NatToString(n) + "\">" + br + entry + "  </target>" + br + br
  }

  /** The parts one after another. */
  function Concat(parts: seq<string>): string
    decreases |parts|
  {
    if |parts| == 0 then "" else parts[0] + Concat(parts[1..])
  }

  /** Part `k` sits between the parts before it and the parts after it. */
  lemma {:induction false} ConcatSplit(parts: seq<string>, k: nat)
    requires k < |parts|
    ensures Concat(parts) == Concat(parts[..k]) + parts[k] + Concat(parts[k + 1..])
    decreases k
  {
    if k == 0 {
      assert parts[..0] == [];
    } else {
      var tail := parts[1..];
      ConcatSplit(tail, k - 1);
      assert tail[..k - 1] == parts[1..k] && tail[k - 1] == parts[k] && tail[k..] == parts[k + 1..];
      assert parts[..k][0] == parts[0] && parts[..k][1..] == parts[1..k];
      Associate(parts[0], Concat(parts[1..k]), parts[k], Concat(parts[k + 1..]));
    }
  }

  /** `block(n + i, entries[i])` for each entry `i`. */
  function Numbered(entries: seq<string>, n: nat, block: (nat, string) -> string): (r: seq<string>)
    ensures |r| == |entries|
    ensures forall i :: 0 <= i < |r| ==> r[i] == block(n + i, entries[i])
  {
    seq(|entries|, i requires 0 <= i < |entries| => block(n + i, entries[i]))
  }

  /** Numbering a slice of the entries from its position gives that slice of the blocks. */
  lemma NumberedSlice(entries: seq<string>, n: nat, block: (nat, string) -> string, lo: nat)
    requires lo <= |entries|
    ensures Numbered(entries, n, block)[..lo] == Numbered(entries[..lo], n, block)
    ensures Numbered(entries, n, block)[lo..] == Numbered(entries[lo..], n + lo, block)
  {
    var bs := Numbered(entries, n, block);
    forall i | 0 <= i < lo ensures bs[..lo][i] == Numbered(entries[..lo], n, block)[i] {
      assert entries[..lo][i] == entries[i];
    }
    forall i | 0 <= i < |entries| - lo ensures bs[lo..][i] == Numbered(entries[lo..], n + lo, block)[i] {
      assert entries[lo..][i] == entries[lo + i];
    }
  }

  /** Block `k` of numbered entries sits between the blocks before it and those after it. */
  lemma NumberedSplit(entries: seq<string>, n: nat, block: (nat, string) -> string, k: nat)
    requires k < |entries|
    ensures Concat(Numbered(entries, n, block))
            == Concat(Numbered(entries[..k], n, block)) + block(n + k, entries[k])
               + Concat(Numbered(entries[k + 1..], n + k + 1, block))
  {
    var bs := Numbered(entries, n, block);
    ConcatSplit(bs, k);
    NumberedSlice(entries, n, block, k);
    NumberedSlice(entries, n, block, k + 1);
  }

  /** The target block of an entry, as a function of its number and its entry. */
  function TargetBlocks(br: string): (nat, string) -> string {
    (n: nat, entry: string) => TargetBlock(n, entry, br)
  }

  /** The targets for `entries`, numbered from `n`. */
  function Targets(entries: seq<string>, n: nat, br: string): string {
    Concat(Numbered(entries, n, TargetBlocks(br)))
  }

  /** The whole generated build file. */
  function BuildFileText(entries: seq<string>, br: string): (r: string)
    ensures StartsWith(r, Preamble(br))
    ensures r[|r| - |"</project>" + br|..] == "</project>" + br
  {
    Preamble(br) + Targets(entries, 0, br) + ("</project>" + br)
  }

  /** Entry `k` of the generated build file is wrapped in target `test<k>`, between the
      preamble and the targets of the entries before it on one side and the targets of
      the entries after it and `</project>` on the other. */
  lemma BuildFileEntry(entries: seq<string>, br: string, k: nat)
    requires k < |entries|
    ensures BuildFileText(entries, br)
            == Preamble(br) + Targets(entries[..k], 0, br) + TargetBlock(k, entries[k], br)
               + Targets(entries[k + 1..], k + 1, br) + ("</project>" + br)
  {
    FramedNumbered(entries, br, k, Preamble(br), "</project>" + br);
  }

  /** `TargetsNumbered` between any head `p` and tail `e`. */
  lemma FramedNumbered(entries: seq<string>, br: string, k: nat, p: string, e: string)
    requires k < |entries|
    ensures p + Targets(entries, 0, br) + e
            == p + Targets(entries[..k], 0, br) + TargetBlock(k, entries[k], br) + Targets(entries[k + 1..], k + 1, br) + e
  {
    TargetsNumbered(entries, 0, br, k);
    Surround(p, Targets(entries, 0, br), e, Targets(entries[..k], 0, br),
             TargetBlock(k, entries[k], br), Targets(entries[k + 1..], k + 1, br));
  }

  /** Replacing the middle of `p + t + e` by an equal concatenation. */
  lemma Surround(p: string, t: string, e: string, a: string, b: string, c: string)
    requires t == a + b + c
    ensures p + t + e == p + a + b + c + e
  {
  }

  /** The `k`-th entry, counting from 0, is wrapped in target `test<n + k>`, after the
      targets of the entries before it. */
  lemma TargetsNumbered(entries: seq<string>, n: nat, br: string, k: nat)
    requires k < |entries|
    ensures Targets(entries, n, br)
            == Targets(entries[..k], n, br) + TargetBlock(n + k, entries[k], br) + Targets(entries[k + 1..], n + k + 1, br)
  {
    NumberedSplit(entries, n, TargetBlocks(br), k);
  }

  lemma Associate(a: string, b: string, c: string, d: string)
    ensures a + (b + c + d) == a + b + c + d
  {
  }

  /** One call of the listener. */
  function Handle(l: Listener, call: Call, env: Env): (r: Result<Step, Throwable>)
    requires Sorted(l.failed)
    ensures r.Ok? ==> Sorted(r.value.st.failed)
    ensures r.Ok? ==> forall e :: e in l.failed ==> e in r.value.st.failed
    ensures r.Ok? ==> (r.value.written.Some? <==> call.EndTestSuite?)
    ensures r.Err? <==> ((call.AddFailure? || call.AddError?) && l.current.None?)
                        || (call.EndTestSuite? && (env.file.None? || env.openFailure.Some?))
    ensures call.StartTestSuite? ==>
              r == Ok(Step(l.(current := Some(Suite(call.project, call.buildFile))), None))
    ensures call.StartTest? || call.EndTest? ==> r == Ok(Step(l, None))
    ensures call.AddFailure? ==> r == Record(l, call.target, call.failure, env.br)
    ensures call.AddError? ==> r == Record(l, call.target, call.error, env.br)
    ensures call.EndTestSuite? && r.Ok? ==>
              r.value == Step(l, Some(Written(env.file.value, BuildFileText(l.failed, env.br))))
  {
    match call
    case StartTestSuite(p, bf) => Ok(Step(l.(current := Some(Suite(p, bf))), None))
    case StartTest(_) => Ok(Step(l, None))
    case EndTest(_) => Ok(Step(l, None))
    case AddFailure(target, e) => Record(l, target, e, env.br)
    case AddError(target, e) => Record(l, target, e, env.br)
    case EndTestSuite(_, _) =>
      if env.file.None? then Err(NullPointer)
      else if env.openFailure.Some? then Err(WrapIOException(env.openFailure.value))
      else Ok(Step(l, Some(Written(env.file.value, BuildFileText(l.failed, env.br)))))
  }

  /** `failedTests.add(new TestInfos(currentTestProject, currentBuildFile, target, e.getMessage()))`;
      before any suite the project is null. */
  function Record(l: Listener, target: string, e: Throwable, br: string): (r: Result<Step, Throwable>)
    requires Sorted(l.failed)
    ensures l.current.None? ==> r == Err(NullPointer)
    ensures l.current.Some? ==> r.Ok? && r.value.written.None? && r.value.st.current == l.current
    ensures r.Ok? ==> Sorted(r.value.st.failed)
    ensures r.Ok? ==> forall y :: y in r.value.st.failed <==>
                        y in l.failed || y == Render(NewTestInfos(l.current.value.project, l.current.value.buildFile, target, e), br)
  {
    match l.current
    case None => Err(NullPointer)
    case Some(s) => Ok(Step(l.(failed := Insert(l.failed, Render(NewTestInfos(s.project, s.buildFile, target, e), br))), None))
  }

  /** The listener over a sequence of calls: its state, the build files written in order,
      and the throwable of the call that failed, after which no call is handled. */
  datatype Trace = Trace(st: Listener, files: seq<Written>, thrown: Option<Throwable>)

  /** The files one call writes. */
  function Writes(s: Step): seq<Written> {
    if s.written.Some? then [s.written.value] else []
  }

  function HandleAll(l: Listener, calls: seq<Call>, env: Env): (r: Trace)
    requires Sorted(l.failed)
    ensures Sorted(r.st.failed)
    ensures forall e :: e in l.failed ==> e in r.st.failed
    decreases |calls|
  {
    if |calls| == 0 then Trace(l, [], None)
    else
      match Handle(l, calls[0], env)
      case Err(x) => Trace(l, [], Some(x))
      case Ok(s) =>
        var t := HandleAll(s.st, calls[1..], env);
        Trace(t.st, Writes(s) + t.files, t.thrown)
  }

  /** Handling `a + b` is handling `a`, then, unless that failed, `b` from where `a` left. */
  lemma {:induction false} HandleAllAppend(l: Listener, a: seq<Call>, b: seq<Call>, env: Env)
    requires Sorted(l.failed)
    ensures var ra := HandleAll(l, a, env);
      HandleAll(l, a + b, env)
      == if ra.thrown.Some? then ra
         else var rb := HandleAll(ra.st, b, env); Trace(rb.st, ra.files + rb.files, rb.thrown)
    decreases |a|
  {
    if |a| == 0 {
      assert a + b == b;
    } else {
      assert (a + b)[0] == a[0] && (a + b)[1..] == a[1..] + b;
      HandleAllCons(l, a, env);
      HandleAllCons(l, a + b, env);
      var h := Handle(l, a[0], env);
      if h.Ok? {
        var s := h.value;
        var rest := HandleAll(s.st, a[1..], env);
        var t := HandleAll(s.st, a[1..] + b, env);
        assert HandleAll(l, a, env) == Trace(rest.st, Writes(s) + rest.files, rest.thrown);
        assert HandleAll(l, a + b, env) == Trace(t.st, Writes(s) + t.files, t.thrown);
        HandleAllAppend(s.st, a[1..], b, env);
        if rest.thrown.None? {
          var rb := HandleAll(rest.st, b, env);
          assert t == Trace(rb.st, rest.files + rb.files, rb.thrown);
          SeqAssociative(Writes(s), rest.files, rb.files);
        } else {
          assert t == rest;
        }
      }
    }
  }

  lemma SeqAssociative(x: seq<Written>, y: seq<Written>, z: seq<Written>)
    ensures x + (y + z) == (x + y) + z
  {
  }

  /** One call, then the rest. */
  lemma HandleAllCons(l: Listener, calls: seq<Call>, env: Env)
    requires Sorted(l.failed) && |calls| > 0
    ensures var h := Handle(l, calls[0], env);
      HandleAll(l, calls, env)
      == if h.Err? then Trace(l, [], Some(h.error))
         else var t := HandleAll(h.value.st, calls[1..], env); Trace(t.st, Writes(h.value) + t.files, t.thrown)
  {
  }

  /** `w` is a build file of the set's target file that re-runs `entry`, among others. */
  ghost predicate Holds(w: Written, entry: string, env: Env) {
    env.file.Some? && exists entries :: entry in entries && w == Written(env.file.value, BuildFileText(entries, env.br))
  }

  /** The set is never cleared: an entry in it is in every build file written later, and
      still in the set at the end. */
  lemma {:induction false} LaterFilesHold(l: Listener, calls: seq<Call>, env: Env, entry: string)
    requires Sorted(l.failed) && entry in l.failed
    ensures entry in HandleAll(l, calls, env).st.failed
    ensures forall i :: 0 <= i < |HandleAll(l, calls, env).files| ==> Holds(HandleAll(l, calls, env).files[i], entry, env)
    decreases |calls|
  {
    if |calls| > 0 {
      match Handle(l, calls[0], env)
      case Err(_) =>
      case Ok(s) =>
        LaterFilesHold(s.st, calls[1..], env, entry);
        if s.written.Some? {
          assert Holds(s.written.value, entry, env) by {
            assert s.written.value == Written(env.file.value, BuildFileText(l.failed, env.br));
          }
        }
    }
  }

  /** A failure or error reported inside a suite is in every build file written after it,
      also by later suites, and in the set at the end. */
  lemma {:induction false} FailureReachesLaterFiles(l: Listener, pre: seq<Call>, report: Call, post: seq<Call>, env: Env)
    requires Sorted(l.failed)
    requires report.AddFailure? || report.AddError?
    requires HandleAll(l, pre, env).thrown.None? && HandleAll(l, pre, env).st.current.Some?
    ensures var m := HandleAll(l, pre, env);
      var cur := m.st.current.value;
      var entry := Render(NewTestInfos(cur.project, cur.buildFile, report.target,
                                       if report.AddFailure? then report.failure else report.error), env.br);
      var r := HandleAll(l, pre + [report] + post, env);
      && r.thrown == HandleAll(Handle(m.st, report, env).value.st, post, env).thrown
      && entry in r.st.failed
      && forall i :: |m.files| <= i < |r.files| ==> Holds(r.files[i], entry, env)
  {
    var m := HandleAll(l, pre, env);
    var cur := m.st.current.value;
    var entry := Render(NewTestInfos(cur.project, cur.buildFile, report.target,
                                     if report.AddFailure? then report.failure else report.error), env.br);
    HandleAllAppend(l, pre, [report] + post, env);
    assert pre + [report] + post == pre + ([report] + post);
    var s := Handle(m.st, report, env).value;
    assert entry in s.st.failed && s.written.None?;
    assert ([report] + post)[0] == report && ([report] + post)[1..] == post;
    LaterFilesHold(s.st, post, env, entry);
  }

  /** Two failures whose `toString` is the same are kept once. */
  lemma EqualFailuresCollapse(l: Listener, t1: string, e1: Throwable, t2: string, e2: Throwable, br: string)
    requires Sorted(l.failed) && l.current.Some?
    requires Render(NewTestInfos(l.current.value.project, l.current.value.buildFile, t1, e1), br)
             == Render(NewTestInfos(l.current.value.project, l.current.value.buildFile, t2, e2), br)
    ensures var s1 := Record(l, t1, e1, br).value.st;
            Record(s1, t2, e2, br).value.st == s1
  {
    var s1 := Record(l, t1, e1, br).value.st;
    InsertPresent(s1.failed, Render(NewTestInfos(l.current.value.project, l.current.value.buildFile, t2, e2), br));
  }
}

=== FILE: JUnitNotificationAdapter.dfy ===
/** `JUnitNotificationAdapter`: passes the runner's notifier calls on to a JUnit 3
    `TestResult`, naming tests by their target. JUnit failures need JUnit's own assertion
    error, so AntUnit failures are passed on as errors. */
module JUnitNotificationAdapter {
  import opened Wrappers
  import opened Exceptions
  import ScriptRunner
  import opened AntUnitTestCase

  /** The `TestResult` calls the adapter can make (`test` is `null` when None). */
  datatype ResultCall =
    | StartTest(test: Option<TestCase>)
    | EndTest(test: Option<TestCase>)
    | AddError(test: Option<TestCase>, error: Throwable)
    | AddFailure(test: Option<TestCase>, failure: Throwable)

  /** The constructor's map from target to test: a later test with the same target
      replaces an earlier one. */
  function TestByTarget(tests: seq<TestCase>): (r: map<string, TestCase>)
    ensures forall k :: k in r <==> exists i :: 0 <= i < |tests| && tests[i].target == k
    decreases |tests|
  {
    if |tests| == 0 then map[]
    else
      var last := tests[|tests| - 1];
      var front := tests[..|tests| - 1];
      assert forall i :: 0 <= i < |front| ==> front[i] == tests[i];
      TestByTarget(front)[last.target := last]
  }

  /** The test a target maps to is the last one with that target. */
  lemma {:induction false} LaterTestWins(tests: seq<TestCase>, i: nat)
    requires i < |tests|
    requires forall j :: i < j < |tests| ==> tests[j].target != tests[i].target
    ensures TestByTarget(tests)[tests[i].target] == tests[i]
    decreases |tests|
  {
    if i < |tests| - 1 {
      var front := tests[..|tests| - 1];
      assert front[i] == tests[i];
      LaterTestWins(front, i);
    }
  }

  /** `testByTarget.get(name)`. */
  function Lookup(m: map<string, TestCase>, name: string): (r: Option<TestCase>)
    ensures r.Some? <==> name in m
    ensures r.Some? ==> r.value == m[name]
  {
    if name in m then Some(m[name]) else None
  }

  /** One notifier call, passed on. */
  function Forward(m: map<string, TestCase>, e: ScriptRunner.Event): (r: ResultCall)
    requires e.IsNotification()
    ensures !r.AddFailure?
    ensures r.test == Lookup(m, e.name)
    ensures e.StartTest? <==> r.StartTest?
    ensures e.EndTest? <==> r.EndTest?
    ensures e.Fail? ==> r.AddError? && r.error == e.marker
    ensures e.Error? ==> r.AddError? && r.error == e.error
  {
    match e
    case StartTest(n) => StartTest(Lookup(m, n))
    case EndTest(n) => EndTest(Lookup(m, n))
    case Fail(n, ae) => AddError(Lookup(m, n), ae)
    case Error(n, t) => AddError(Lookup(m, n), t)
  }

  /** A sequence of notifier calls, passed on one by one in the same order. */
  function Adapt(m: map<string, TestCase>, notes: seq<ScriptRunner.Event>): (r: seq<ResultCall>)
    requires forall i :: 0 <= i < |notes| ==> notes[i].IsNotification()
    ensures |r| == |notes|
    ensures forall i :: 0 <= i < |notes| ==> r[i] == Forward(m, notes[i])
    decreases |notes|
  {
    if |notes| == 0 then [] else [Forward(m, notes[0])] + Adapt(m, notes[1..])
  }

  /** A target of the suite's tests reaches the test for it; any other target (a suite
      hook, say) reaches JUnit with a `null` test. */
  lemma HooksReachJUnitAsNull(tests: seq<TestCase>, e: ScriptRunner.Event)
    requires e.IsNotification()
    ensures (exists i :: 0 <= i < |tests| && tests[i].target == e.name) <==> Forward(TestByTarget(tests), e).test.Some?
  {
  }

  /** Every failure and every error of the run arrives as an error, so JUnit counts all of
      them among its errors and none among its failures. */
  lemma FailuresCountAsErrors(m: map<string, TestCase>, notes: seq<ScriptRunner.Event>)
    requires forall i :: 0 <= i < |notes| ==> notes[i].IsNotification()
    ensures Errors(Adapt(m, notes)) == Outcomes(notes)
    decreases |notes|
  {
    if |notes| > 0 {
      FailuresCountAsErrors(m, notes[1..]);
      assert Adapt(m, notes)[1..] == Adapt(m, notes[1..]);
    }
  }

  function Errors(calls: seq<ResultCall>): nat {
    if |calls| == 0 then 0 else (if calls[0].AddError? then 1 else 0) + Errors(calls[1..])
  }

  function Outcomes(notes: seq<ScriptRunner.Event>): nat {
    if |notes| == 0 then 0 else (if notes[0].Fail? || notes[0].Error? then 1 else 0) + Outcomes(notes[1..])
  }
}

=== FILE: LogCapturer.dfy ===
/** `LogCapturer`: a build listener that keeps, for each of Ant's five message priorities,
    everything logged at that priority or a more severe one, and that registers itself
    on its project under a well-known reference until that project's build finishes. */
module LogCapturer {
  import opened Wrappers
  import opened Strings

  const ReferenceId := "ant.antunit.log"

  /** Ant's message priorities (`Project.MSG_*`): smaller is more severe. */
  const MsgErr := 0
  const MsgWarn := 1
  const MsgInfo := 2
  const MsgVerbose := 3
  const MsgDebug := 4

  /** Ant's `LogLevel` enumeration: its values and the priority each stands for. */
  datatype LogLevel = Error | Warn | Warning | Info | Verbose | Debug
  {
    function Value(): string {
      match this
      case Error => "error"
      case Warn => "warn"
      case Warning => "warning"
      case Info => "info"
      case Verbose => "verbose"
      case Debug => "debug"
    }

    function Level(): (r: int)
      ensures MsgErr <= r <= MsgDebug
    {
      match this
      case Error => MsgErr
      case Warn => MsgWarn
      case Warning => MsgWarn
      case Info => MsgInfo
      case Verbose => MsgVerbose
      case Debug => MsgDebug
    }
  }

  /** One logged message: its priority and its text. */
  datatype Message = Message(priority: int, text: string)

  /** The five buffers, from the most severe to the most verbose. */
  datatype Buffers = Buffers(err: string, warn: string, info: string, verbose: string, debug: string)
  {
    /** The getter for a priority; other priorities have no buffer. */
    function Get(level: int): (r: Option<string>)
      ensures r.Some? <==> MsgErr <= level <= MsgDebug
    {
      if level == MsgErr then Some(err)
      else if level == MsgWarn then Some(warn)
      else if level == MsgInfo then Some(info)
      else if level == MsgVerbose then Some(verbose)
      else if level == MsgDebug then Some(debug)
      else None
    }
  }

  const Empty := Buffers("", "", "", "", "")

  /** A reference stored on a project: a capturer (known by its identity) or anything else. */
  datatype Ref = CapturerRef(capturer: nat) | OtherRef

  /** The parts of an Ant project a capturer touches: its references and its listeners. */
  datatype Project = Project(id: nat, references: map<string, Ref>, listeners: seq<nat>)

  /** A capturer: its identity, its buffers and the project it is attached to (`p`). */
  datatype Capturer = Capturer(id: nat, buffers: Buffers, project: Option<nat>)

  /** The constructor: empty buffers, added as a listener of `p` and stored under the
      reference id, replacing whatever was there. */
  function New(id: nat, p: Project): (r: (Capturer, Project))
    ensures r.0 == Capturer(id, Empty, Some(p.id))
    ensures r.1.id == p.id
    ensures ReferenceId in r.1.references && r.1.references[ReferenceId] == CapturerRef(id)
    ensures forall k :: k in p.references && k != ReferenceId ==> k in r.1.references && r.1.references[k] == p.references[k]
    ensures r.1.listeners == p.listeners + [id]
  {
    (Capturer(id, Empty, Some(p.id)), p.(references := p.references[ReferenceId := CapturerRef(id)], listeners := p.listeners + [id]))
  }

  /** The capturer a project's reference resolves to, if it is one. */
  function Registered(p: Project): (r: Option<nat>)
    ensures r.Some? <==> ReferenceId in p.references && p.references[ReferenceId].CapturerRef?
  {
    if ReferenceId in p.references && p.references[ReferenceId].CapturerRef? then Some(p.references[ReferenceId].capturer)
    else None
  }

  /** `removeBuildListener`: the first occurrence goes. */
  function RemoveFirst(s: seq<nat>, x: nat): (r: seq<nat>)
    ensures x !in s ==> r == s
    ensures x in s ==> |r| == |s| - 1
    ensures multiset(r) == multiset(s) - multiset{x}
  {
    if |s| == 0 then []
    else if s[0] == x then
      assert s == [s[0]] + s[1..];
      s[1..]
    else
      assert s == [s[0]] + s[1..];
      [s[0]] + RemoveFirst(s[1..], x)
  }

  /** `buildFinished`: when the finished build is the capturer's own project, it leaves the
      listener list, the reference is removed, and the capturer forgets the project;
      otherwise nothing changes. `p` is the capturer's project as it stands. */
  function BuildFinished(c: Capturer, p: Project, finished: nat): (r: (Capturer, Project))
    requires c.project.Some? ==> c.project.value == p.id
    ensures c.project.Some? && finished == p.id ==>
      && r.0 == c.(project := None)
      && r.1 == p.(references := p.references - {ReferenceId}, listeners := RemoveFirst(p.listeners, c.id))
    ensures c.project.None? || finished != p.id ==> r == (c, p)
  {
    if c.project.Some? && finished == c.project.value then
      (c.(project := None), p.(references := p.references - {ReferenceId}, listeners := RemoveFirst(p.listeners, c.id)))
    else (c, p)
  }

  /** `messageLogged`: the message goes to every buffer whose priority is at least its own. */
  function Log(b: Buffers, m: Message): Buffers {
    Buffers(
      if m.priority <= MsgErr then b.err + m.text else b.err,
      if m.priority <= MsgWarn then b.warn + m.text else b.warn,
      if m.priority <= MsgInfo then b.info + m.text else b.info,
      if m.priority <= MsgVerbose then b.verbose + m.text else b.verbose,
      if m.priority <= MsgDebug then b.debug + m.text else b.debug)
  }

  /** Logging only appends: each buffer grows by the message text exactly when the
      message's priority is at most the buffer's. */
  lemma LogAppends(b: Buffers, m: Message, level: int)
    requires MsgErr <= level <= MsgDebug
    ensures Log(b, m).Get(level).value == b.Get(level).value + (if m.priority <= level then m.text else "")
  {
  }

  /** The capturer's buffers after a sequence of messages. */
  function Replay(b: Buffers, msgs: seq<Message>): Buffers
    decreases |msgs|
  {
    if |msgs| == 0 then b else Replay(Log(b, msgs[0]), msgs[1..])
  }

  /** The messages a level keeps, in arrival order. */
  function Selected(msgs: seq<Message>, level: int): (r: seq<Message>)
    ensures |r| <= |msgs|
    ensures forall i :: 0 <= i < |r| ==> r[i] in msgs && r[i].priority <= level
  {
    if |msgs| == 0 then []
    else (if msgs[0].priority <= level then [msgs[0]] else []) + Selected(msgs[1..], level)
  }

  /** The texts of messages, concatenated with no separator. */
  function Texts(msgs: seq<Message>): string {
    if |msgs| == 0 then "" else msgs[0].text + Texts(msgs[1..])
  }

  lemma {:induction false} TextsAppend(a: seq<Message>, b: seq<Message>)
    ensures Texts(a + b) == Texts(a) + Texts(b)
    decreases |a|
  {
    if |a| > 0 {
      assert (a + b)[1..] == a[1..] + b;
      TextsAppend(a[1..], b);
    } else {
      assert a + b == b;
    }
  }

  /** A buffer is what it held plus, in arrival order, the texts of the messages of its
      priority or a more severe one. */
  lemma {:induction false} ReplayIsSelection(b: Buffers, msgs: seq<Message>, level: int)
    requires MsgErr <= level <= MsgDebug
    ensures Replay(b, msgs).Get(level).value == b.Get(level).value + Texts(Selected(msgs, level))
    decreases |msgs|
  {
    if |msgs| > 0 {
      var m := msgs[0];
      LogAppends(b, m, level);
      ReplayIsSelection(Log(b, m), msgs[1..], level);
      var first := if m.priority <= level then [m] else [];
      TextsAppend(first, Selected(msgs[1..], level));
      assert Texts(first) == (if m.priority <= level then m.text else "") by {
        if m.priority <= level {
          assert [m][1..] == [];
        }
      }
    }
  }

  /** The buffers are nested: the messages a level keeps are exactly those a more verbose
      level keeps, filtered again, so each is a subsequence of the next. */
  lemma {:induction false} SelectionNests(msgs: seq<Message>, lower: int, higher: int)
    requires lower <= higher
    ensures Selected(Selected(msgs, higher), lower) == Selected(msgs, lower)
    decreases |msgs|
  {
    if |msgs| > 0 {
      SelectionNests(msgs[1..], lower, higher);
      var m := msgs[0];
      if m.priority <= higher {
        var h := Selected(msgs, higher);
        assert h == [m] + Selected(msgs[1..], higher);
        assert h[0] == m && h[1..] == Selected(msgs[1..], higher);
        assert Selected(h, lower) == (if m.priority <= lower then [m] else []) + Selected(h[1..], lower);
      } else {
        assert Selected(msgs, higher) == Selected(msgs[1..], higher);
      }
    }
  }

  /** The debug buffer keeps every message of a known priority. */
  lemma {:induction false} DebugKeepsAll(msgs: seq<Message>)
    requires forall i :: 0 <= i < |msgs| ==> msgs[i].priority <= MsgDebug
    ensures Selected(msgs, MsgDebug) == msgs
    decreases |msgs|
  {
    if |msgs| > 0 {
      DebugKeepsAll(msgs[1..]);
      assert msgs == [msgs[0]] + msgs[1..];
    }
  }

  /** `buildFinished` twice is `buildFinished` once. */
  lemma BuildFinishedIdempotent(c: Capturer, p: Project, finished: nat)
    requires c.project.Some? ==> c.project.value == p.id
    ensures var (c1, p1) := BuildFinished(c, p, finished);
      BuildFinished(c1, p1, finished) == (c1, p1)
  {
  }

  /** Right after construction the project resolves the reference to the new capturer,
      and the end of that project's build removes it again. */
  lemma RegistrationLifecycle(id: nat, p: Project)
    ensures var (c, p1) := New(id, p);
      && Registered(p1) == Some(id)
      && Registered(BuildFinished(c, p1, p.id).1) == None
      && BuildFinished(c, p1, p.id).1.listeners == RemoveFirst(p.listeners + [id], id)
  {
  }

  lemma ReplayStep(b: Buffers, m: Message, rest: seq<Message>)
    ensures Replay(b, [m] + rest) == Replay(Log(b, m), rest)
  {
    assert ([m] + rest)[0] == m && ([m] + rest)[1..] == rest;
  }

  /** One message per priority, from ERR to DEBUG: each buffer holds the texts from ERR
      up to its own priority. */
  lemma OnePerPriority(t0: string, t1: string, t2: string, t3: string, t4: string)
    ensures var b := Replay(Empty, [Message(0, t0), Message(1, t1), Message(2, t2), Message(3, t3), Message(4, t4)]);
      && b.err == t0 && b.warn == t0 + t1 && b.info == t0 + t1 + t2
      && b.verbose == t0 + t1 + t2 + t3 && b.debug == t0 + t1 + t2 + t3 + t4
  {
    var m0, m1, m2, m3, m4 := Message(0, t0), Message(1, t1), Message(2, t2), Message(3, t3), Message(4, t4);
    ReplayFive(Empty, m0, m1, m2, m3, m4);
    var b5 := Log(Log(Log(Log(Log(Empty, m0), m1), m2), m3), m4);
    assert b5.err == t0 by { assert "" + t0 == t0; }
    assert b5.warn == t0 + t1 by { assert "" + t0 == t0; }
    assert b5.info == t0 + t1 + t2 by { assert "" + t0 == t0; }
    assert b5.verbose == t0 + t1 + t2 + t3 by { assert "" + t0 == t0; }
    assert b5.debug == t0 + t1 + t2 + t3 + t4 by { assert "" + t0 == t0; }
  }

  lemma ReplayFive(b: Buffers, m0: Message, m1: Message, m2: Message, m3: Message, m4: Message)
    ensures Replay(b, [m0, m1, m2, m3, m4]) == Log(Log(Log(Log(Log(b, m0), m1), m2), m3), m4)
  {
    var b1 := Log(b, m0);
    var b2 := Log(b1, m1);
    var b3 := Log(b2, m2);
    var b4 := Log(b3, m3);
    ReplayStep(b4, m4, []);
    ReplayStep(b3, m3, [m4]);
    ReplayStep(b2, m2, [m3, m4]);
    ReplayStep(b1, m1, [m2, m3, m4]);
    ReplayStep(b, m0, [m1, m2, m3, m4]);
    assert [m0, m1, m2, m3, m4] == [m0] + [m1, m2, m3, m4];
    assert [m1, m2, m3, m4] == [m1] + [m2, m3, m4];
    assert [m2, m3, m4] == [m2] + [m3, m4];
    assert [m3, m4] == [m3] + [m4];
    assert [m4] == [m4] + [];
  }


  /** Two ERR messages are joined with no separator. */
  lemma NoSeparator()
    ensures Replay(Empty, [Message(0, "0"), Message(0, "1")]).err == "01"
  {
    ReplayStep(Log(Empty, Message(0, "0")), Message(0, "1"), []);
    ReplayStep(Empty, Message(0, "0"), [Message(0, "1")]);
    assert [Message(0, "0"), Message(0, "1")] == [Message(0, "0")] + [Message(0, "1")];
    assert [Message(0, "1")] == [Message(0, "1")] + [];
  }
}

=== FILE: LogContains.dfy ===
/** The `<logcontains>` condition: whether the log captured for the current project, at a
    chosen priority, contains a text. */
module LogContains {
  import opened Wrappers
  import opened Strings
  import opened Exceptions
  import opened LogCapturer

  const TextRequired := "the text attribute is required"
  const UnknownLogLevel := "Unknown logLevel: "

  /** The condition's attributes: `text` (unset is `null`) and the priority `logLevel`. */
  datatype Condition = Condition(text: Option<string>, logLevel: int)

  /** A new condition: no text, priority INFO. */
  const Default := Condition(None, MsgInfo)

  /** `setLevel`: the priority of the chosen level. */
  function SetLevel(c: Condition, level: LogLevel): (r: Condition)
    ensures r.text == c.text && r.logLevel == level.Level()
  {
    c.(logLevel := level.Level())
  }

  /** `eval`, given the buffers of the capturer registered on the project (None when the
      reference is absent or is not a capturer). */
  function Eval(c: Condition, capturer: Option<Buffers>): (r: Result<bool, Throwable>)
    ensures c.text.None? ==> r == Err(BuildException(TextRequired, Some(UnknownLocation)))
    ensures c.text.Some? && capturer.None? ==> r == Ok(false)
    ensures c.text.Some? && capturer.Some? && capturer.value.Get(c.logLevel).None? ==>
      r == Err(BuildException(UnknownLogLevel + IntToString(c.logLevel), Some(UnknownLocation)))
    ensures c.text.Some? && capturer.Some? && capturer.value.Get(c.logLevel).Some? ==>
      r.Ok? && (r.value <==> Occurs(capturer.value.Get(c.logLevel).value, c.text.value))
  {
    match c.text
    case None => Err(BuildException(TextRequired, Some(UnknownLocation)))
    case Some(text) =>
      match capturer
      case None => Ok(false)
      case Some(b) =>
        match b.Get(c.logLevel)
        case None => Err(BuildException(UnknownLogLevel + IntToString(c.logLevel), Some(UnknownLocation)))
        case Some(log) =>
          ContainsIffOccurs(log, text);
          Ok(Contains(log, text))
  }

  /** A level chosen through `setLevel` always has a buffer, so the unknown-level error
      needs a priority no level has. */
  lemma LevelsAreKnown(c: Condition, level: LogLevel, b: Buffers)
    requires c.text.Some?
    ensures Eval(SetLevel(c, level), Some(b)).Ok?
  {
  }

  /** Against a capturer fed `msgs` from the start, the condition holds exactly when the
      text occurs in the concatenated texts of the messages of the chosen priority or a
      more severe one. */
  lemma EvalAgainstMessages(text: string, level: LogLevel, msgs: seq<Message>)
    ensures var c := SetLevel(Default.(text := Some(text)), level);
      Eval(c, Some(Replay(Empty, msgs))) == Ok(Occurs(Texts(Selected(msgs, level.Level())), text))
  {
    var c := SetLevel(Default.(text := Some(text)), level);
    var b := Replay(Empty, msgs);
    var lv := level.Level();
    ReplayIsSelection(Empty, msgs, lv);
    assert Empty.Get(lv).value == "";
    assert b.Get(lv).value == Texts(Selected(msgs, lv));
    assert c.logLevel == lv && c.text == Some(text);
  }
}

=== FILE: LogContent.dfy ===
/** The `<logcontent>` resource: the log captured for its project at one level, exposed
    as the content of a read-only resource named after the level. */
module LogContent {
  import opened Wrappers
  import opened Exceptions
  import opened LogCapturer

  const Unavailable := "antunit log unavailable"

  /** The resource's state: its project (`null` until set), its level and its name. */
  datatype Content = Content(project: Option<nat>, level: LogLevel, name: string)

  /** `setLevel`: the level, and the level's value as the resource name. */
  function SetLevel(c: Content, level: LogLevel): (r: Content)
    ensures r.project == c.project && r.level == level && r.name == level.Value()
  {
    c.(level := level, name := level.Value())
  }

  /** `new LogContent()`: level INFO, no project yet. */
  function Default(): (r: Content)
    ensures r.project.None? && r.level == Info && r.name == "info"
  {
    SetLevel(Content(None, Info, ""), Info)
  }

  /** `new LogContent(p, level)`. */
  function Of(p: nat, level: LogLevel): (r: Content)
    ensures r.project == Some(p) && r.level == level && r.name == level.Value()
  {
    SetLevel(Content(Some(p), level, ""), level)
  }

  /** `isExists`, given the capturer registered on the project, if any. Looking the
      capturer up dereferences the project, so a resource without one throws a
      `NullPointerException`. */
  function IsExists(c: Content, capturer: Option<Buffers>): (r: Result<bool, Throwable>)
    ensures r.Err? <==> c.project.None?
    ensures r.Err? ==> r.error == NullPointer
    ensures r.Ok? ==> (r.value <==> capturer.Some?)
  {
    if c.project.None? then Err(NullPointer) else Ok(capturer.Some?)
  }

  /** `getInputStream` (its bytes, as a string): the buffer of the level; an
      `IllegalStateException` when no capturer is registered; a `NullPointerException`
      when the resource has no project. */
  function InputStream(c: Content, capturer: Option<Buffers>): (r: Result<string, Throwable>)
    ensures r.Ok? <==> IsExists(c, capturer) == Ok(true)
    ensures r.Ok? ==> r.value == capturer.value.Get(c.level.Level()).value
    ensures r.Err? && c.project.None? ==> r.error == NullPointer
    ensures r.Err? && c.project.Some? ==> r.error == Throwable(Other, Unavailable, None, None)
  {
    if c.project.None? then Err(NullPointer)
    else
      match capturer
      case None => Err(Throwable(Other, Unavailable, None, None))
      case Some(b) => Ok(b.Get(c.level.Level()).value)
  }

  /** The content read from a capturer fed `msgs` from the start: the texts of the
      messages at the level's priority or a more severe one, in arrival order. */
  lemma ContentIsSelection(c: Content, msgs: seq<Message>)
    ensures c.project.Some? ==>
              InputStream(c, Some(Replay(Empty, msgs))) == Ok(Texts(Selected(msgs, c.level.Level())))
  {
    if c.project.Some? {
      var level := c.level.Level();
      var b := Replay(Empty, msgs);
      ReplayIsSelection(Empty, msgs, level);
      assert Empty.Get(level).value == "";
      assert b.Get(level).value == Texts(Selected(msgs, level));
      assert InputStream(c, Some(b)) == Ok(b.Get(level).value);
    }
  }

  /** A new `<logcontent>` has no project until Ant sets one, so reading it fails with a
      `NullPointerException` even when a capturer exists. */
  lemma DefaultUnreadable(b: Buffers)
    ensures IsExists(Default(), Some(b)) == Err(NullPointer)
    ensures InputStream(Default(), Some(b)) == Err(NullPointer)
  {
  }

  /** An object `equals` may be handed: a `LogContent` or anything else, each with its
      identity. */
  datatype Object = ContentObject(ref: nat, content: Content) | OtherObject(ref: nat)

  /** `equals`: the same object, or a `LogContent` of the same project with a level of the
      same priority. */
  function Equals(selfRef: nat, self: Content, o: Object): (r: bool)
    ensures o.OtherObject? ==> (r <==> o.ref == selfRef)
    ensures o.ContentObject? && o.ref != selfRef ==>
      (r <==> o.content.project == self.project && o.content.level.Level() == self.level.Level())
  {
    if o.ref == selfRef then true
    else
      match o
      case OtherObject(_) => false
      case ContentObject(_, oc) => oc.project == self.project && oc.level.Level() == self.level.Level()
  }

  /** What `equals` compares, for distinct objects. */
  function Key(c: Content): (Option<nat>, int) {
    (c.project, c.level.Level())
  }

  /** Equality of two resources is identity or equal keys: reflexive, symmetric and
      transitive, as `Object.equals` requires. */
  lemma EqualsIsEquivalence(ra: nat, a: Content, rb: nat, b: Content, rc: nat, c: Content)
    ensures Equals(ra, a, ContentObject(ra, a))
    ensures Equals(ra, a, ContentObject(rb, b)) <==> ra == rb || Key(a) == Key(b)
    ensures Equals(ra, a, ContentObject(rb, b)) <==> Equals(rb, b, ContentObject(ra, a))
    ensures ra != rb && rb != rc && ra != rc && Equals(ra, a, ContentObject(rb, b)) && Equals(rb, b, ContentObject(rc, c))
            ==> Equals(ra, a, ContentObject(rc, c))
  {
  }

  /** "warn" and "warning" name different resources that are nevertheless equal. */
  lemma WarnEqualsWarning(ra: nat, rb: nat, p: nat)
    ensures Of(p, Warn).name != Of(p, Warning).name
    ensures Equals(ra, Of(p, Warn), ContentObject(rb, Of(p, Warning)))
  {
    assert Of(p, Warn).name[4..] == [];
    assert |Of(p, Warning).name| == 7;
  }
}

=== FILE: PlainAntUnitListener.dfy ===
/** The plain-text report listener: a header per build file, a summary with the
    counters, the collected log, and one entry per target. */
module PlainAntUnitListener {
  import opened Wrappers
  import opened Strings
  import opened Exceptions
  import opened BaseAntUnitListener

  /** What the listener receives: a listener call, with the elapsed time the clock would
      give it already formatted, or a build message forwarded to `messageLogged`. */
  datatype Input = Notify(call: Call, elapsed: string) | Logged(message: string)

  /** One write to an output stream. */
  datatype Write = Write(stream: Stream, text: string)

  /** The listener's state: the base counters, the report stream, the buffer of
      per-target text (`inner`, absent before the first suite) and the collected log. */
  datatype Plain = Plain(counters: Counters, out: Option<Stream>, inner: Option<string>, log: string)

  const Initial := Plain(Zero, None, None, "")

  /** The state after one input, and what it wrote. */
  datatype Step = Step(st: Plain, writes: seq<Write>)

  /** The surroundings: the line separator, the file separator, the configuration,
      `removeLeadingPath` against the base directory, and the `IOException` creating
      the report file would throw, if any. */
  datatype Env = Env(nl: string, sep: char, config: Listener, relative: string -> string, openFailure: Option<Throwable>)

  /** The configuration of a new listener: the report goes to the log unless `sendLogTo`
      says otherwise, in files with extension "txt". */
  function Configure(sendLogTo: Option<SendLogTo>, toDir: Option<string>, hasParentTask: bool): (r: Listener)
    ensures r.logTo == sendLogTo.GetOr(AntLog) && r.extension == "txt"
    ensures r.toDir == toDir && r.hasParentTask == hasParentTask
  {
    Listener(sendLogTo.GetOr(AntLog), "txt", toDir, hasParentTask)
  }

  /** The header written at the start of each build file. */
  function Header(buildFile: string, nl: string): string {
    "Build File: " + buildFile + nl
  }

  /** "Tests run: R, Failures: F, Errors: E, Time elapsed: T sec". */
  function Summary(c: Counters, elapsed: string, nl: string): string {
    "Tests run: " + NatToString(c.run) + ", Failures: " + NatToString(c.failures)
    + ", Errors: " + NatToString(c.errors) + ", Time elapsed: " + elapsed + " sec" + nl
  }

  /** The collected log between its two rulers, or nothing when the log is empty. */
  function LogBlock(log: string, nl: string): (r: string)
    ensures r == "" <==> log == ""
  {
    if |log| > 0 then
      "------------- Log Output       ---------------" + nl + log
      + "------------- ---------------- ---------------" + nl
    else ""
  }

  /** The location line of `formatError`: only with a line number, and the column only
      when it is also known. */
  function LocationLine(l: Location, nl: string): (r: string)
    ensures r == "" <==> l.line == 0
    ensures l.line != 0 && l.column == 0 ==> r == "\tat line " + NatToString(l.line) + nl
    ensures l.line != 0 && l.column != 0 ==>
              r == "\tat line " + NatToString(l.line) + ", column " + NatToString(l.column) + nl
  {
    if l.line != 0 then
      "\tat line " + NatToString(l.line) + (if l.column != 0 then ", column " + NatToString(l.column) else "") + nl
    else ""
  }

  /** `formatError(type, t)`. */
  function FormatError(kind: string, t: Throwable, nl: string): string {
    kind + nl + LocationLine(GetLocation(t), nl) + "\tMessage: " + t.message + nl + "\t"
  }

  /** A located `BuildException` gets its line, and its column when that is known,
      between the kind and the message. */
  lemma LocatedFailureShowsLine(kind: string, t: Throwable, nl: string)
    requires t.IsBuildException() && t.location.Some? && t.location.value.line != 0
    ensures var l := t.location.value;
      FormatError(kind, t, nl)
      == kind + nl + "\tat line " + NatToString(l.line) + (if l.column != 0 then ", column " + NatToString(l.column) else "")
         + nl + "\tMessage: " + t.message + nl + "\t"
  {
    var l := t.location.value;
    assert GetLocation(t) == l;
  }

  /** A failure that is not a `BuildException`, or one without a location, gets no
      location line. */
  lemma NoLocationWithoutBuildLocation(kind: string, t: Throwable, nl: string)
    requires !t.IsBuildException() || t.location.None? || t.location.value.line == 0
    ensures FormatError(kind, t, nl) == kind + nl + "\tMessage: " + t.message + nl + "\t"
  {
    LineOnlyFromBuildExceptions(t);
  }

  /** What one input adds to the per-target text, stated on its own. */
  function Detail(i: Input, nl: string): string {
    match i
    case Logged(_) => ""
    case Notify(call, elapsed) =>
      match call
      case StartTest(target) => "Target: " + target + " "
      case EndTest(_) => "took " + elapsed + " sec" + nl
      case AddFailure(_, e) => FormatError(" FAILED", e, nl)
      case AddError(_, e) => FormatError(" caused an ERROR", e, nl)
      case _ => ""
  }

  /** The per-target text of a sequence of inputs. */
  function Details(inputs: seq<Input>, nl: string): string
    decreases |inputs|
  {
    if |inputs| == 0 then "" else Detail(inputs[0], nl) + Details(inputs[1..], nl)
  }

  /** The log lines of a sequence of inputs. */
  function Logs(inputs: seq<Input>, nl: string): string
    decreases |inputs|
  {
    if |inputs| == 0 then ""
    else (if inputs[0].Logged? then inputs[0].message + nl else "") + Logs(inputs[1..], nl)
  }

  /** The listener calls among the inputs. */
  function CallsOf(inputs: seq<Input>): seq<Call>
    decreases |inputs|
  {
    if |inputs| == 0 then []
    else (if inputs[0].Notify? then [inputs[0].call] else []) + CallsOf(inputs[1..])
  }

  /** Inputs inside one suite: no suite starts or ends. */
  predicate InSuite(inputs: seq<Input>) {
    forall i :: 0 <= i < |inputs| ==> inputs[i].Logged? || !(inputs[i].call.StartTestSuite? || inputs[i].call.EndTestSuite?)
  }

  /** Appends to the per-target buffer; writing to it before any suite is a null dereference. */
  function Print(st: Plain, text: string): (r: Result<Plain, Throwable>)
    ensures st.inner.None? ==> r == Err(NullPointer)
    ensures st.inner.Some? ==> r == Ok(st.(inner := Some(st.inner.value + text)))
  {
    match st.inner
    case None => Err(NullPointer)
    case Some(s) => Ok(st.(inner := Some(s + text)))
  }

  /** `startTestSuite`: reset the counters and the per-target buffer, open the report
      stream and write the header to it. */
  function StartSuite(st: Plain, buildFile: string, env: Env): (r: Result<Step, Throwable>)
    ensures var o := GetOut(env.config, env.relative(buildFile), env.sep, env.openFailure);
      && (r.Err? <==> o.Err?)
      && (r.Err? ==> r.error == o.error)
      && (r.Ok? ==> r.value.st.out == Some(o.value) && r.value.writes == [Write(o.value, Header(buildFile, env.nl))])
    ensures r.Ok? ==> r.value.st.counters == Zero && r.value.st.log == st.log && r.value.st.inner == Some("")
  {
    match GetOut(env.config, env.relative(buildFile), env.sep, env.openFailure)
    case Err(e) => Err(e)
    case Ok(out) => Ok(Step(Plain(Zero, Some(out), Some(""), st.log), [Write(out, Header(buildFile, env.nl))]))
  }

  /** `endTestSuite`: the summary and the log block, then the per-target text, all to the
      report stream if one was opened; the log is emptied either way. */
  function EndSuite(st: Plain, elapsed: string, env: Env): (r: Step)
    ensures r.st == st.(log := "")
    ensures |r.writes| == if st.out.Some? then 1 else 0
  {
    var text := Summary(st.counters, elapsed, env.nl) + LogBlock(st.log, env.nl);
    var writes := if st.out.Some? then [Write(st.out.value, text + st.inner.GetOr(""))] else [];
    Step(st.(log := ""), writes)
  }

  /** One input. */
  function Handle(st: Plain, i: Input, env: Env): (r: Result<Step, Throwable>)
    ensures r.Ok? && !(i.Notify? && i.call.EndTestSuite?) ==> r.value.st.log == st.log + (if i.Logged? then i.message + env.nl else "")
    ensures r.Ok? && i.Notify? && i.call.EndTestSuite? ==> r.value.st.log == ""
    ensures r.Ok? && i.Notify? ==> r.value.st.counters == Count(st.counters, i.call)
    ensures r.Ok? && i.Logged? ==> r.value.st.counters == st.counters
    ensures r.Err? ==> i.Notify?
  {
    match i
    case Logged(m) => Ok(Step(st.(log := st.log + m + env.nl), []))
    case Notify(call, elapsed) =>
      if call.StartTestSuite? then StartSuite(st, call.buildFile, env)
      else if call.EndTestSuite? then Ok(EndSuite(st, elapsed, env))
      else
        match Print(st.(counters := Count(st.counters, call)), Detail(i, env.nl))
        case Err(e) => Err(e)
        case Ok(s) => Ok(Step(s, []))
  }

  /** The listener as a step function: the environment fixed, one input at a time. */
  function Listen(env: Env): (Plain, Input) -> Result<Step, Throwable> {
    (st: Plain, i: Input) => Handle(st, i, env)
  }

  /** Feeding `inputs` to `step` one at a time, collecting the writes and stopping at
      the first exception. */
  function Fold(step: (Plain, Input) -> Result<Step, Throwable>, st: Plain, inputs: seq<Input>): Result<Step, Throwable>
    decreases |inputs|
  {
    if |inputs| == 0 then Ok(Step(st, []))
    else
      match step(st, inputs[0])
      case Err(e) => Err(e)
      case Ok(s) =>
        match Fold(step, s.st, inputs[1..])
        case Err(e) => Err(e)
        case Ok(rest) => Ok(Step(rest.st, s.writes + rest.writes))
  }

  /** The listener over a sequence of inputs. */
  function HandleAll(st: Plain, inputs: seq<Input>, env: Env): Result<Step, Throwable> {
    Fold(Listen(env), st, inputs)
  }

  /** Whatever the step, folding `a + b` is folding `a`, then `b` from where `a` left
      off, with the writes of both in order. */
  lemma {:induction false} FoldAppend(step: (Plain, Input) -> Result<Step, Throwable>, st: Plain, a: seq<Input>, b: seq<Input>)
    requires Fold(step, st, a).Ok?
    requires Fold(step, Fold(step, st, a).value.st, b).Ok?
    ensures var ra := Fold(step, st, a).value;
            var rb := Fold(step, ra.st, b).value;
            Fold(step, st, a + b) == Ok(Step(rb.st, ra.writes + rb.writes))
    decreases |a|
  {
    var ra := Fold(step, st, a).value;
    var rb := Fold(step, ra.st, b).value;
    if |a| == 0 {
      assert a + b == b;
      assert ra.writes + rb.writes == rb.writes;
    } else {
      assert (a + b)[0] == a[0] && (a + b)[1..] == a[1..] + b;
      var s := step(st, a[0]).value;
      var rt := Fold(step, s.st, a[1..]).value;
      assert ra == Step(rt.st, s.writes + rt.writes);
      FoldAppend(step, s.st, a[1..], b);
      assert s.writes + (rt.writes + rb.writes) == s.writes + rt.writes + rb.writes;
    }
  }

  lemma HandleAllAppend(st: Plain, a: seq<Input>, b: seq<Input>, env: Env)
    requires HandleAll(st, a, env).Ok?
    requires HandleAll(HandleAll(st, a, env).value.st, b, env).Ok?
    ensures var ra := HandleAll(st, a, env).value;
            var rb := HandleAll(ra.st, b, env).value;
            HandleAll(st, a + b, env) == Ok(Step(rb.st, ra.writes + rb.writes))
  {
    FoldAppend(Listen(env), st, a, b);
  }


  /** The first input of a non-empty sequence is handled before the rest. */
  lemma HandleAllCons(st: Plain, inputs: seq<Input>, env: Env)
    requires |inputs| > 0
    ensures Handle(st, inputs[0], env).Err? ==> HandleAll(st, inputs, env) == Err(Handle(st, inputs[0], env).error)
    ensures Handle(st, inputs[0], env).Ok? ==>
              var s := Handle(st, inputs[0], env).value;
              HandleAll(st, inputs, env) ==
                match HandleAll(s.st, inputs[1..], env)
                case Err(e) => Err(e)
                case Ok(rest) => Ok(Step(rest.st, s.writes + rest.writes))
  {
    assert Listen(env)(st, inputs[0]) == Handle(st, inputs[0], env);
  }

  lemma HandleAllSingle(st: Plain, i: Input, env: Env)
    requires Handle(st, i, env).Ok?
    ensures HandleAll(st, [i], env) == Handle(st, i, env)
  {
    HandleAllCons(st, [i], env);
    assert [i][1..] == [];
    var s := Handle(st, i, env).value;
    assert s.writes + [] == s.writes;
  }

  lemma Associate(a: string, b: string, c: string)
    ensures a + b + c == a + (b + c)
  {
  }

  /** Inside a suite that has started, nothing is written; the per-target text, the
      counters and the log grow exactly by what the inputs contribute. */
  lemma {:induction false} InsideSuite(st: Plain, inputs: seq<Input>, env: Env)
    requires st.inner.Some? && InSuite(inputs)
    ensures HandleAll(st, inputs, env)
            == Ok(Step(Plain(CountAll(st.counters, CallsOf(inputs)), st.out,
                             Some(st.inner.value + Details(inputs, env.nl)), st.log + Logs(inputs, env.nl)), []))
    decreases |inputs|
  {
    if |inputs| == 0 {
      assert st.inner.value + "" == st.inner.value && st.log + "" == st.log;
    } else {
      var i := inputs[0];
      assert InSuite(inputs[1..]) by {
        forall k | 0 <= k < |inputs[1..]| ensures inputs[1..][k] == inputs[k + 1] { }
      }
      HandleInSuite(st, i, env);
      var s := Handle(st, i, env).value;
      InsideSuite(s.st, inputs[1..], env);
      Associate(st.inner.value, Detail(i, env.nl), Details(inputs[1..], env.nl));
      Associate(st.log, if i.Logged? then i.message + env.nl else "", Logs(inputs[1..], env.nl));
      CountAllSplit(st.counters, if i.Notify? then [i.call] else [], CallsOf(inputs[1..]));
    }
  }

  /** One input inside a suite. */
  lemma HandleInSuite(st: Plain, i: Input, env: Env)
    requires st.inner.Some?
    requires i.Logged? || !(i.call.StartTestSuite? || i.call.EndTestSuite?)
    ensures Handle(st, i, env) == Ok(Step(Plain(CountAll(st.counters, if i.Notify? then [i.call] else []), st.out,
                                                Some(st.inner.value + Detail(i, env.nl)),
                                                st.log + (if i.Logged? then i.message + env.nl else "")), []))
  {
    if i.Logged? {
      assert st.inner.value + Detail(i, env.nl) == st.inner.value;
      assert st.log + i.message + env.nl == st.log + (i.message + env.nl);
    } else {
      assert [i.call][1..] == [];
      assert st.log + "" == st.log;
    }
  }

  /** The report of one build file: the header first; at the end the summary with the
      counts of this suite's calls, then the log block iff a message was logged since the
      previous suite ended, then the per-target text; afterwards the log is empty. */
  lemma SuiteReport(st: Plain, p: TestProject, buildFile: string, e0: string, middle: seq<Input>, e1: string, env: Env)
    requires InSuite(middle)
    requires GetOut(env.config, env.relative(buildFile), env.sep, env.openFailure).Ok?
    ensures var out := GetOut(env.config, env.relative(buildFile), env.sep, env.openFailure).value;
            var r := HandleAll(st, [Notify(StartTestSuite(p, buildFile), e0)] + middle + [Notify(EndTestSuite(p, buildFile), e1)], env);
            r.Ok? && r.value.st.log == "" &&
            r.value.writes == [Write(out, Header(buildFile, env.nl)),
                               Write(out, Summary(Tally(CallsOf(middle)), e1, env.nl)
                                          + LogBlock(st.log + Logs(middle, env.nl), env.nl)
                                          + Details(middle, env.nl))]
  {
    OpenedSuite(st, p, buildFile, e0, middle, env);
    ClosedSuite(st, [Notify(StartTestSuite(p, buildFile), e0)] + middle, p, buildFile, e1, env);
  }

  /** Ending a suite after inputs that wrote only the header appends the suite's report. */
  lemma ClosedSuite(st: Plain, a: seq<Input>, p: TestProject, buildFile: string, e1: string, env: Env)
    requires HandleAll(st, a, env).Ok? && |HandleAll(st, a, env).value.writes| == 1
    requires HandleAll(st, a, env).value.st.out.Some? && HandleAll(st, a, env).value.st.inner.Some?
    ensures var ra := HandleAll(st, a, env).value;
            var s1 := ra.st;
            HandleAll(st, a + [Notify(EndTestSuite(p, buildFile), e1)], env)
            == Ok(Step(s1.(log := ""), [ra.writes[0], Write(s1.out.value, Summary(s1.counters, e1, env.nl) + LogBlock(s1.log, env.nl) + s1.inner.value)]))
  {
    var ra := HandleAll(st, a, env).value;
    var end := [Notify(EndTestSuite(p, buildFile), e1)];
    ClosingStep(ra.st, p, buildFile, e1, env);
    var rb := HandleAll(ra.st, end, env).value;
    HandleAllAppend(st, a, end, env);
    assert ra.writes + rb.writes == [ra.writes[0], rb.writes[0]];
  }

  /** The start of a suite and the tests inside it leave the header written and the details gathered. */
  lemma OpenedSuite(st: Plain, p: TestProject, buildFile: string, e0: string, middle: seq<Input>, env: Env)
    requires InSuite(middle)
    requires GetOut(env.config, env.relative(buildFile), env.sep, env.openFailure).Ok?
    ensures var out := GetOut(env.config, env.relative(buildFile), env.sep, env.openFailure).value;
            HandleAll(st, [Notify(StartTestSuite(p, buildFile), e0)] + middle, env)
            == Ok(Step(Plain(Tally(CallsOf(middle)), Some(out), Some(Details(middle, env.nl)), st.log + Logs(middle, env.nl)),
                       [Write(out, Header(buildFile, env.nl))]))
  {
    var out := GetOut(env.config, env.relative(buildFile), env.sep, env.openFailure).value;
    var start := [Notify(StartTestSuite(p, buildFile), e0)];
    var s0 := Plain(Zero, Some(out), Some(""), st.log);
    OpeningStep(st, p, buildFile, e0, env);
    InsideSuite(s0, middle, env);
    HandleAllAppend(st, start, middle, env);
    SuiteCounters(middle);
    assert "" + Details(middle, env.nl) == Details(middle, env.nl);
    assert [Write(out, Header(buildFile, env.nl))] + [] == [Write(out, Header(buildFile, env.nl))];
  }

  lemma SuiteCounters(middle: seq<Input>)
    requires InSuite(middle)
    ensures CountAll(Zero, CallsOf(middle)) == Tally(CallsOf(middle))
  {
    CallsOfInSuite(middle);
    CountersTallyCalls(Zero, CallsOf(middle));
    var t := Tally(CallsOf(middle));
    assert Plus(Zero, t) == t;
  }

  lemma OpeningStep(st: Plain, p: TestProject, buildFile: string, e0: string, env: Env)
    requires GetOut(env.config, env.relative(buildFile), env.sep, env.openFailure).Ok?
    ensures var out := GetOut(env.config, env.relative(buildFile), env.sep, env.openFailure).value;
            HandleAll(st, [Notify(StartTestSuite(p, buildFile), e0)], env)
            == Ok(Step(Plain(Zero, Some(out), Some(""), st.log), [Write(out, Header(buildFile, env.nl))]))
  {
    HandleAllSingle(st, Notify(StartTestSuite(p, buildFile), e0), env);
  }

  lemma ClosingStep(st: Plain, p: TestProject, buildFile: string, e1: string, env: Env)
    requires st.out.Some? && st.inner.Some?
    ensures HandleAll(st, [Notify(EndTestSuite(p, buildFile), e1)], env)
            == Ok(Step(st.(log := ""), [Write(st.out.value, Summary(st.counters, e1, env.nl) + LogBlock(st.log, env.nl) + st.inner.value)]))
  {
    HandleAllSingle(st, Notify(EndTestSuite(p, buildFile), e1), env);
  }

  lemma {:induction false} CallsOfInSuite(inputs: seq<Input>)
    requires InSuite(inputs)
    ensures NoSuiteStart(CallsOf(inputs))
    decreases |inputs|
  {
    if |inputs| > 0 {
      assert InSuite(inputs[1..]) by {
        forall k | 0 <= k < |inputs[1..]| ensures inputs[1..][k] == inputs[k + 1] { }
      }
      CallsOfInSuite(inputs[1..]);
    }
  }
}

=== FILE: ResourceExists.dfy ===
/** The `<resourceexists>` condition (`ResourceExists`): exactly one resource, given as an
    attribute or as a nested element, whose existence is the condition's value. */
module ResourceExists {
  import opened Wrappers
  import opened Exceptions

  const OnlyOne := "Only one resource can be tested."
  const MustSpecify := "You must specify a resource."

  /** A resource, known to the condition only through `isExists()`, here `present`. */
  datatype Resource = Resource(present: bool)

  /** The condition: its resource, `null` until set. */
  datatype Condition = Condition(resource: Option<Resource>)

  const Unset := Condition(None)

  /** `setResource`: a second resource is refused. */
  function SetResource(c: Condition, r: Resource): (res: Result<Condition, Throwable>)
    ensures c.resource.None? <==> res.Ok?
    ensures res.Ok? ==> res.value.resource == Some(r)
    ensures res.Err? ==> res.error == BuildException(OnlyOne, Some(UnknownLocation))
  {
    if c.resource.Some? then Err(BuildException(OnlyOne, Some(UnknownLocation)))
    else Ok(Condition(Some(r)))
  }

  /** `add`: a nested element counts exactly like the attribute. */
  function Add(c: Condition, r: Resource): (res: Result<Condition, Throwable>)
    ensures res == SetResource(c, r)
  {
    SetResource(c, r)
  }

  /** `eval`. */
  function Eval(c: Condition): (res: Result<bool, Throwable>)
    ensures c.resource.None? <==> res.Err?
    ensures res.Err? ==> res.error == BuildException(MustSpecify, Some(UnknownLocation))
    ensures res.Ok? ==> res.value == c.resource.value.present
  {
    match c.resource
    case None => Err(BuildException(MustSpecify, Some(UnknownLocation)))
    case Some(r) => Ok(r.present)
  }

  /** Configuring the condition with resources in turn, attribute or nested alike. */
  function Configure(c: Condition, rs: seq<Resource>): Result<Condition, Throwable>
    decreases |rs|
  {
    if |rs| == 0 then Ok(c)
    else
      match SetResource(c, rs[0])
      case Err(e) => Err(e)
      case Ok(c1) => Configure(c1, rs[1..])
  }

  /** Configuration and evaluation together: the condition is usable exactly when one
      resource was given, and then it is that resource's existence. */
  lemma {:induction false} ExactlyOneResource(rs: seq<Resource>)
    ensures |rs| > 1 <==> Configure(Unset, rs).Err?
    ensures |rs| > 1 ==> Configure(Unset, rs) == Err(BuildException(OnlyOne, Some(UnknownLocation)))
    ensures |rs| == 0 ==> Configure(Unset, rs).Ok? && Eval(Configure(Unset, rs).value) == Err(BuildException(MustSpecify, Some(UnknownLocation)))
    ensures |rs| == 1 ==> Configure(Unset, rs).Ok? && Eval(Configure(Unset, rs).value) == Ok(rs[0].present)
  {
    if |rs| > 1 {
      var c1 := Condition(Some(rs[0]));
      assert SetResource(Unset, rs[0]) == Ok(c1);
      assert Configure(c1, rs[1..]) == Err(BuildException(OnlyOne, Some(UnknownLocation)));
    } else if |rs| == 1 {
      assert Configure(Condition(Some(rs[0])), rs[1..]) == Ok(Condition(Some(rs[0])));
    }
  }
}

=== FILE: ScriptRunner.dfy ===
/** `AntUnitScriptRunner`: discovers the test targets of a script, keeps one current
    project with a dirty flag for test isolation, runs suiteSetUp, each target as the
    batch [setUp?, target] followed by tearDown, then suiteTearDown, and reports
    progress to a notifier. Every call is a pure function returning the events it
    causes, the runner state afterwards and the throwable that escapes, if any. */
module ScriptRunner {
  import opened Wrappers
  import opened Strings
  import opened Exceptions

  const SetUp := "setUp"
  const Test := "test"
  const TearDown := "tearDown"
  const SuiteSetUp := "suiteSetUp"
  const SuiteTearDown := "suiteTearDown"

  /** A project is known by the ordinal of the factory call that created it. */
  type ProjectId = nat

  /** What every project parsed from the script offers: its name, its target names
      in the iteration order of the project's target table, and the throwable each
      failing target raises (a target absent from `throws` completes normally). The
      names are the keys of a table, so a script read from a project has them
      `Distinct`; the datatype itself does not insist on it. */
  datatype Script = Script(name: string, targets: seq<string>, throws: map<string, Throwable>)

  /** A `ProjectFactory`: call number `k` (counting from 0) fails with `failures[k]`
      when present and otherwise yields the new project `k`. */
  datatype ProjectFactory = ProjectFactory(script: Script, failures: map<nat, Throwable>)

  /** What the runner does that can be observed: calls on a project and calls on the notifier. */
  datatype Event =
    | BuildStarted(project: ProjectId)                           // fireBuildStarted on a project
    | CapturerRegistered(project: ProjectId)                     // new LogCapturer(project)
    | Executed(project: ProjectId, targets: seq<string>)         // first run on a clean project
    | TearDownExecuted(project: ProjectId)                       // tearDown on the test's project
    | BuildFinished(project: ProjectId, caught: Option<Throwable>)
    | StartTest(name: string)                                    // notifier.fireStartTest
    | EndTest(name: string)                                      // notifier.fireEndTest
    | Fail(name: string, marker: Throwable)                      // notifier.fireFail
    | Error(name: string, error: Throwable)                      // notifier.fireError
  {
    /** An event the notifier receives. */
    predicate IsNotification() {
      StartTest? || EndTest? || Fail? || Error?
    }

    /** A fail or error report for `n`. */
    predicate IsOutcomeFor(n: string) {
      (Fail? || Error?) && name == n
    }

    /** An event that runs targets on a project. */
    predicate IsExecution() {
      Executed? || TearDownExecuted?
    }
  }

  /** The mutable part of the runner: the current project (`null` before the first
      factory call succeeds), its dirty flag, `isSuiteStarted`, and how many times the
      factory has been called. */
  datatype State = State(project: Option<ProjectId>, dirty: bool, suiteStarted: bool, created: nat)

  /** The part fixed by the constructor's scan. */
  datatype Config = Config(
    factory: ProjectFactory,
    hasSetUp: bool,
    hasTearDown: bool,
    hasSuiteSetUp: bool,
    hasSuiteTearDown: bool,
    testTargets: seq<string>)

  /** The outcome of one runner call. */
  datatype Step = Step(trace: seq<Event>, st: State, thrown: Option<Throwable>)

  /** The error `runTarget` raises when the suite was not started (`java.lang.AssertionError`). */
  const NotStarted := Throwable(Other, "", None, None)

  /** Projects handed out so far all have ids below the factory-call count. */
  ghost predicate Valid(st: State) {
    st.project.Some? ==> st.project.value < st.created
  }

  /** One call of `prjFactory.createProject()`. */
  function CreateProject(f: ProjectFactory, created: nat): (r: Result<ProjectId, Throwable>)
    ensures r.Ok? <==> created !in f.failures
    ensures r.Ok? ==> r.value == created
    ensures r.Err? ==> r.error == f.failures[created]
  {
    if created in f.failures then Err(f.failures[created]) else Ok(created)
  }

  /** A target is a test target when its name starts with "test" and is not "test". */
  predicate IsTestTarget(name: string) {
    StartsWith(name, Test) && name != Test
  }

  /** `r` is `s` with some elements dropped, the rest kept in order. */
  predicate IsSubsequence<T(==)>(r: seq<T>, s: seq<T>)
    decreases |s|
  {
    if |r| == 0 then true
    else if |s| == 0 then false
    else (r[0] == s[0] && IsSubsequence(r[1..], s[1..])) || IsSubsequence(r, s[1..])
  }

  /** No element occurs twice. */
  predicate Distinct<T(==)>(s: seq<T>) {
    forall i, j :: 0 <= i < j < |s| ==> s[i] != s[j]
  }

  /** The constructor's scan loop over the target names, which keeps their order. */
  function ScanTestTargets(targets: seq<string>): (r: seq<string>)
    ensures forall x :: x in r <==> x in targets && IsTestTarget(x)
    ensures |r| <= |targets|
    ensures IsSubsequence(r, targets)
    decreases |targets|
  {
    if |targets| == 0 then []
    else
      var rest := ScanTestTargets(targets[1..]);
      if IsTestTarget(targets[0]) then
        var r := [targets[0]] + rest;
        assert r[1..] == rest;
        r
      else rest
  }

  /** Distinct target names give distinct test targets, so no test runs twice. */
  lemma {:induction false} ScanKeepsDistinct(targets: seq<string>)
    requires Distinct(targets)
    ensures Distinct(ScanTestTargets(targets))
    decreases |targets|
  {
    if |targets| > 0 {
      var tail := targets[1..];
      forall i, j | 0 <= i < j < |tail| ensures tail[i] != tail[j] {
        assert tail[i] == targets[i + 1] && tail[j] == targets[j + 1];
      }
      ScanKeepsDistinct(tail);
      var rest := ScanTestTargets(tail);
      if IsTestTarget(targets[0]) {
        forall k | 0 <= k < |tail| ensures tail[k] != targets[0] {
          assert tail[k] == targets[k + 1];
        }
        var r := [targets[0]] + rest;
        forall i, j | 0 <= i < j < |r| ensures r[i] != r[j] {
          assert r[j] == rest[j - 1] && r[j] in tail;
          if i > 0 {
            assert r[i] == rest[i - 1];
          }
        }
      }
    }
  }

  /** `getCurrentProject`: creates a project only when there is none, and then marks it clean. */
  function GetCurrentProject(f: ProjectFactory, st: State): (r: (Result<ProjectId, Throwable>, State))
    requires Valid(st)
    ensures Valid(r.1)
    ensures st.project.Some? ==> r == (Ok(st.project.value), st)
    ensures st.project.None? && r.0.Ok? ==> r.0.value == st.created && r.1 == st.(project := Some(st.created), dirty := false, created := st.created + 1)
    ensures st.project.None? && r.0.Err? ==> r.1 == st.(created := st.created + 1)
  {
    if st.project.None? then
      match CreateProject(f, st.created)
      case Ok(p) => (Ok(p), st.(project := Some(p), dirty := false, created := st.created + 1))
      case Err(e) => (Err(e), st.(created := st.created + 1))
    else
      (Ok(st.project.value), st)
  }

  /** `getCleanProject`: a new project exactly when the current one is null or dirty;
      the project handed out is dirty from then on. A failing factory call leaves the
      current project and its flag as they were. */
  function GetCleanProject(f: ProjectFactory, st: State): (r: (Result<ProjectId, Throwable>, State))
    requires Valid(st)
    ensures Valid(r.1)
    ensures r.0.Ok? ==> r.1.project == Some(r.0.value) && r.1.dirty
    ensures st.project.Some? && !st.dirty ==> r == (Ok(st.project.value), st.(dirty := true))
    ensures st.project.None? || st.dirty ==>
      && r.1.created == st.created + 1
      && (r.0.Ok? ==> r.0.value == st.created)
      && (r.0.Err? ==> r.1 == st.(created := st.created + 1))
    ensures r.1.suiteStarted == st.suiteStarted
  {
    if st.project.None? || st.dirty then
      match CreateProject(f, st.created)
      case Ok(p) => (Ok(p), st.(project := Some(p), dirty := true, created := st.created + 1))
      case Err(e) => (Err(e), st.(created := st.created + 1))
    else
      (Ok(st.project.value), st.(dirty := true))
  }

  /** `executeTargets(names)`: targets run in order and the first throwable stops the batch. */
  function RunTargets(s: Script, names: seq<string>): (r: Option<Throwable>)
    ensures r.None? <==> forall i :: 0 <= i < |names| ==> names[i] !in s.throws
    ensures r.Some? ==> exists i :: 0 <= i < |names| && names[i] in s.throws && r.value == s.throws[names[i]]
                          && forall j :: 0 <= j < i ==> names[j] !in s.throws
  {
    if |names| == 0 then None
    else if names[0] in s.throws then Some(s.throws[names[0]])
    else
      var r := RunTargets(s, names[1..]);
      assert forall j :: 1 <= j < |names| ==> names[j] == names[1..][j - 1];
      r
  }

  /** `fireFailOrError`: one report, a failure carrying the first marker met while
      walking `e, e.cause, ...` through `BuildException`s, or else an error carrying `e`. */
  function FireFailOrError(name: string, e: Throwable): (r: seq<Event>)
    ensures |r| == 1 && r[0].IsOutcomeFor(name)
    ensures r[0].Fail? <==> HasMarker(BuildChain(Some(e)))
    ensures r[0].Fail? ==> exists i :: IsFirstMarker(BuildChain(Some(e)), i) && r[0].marker == BuildChain(Some(e))[i]
    ensures r[0].Error? ==> r[0].error == e
  {
    match FindMarker(Some(e))
    case Some(m) => [Fail(name, m)]
    case None => [Error(name, e)]
  }

  /** The constructor: fetch the current project through the factory and scan its targets. */
  function Construct(f: ProjectFactory): (r: Result<(Config, State), Throwable>)
    ensures r.Err? <==> 0 in f.failures
    ensures r.Ok? ==> r.value.1 == State(Some(0), false, false, 1)
    ensures r.Ok? ==> var c := r.value.0;
      && c.factory == f
      && (c.hasSetUp <==> SetUp in f.script.targets)
      && (c.hasTearDown <==> TearDown in f.script.targets)
      && (c.hasSuiteSetUp <==> SuiteSetUp in f.script.targets)
      && (c.hasSuiteTearDown <==> SuiteTearDown in f.script.targets)
      && (forall x :: x in c.testTargets <==> x in f.script.targets && IsTestTarget(x))
  {
    var (cur, st) := GetCurrentProject(f, State(None, false, false, 0));
    match cur
    case Err(e) => Err(e)
    case Ok(_) =>
      var ts := f.script.targets;
      Ok((Config(f, SetUp in ts, TearDown in ts, SuiteSetUp in ts, SuiteTearDown in ts, ScanTestTargets(ts)), st))
  }

  /** `getName`: the name of the current project, which all projects of the script share. */
  function GetName(c: Config, st: State): (r: (Result<string, Throwable>, State))
    requires Valid(st)
    ensures st.project.Some? ==> r == (Ok(c.factory.script.name), st)
  {
    var (cur, st1) := GetCurrentProject(c.factory, st);
    match cur
    case Ok(_) => (Ok(c.factory.script.name), st1)
    case Err(e) => (Err(e), st1)
  }

  /** Handling of a throwable thrown inside `try { ... } catch (BuildException e)` around a
      hook: a `BuildException` becomes startTest(hook) plus its report, anything else escapes. */
  function CatchHook(hook: string, e: Throwable, trace: seq<Event>, st: State): (r: Step)
    ensures e.IsBuildException() ==> r == Step(trace + [StartTest(hook)] + FireFailOrError(hook, e), st, None)
    ensures !e.IsBuildException() ==> r == Step(trace, st, Some(e))
  {
    if e.IsBuildException() then Step(trace + [StartTest(hook)] + FireFailOrError(hook, e), st, None)
    else Step(trace, st, Some(e))
  }

  /** Runs a suite hook on a clean project; the flag tells whether it completed normally. */
  function RunHook(c: Config, hook: string, trace: seq<Event>, st: State): (r: (Step, bool))
    requires Valid(st)
    ensures Valid(r.0.st)
    ensures r.0.st.suiteStarted == st.suiteStarted
    ensures r.1 ==> r.0.thrown.None?
    ensures r.1 ==> exists p :: r.0.trace == trace + [Executed(p, [hook])]
  {
    var (cl, st1) := GetCleanProject(c.factory, st);
    match cl
    case Err(e) => (CatchHook(hook, e, trace, st1), false)
    case Ok(p) =>
      var t := trace + [Executed(p, [hook])];
      match RunTargets(c.factory.script, [hook])
      case None => (Step(t, st1, None), true)
      case Some(e) => (CatchHook(hook, e, t, st1), false)
  }

  /** `startSuite`: the boolean is the method's return value (false also when a throwable
      escapes). `isSuiteStarted` is set only when suiteSetUp is absent or completed. */
  function StartSuite(c: Config, st: State): (r: (Step, bool))
    requires Valid(st)
    ensures Valid(r.0.st)
    ensures r.1 ==> r.0.st.suiteStarted && r.0.thrown.None?
    ensures !r.1 ==> r.0.st.suiteStarted == st.suiteStarted
  {
    var (cur, st1) := GetCurrentProject(c.factory, st);
    match cur
    case Err(e) => (Step([], st1, Some(e)), false)
    case Ok(p) =>
      var t := [BuildStarted(p)];
      if c.hasSuiteSetUp then
        var (s, ok) := RunHook(c, SuiteSetUp, t, st1);
        if ok then (s.(st := s.st.(suiteStarted := true)), true) else (s, false)
      else
        (Step(t, st1.(suiteStarted := true), None), true)
  }

  /** The batch `runTarget` executes: [setUp, name] when the script has setUp, else [name]. */
  function Batch(c: Config, name: string): (r: seq<string>)
    ensures |r| >= 1 && r[|r| - 1] == name
    ensures c.hasSetUp <==> |r| == 2
    ensures |r| == 2 ==> r[0] == SetUp
  {
    (if c.hasSetUp then [SetUp] else []) + [name]
  }

  /** The `catch (BuildException e)` of a test: a `BuildException` becomes a report for the
      test, any other throwable is held while the `finally` block runs. */
  function CatchTest(name: string, outcome: Option<Throwable>): (r: (seq<Event>, Option<Throwable>))
    ensures |r.0| <= 1 && forall i :: 0 <= i < |r.0| ==> r.0[i].IsOutcomeFor(name)
    ensures r.1.Some? <==> outcome.Some? && !outcome.value.IsBuildException()
    ensures r.1.Some? ==> r.1 == outcome && r.0 == []
    ensures outcome.Some? && outcome.value.IsBuildException() ==> r.0 == FireFailOrError(name, outcome.value)
    ensures outcome.None? ==> r.0 == []
  {
    match outcome
    case None => ([], None)
    case Some(e) => if e.IsBuildException() then (FireFailOrError(name, e), None) else ([], Some(e))
  }

  /** `runTarget`: fails fast unless the suite was started; otherwise takes a clean project
      (outside the try, so a factory failure escapes), registers a log capturer, reports
      startTest, runs the batch, reports endTest, and then runs tearDown on the same project.
      A `BuildException` in the batch or in tearDown is reported against `name`; any other
      throwable escapes after the finally block, the one from tearDown replacing the other. */
  function RunTarget(c: Config, st: State, name: string): (r: Step)
    requires Valid(st)
    ensures Valid(r.st)
    ensures !st.suiteStarted ==> r == Step([], st, Some(NotStarted))
    ensures r.st.suiteStarted == st.suiteStarted
  {
    if !st.suiteStarted then Step([], st, Some(NotStarted))
    else
      var (cl, st1) := GetCleanProject(c.factory, st);
      match cl
      case Err(e) => Step([], st1, Some(e))
      case Ok(p) => Step(TargetTrace(c, p, name), st1, TargetThrown(c, name))
  }

  /** The events of a test target run on the clean project `p`. */
  function TargetTrace(c: Config, p: ProjectId, name: string): (r: seq<Event>)
    ensures |r| >= 4 && r[..3] == [CapturerRegistered(p), StartTest(name), Executed(p, Batch(c, name))]
    ensures TearDownExecuted(p) in r <==> c.hasTearDown
  {
    var batch := Batch(c, name);
    var o1 := CatchTest(name, RunTargets(c.factory.script, batch)).0;
    var o2 := CatchTest(name, RunTargets(c.factory.script, [TearDown])).0;
    var tail := if c.hasTearDown then [TearDownExecuted(p)] + o2 else [];
    var r := [CapturerRegistered(p), StartTest(name), Executed(p, batch)] + o1 + [EndTest(name)] + tail;
    assert c.hasTearDown ==> r[|r| - |tail|] == TearDownExecuted(p);
    assert !c.hasTearDown ==> TearDownExecuted(p) !in r by {
      if !c.hasTearDown {
        forall i | 0 <= i < |r| ensures r[i] != TearDownExecuted(p) {
          if 3 <= i < 3 + |o1| {
            assert r[i] == o1[i - 3];
          }
        }
      }
    }
    r
  }

  /** The throwable escaping a test target: the one from tearDown when tearDown threw
      something other than a `BuildException`, else the one from the batch. */
  function TargetThrown(c: Config, name: string): (r: Option<Throwable>)
    ensures var b := RunTargets(c.factory.script, Batch(c, name));
      var t := RunTargets(c.factory.script, [TearDown]);
      (r.Some? <==>
         (b.Some? && !b.value.IsBuildException()) || (c.hasTearDown && t.Some? && !t.value.IsBuildException()))
    ensures var t := RunTargets(c.factory.script, [TearDown]);
      c.hasTearDown && t.Some? && !t.value.IsBuildException() ==> r == t
    ensures var b := RunTargets(c.factory.script, Batch(c, name));
      var t := RunTargets(c.factory.script, [TearDown]);
      (!(c.hasTearDown && t.Some? && !t.value.IsBuildException()) && b.Some? && !b.value.IsBuildException()
       ==> r == b)
  {
    var pending := CatchTest(name, RunTargets(c.factory.script, Batch(c, name))).1;
    if c.hasTearDown && CatchTest(name, RunTargets(c.factory.script, [TearDown])).1.Some? then
      CatchTest(name, RunTargets(c.factory.script, [TearDown])).1
    else
      pending
  }

  /** The loop of `runSuite` over the given targets, left at the first escaping throwable. */
  function RunAll(c: Config, st: State, names: seq<string>): (r: Step)
    requires Valid(st)
    ensures Valid(r.st)
    ensures r.st.suiteStarted == st.suiteStarted
    decreases |names|
  {
    if |names| == 0 then Step([], st, None)
    else
      var s := RunTarget(c, st, names[0]);
      if s.thrown.Some? then s
      else
        var rest := RunAll(c, s.st, names[1..]);
        Step(s.trace + rest.trace, rest.st, rest.thrown)
  }

  /** `endSuite(caught)`: runs suiteTearDown when present, then reports the end of the build
      on the current project, passing `caught` along, and clears `isSuiteStarted`. */
  function EndSuite(c: Config, st: State, caught: Option<Throwable>): (r: Step)
    requires Valid(st)
    ensures Valid(r.st)
    ensures r.thrown.None? ==> !r.st.suiteStarted && r.st.project.Some?
    ensures r.thrown.None? ==> |r.trace| > 0 && r.trace[|r.trace| - 1] == BuildFinished(r.st.project.value, caught)
  {
    var s := if c.hasSuiteTearDown then RunHook(c, SuiteTearDown, [], st).0 else Step([], st, None);
    if s.thrown.Some? then s else FinishBuild(c.factory, s.trace, s.st, caught)
  }

  /** The end of `endSuite`: buildFinished on the current project, which the factory may
      first have to create, then the suite is no longer started. */
  function FinishBuild(f: ProjectFactory, trace: seq<Event>, st: State, caught: Option<Throwable>): (r: Step)
    requires Valid(st)
    ensures Valid(r.st)
    ensures r.thrown.None? <==> st.project.Some? || (st.created !in f.failures)
    ensures r.thrown.None? ==> !r.st.suiteStarted && r.st.project.Some?
                               && r.trace == trace + [BuildFinished(r.st.project.value, caught)]
    ensures r.thrown.Some? ==> r.trace == trace && r.thrown.value in f.failures.Values
  {
    var (cur, st1) := GetCurrentProject(f, st);
    match cur
    case Err(e) => Step(trace, st1, Some(e))
    case Ok(p) => Step(trace + [BuildFinished(p, caught)], st1.(suiteStarted := false), None)
  }

  /** `runSuite`: startSuite; the targets in the given order when it returned true; and
      endSuite on every path, with the throwable that escaped the first two steps. */
  function RunSuite(c: Config, st: State, names: seq<string>): (r: Step)
    requires Valid(st)
    ensures Valid(r.st)
    ensures r.thrown.None? ==> !r.st.suiteStarted
  {
    var (s, ok) := StartSuite(c, st);
    var l := if ok then RunAll(c, s.st, names) else Step([], s.st, s.thrown);
    var e := EndSuite(c, l.st, l.thrown);
    Step(s.trace + l.trace + e.trace, e.st, e.thrown)
  }
}

=== FILE: ScriptRunnerProperties.dfy ===
/** Properties of the `AntUnitScriptRunner` model: the scan, the clean-project rule,
    the shape of the notifications per target and per suite, and test isolation. */
module ScriptRunnerProperties {
  import opened Wrappers
  import opened Strings
  import opened Exceptions
  import opened ScriptRunner

  // ---------------------------------------------------------------- scan

  /** The four hook names are never test targets. */
  lemma HooksAreNeverTestTargets(c: Config, st: State, f: ProjectFactory)
    requires Construct(f) == Ok((c, st))
    ensures SetUp !in c.testTargets && TearDown !in c.testTargets
    ensures SuiteSetUp !in c.testTargets && SuiteTearDown !in c.testTargets
    ensures Test !in c.testTargets
  {
    CharDiffers(SetUp, Test, 0);
    CharDiffers(TearDown, Test, 2);
    CharDiffers(SuiteSetUp, Test, 0);
    CharDiffers(SuiteTearDown, Test, 0);
  }

  lemma CharDiffers(s: string, prefix: string, k: nat)
    requires k < |s| && k < |prefix| && s[k] != prefix[k]
    ensures !StartsWith(s, prefix)
  {
    if |prefix| <= |s| {
      assert s[..|prefix|][k] == s[k];
    }
  }

  /** The project made by the constructor is the one the first clean request receives. */
  lemma FirstCleanRequestReusesScannedProject(f: ProjectFactory, c: Config, st: State)
    requires Construct(f) == Ok((c, st))
    ensures GetCleanProject(f, st) == (Ok(0), st.(dirty := true))
  {
  }

  // ---------------------------------------------------------------- clean requests

  /** `s` is strictly increasing, hence free of repetitions. */
  ghost predicate Increasing(s: seq<ProjectId>) {
    forall i, j :: 0 <= i < j < |s| ==> s[i] < s[j]
  }

  /** The projects in `used` were handed out by earlier clean requests: all came from
      the factory already, and a current project that is still clean is newer than all. */
  ghost predicate Fresh(st: State, used: seq<ProjectId>) {
    && Valid(st)
    && Increasing(used)
    && (forall i :: 0 <= i < |used| ==> used[i] < st.created)
    && (st.project.Some? && !st.dirty ==> forall i :: 0 <= i < |used| ==> used[i] < st.project.value)
  }

  lemma CleanProjectFresh(f: ProjectFactory, st: State, used: seq<ProjectId>)
    requires Fresh(st, used)
    ensures var (r, st') := GetCleanProject(f, st);
      && (r.Ok? ==> Fresh(st', used + [r.value]))
      && (r.Err? ==> Fresh(st', used))
  {
  }

  lemma CurrentProjectFresh(f: ProjectFactory, st: State, used: seq<ProjectId>)
    requires Fresh(st, used)
    ensures Fresh(GetCurrentProject(f, st).1, used)
  {
  }

  /** A sequence of requests for the current project (false) or a clean one (true). */
  function ServeRequests(f: ProjectFactory, st: State, clean: seq<bool>): (r: (seq<ProjectId>, State))
    requires Valid(st)
    ensures Valid(r.1)
    decreases |clean|
  {
    if |clean| == 0 then ([], st)
    else if clean[0] then
      var (p, st1) := GetCleanProject(f, st);
      var (rest, st2) := ServeRequests(f, st1, clean[1..]);
      ((if p.Ok? then [p.value] else []) + rest, st2)
    else
      ServeRequests(f, GetCurrentProject(f, st).1, clean[1..])
  }

  /** No two clean requests receive the same project, whatever requests come between them. */
  lemma {:induction false} CleanRequestsNeverShareAProject(f: ProjectFactory, st: State, clean: seq<bool>)
    requires Valid(st)
    ensures Increasing(ServeRequests(f, st, clean).0)
  {
    ServeFresh(f, st, clean, []);
    var got := ServeRequests(f, st, clean).0;
    assert [] + got == got;
  }

  lemma {:induction false} ServeFresh(f: ProjectFactory, st: State, clean: seq<bool>, used: seq<ProjectId>)
    requires Fresh(st, used)
    ensures var (got, st') := ServeRequests(f, st, clean); Fresh(st', used + got)
    decreases |clean|
  {
    if |clean| > 0 {
      if clean[0] {
        var (p, st1) := GetCleanProject(f, st);
        CleanProjectFresh(f, st, used);
        var used1 := if p.Ok? then used + [p.value] else used;
        ServeFresh(f, st1, clean[1..], used1);
        var (rest, st2) := ServeRequests(f, st1, clean[1..]);
        assert used1 + rest == used + ((if p.Ok? then [p.value] else []) + rest);
      } else {
        CurrentProjectFresh(f, st, used);
        ServeFresh(f, GetCurrentProject(f, st).1, clean[1..], used);
      }
    }
  }

  // ---------------------------------------------------------------- notifications

  /** The notifier's view of a trace. */
  function Notes(trace: seq<Event>): (r: seq<Event>)
    ensures forall i :: 0 <= i < |r| ==> r[i].IsNotification()
  {
    if |trace| == 0 then []
    else (if trace[0].IsNotification() then [trace[0]] else []) + Notes(trace[1..])
  }

  lemma {:induction false} NotesAppend(a: seq<Event>, b: seq<Event>)
    ensures Notes(a + b) == Notes(a) + Notes(b)
    decreases |a|
  {
    if |a| > 0 {
      assert (a + b)[1..] == a[1..] + b;
      NotesAppend(a[1..], b);
    } else {
      assert a + b == b;
    }
  }

  /** At most one fail/error report, for `name`. */
  predicate Reports(s: seq<Event>, name: string) {
    |s| <= 1 && forall i :: 0 <= i < |s| ==> s[i].IsOutcomeFor(name)
  }

  /** The notifications a hook produces: none when it completes, otherwise
      startTest(hook) and one report. */
  predicate HookNotes(s: seq<Event>, hook: string) {
    s == [] || (|s| == 2 && s[0] == StartTest(hook) && s[1].IsOutcomeFor(hook))
  }

  /** The length of the notifications of one test target at the start of `notes`:
      startTest(name), at most one report, endTest(name), at most one report. */
  function TargetBlockLength(notes: seq<Event>, name: string): Option<nat> {
    if |notes| == 0 || notes[0] != StartTest(name) then None
    else
      var k := if |notes| > 1 && notes[1].IsOutcomeFor(name) then 2 else 1;
      if |notes| <= k || notes[k] != EndTest(name) then None
      else if |notes| > k + 1 && notes[k + 1].IsOutcomeFor(name) then Some(k + 2)
      else Some(k + 1)
  }

  /** `notes` consists of one target block per name, in the order of `names`. */
  predicate Blocks(notes: seq<Event>, names: seq<string>)
    decreases |names|
  {
    if |names| == 0 then notes == []
    else match TargetBlockLength(notes, names[0])
      case None => false
      case Some(k) => k <= |notes| && Blocks(notes[k..], names[1..])
  }

  /** A block followed by nothing or by the start of another test is recognised exactly. */
  lemma BlockParses(name: string, o1: seq<Event>, o2: seq<Event>, rest: seq<Event>)
    requires Reports(o1, name) && Reports(o2, name)
    requires rest == [] || rest[0].StartTest?
    ensures var notes := [StartTest(name)] + o1 + [EndTest(name)] + o2 + rest;
      TargetBlockLength(notes, name) == Some(2 + |o1| + |o2|)
  {
  }

  /** The notifications of one started target: startTest, the report of the batch,
      endTest, then the report of tearDown; all of them name the target. */
  /** The events the batch of test target `name` reports against it. */
  ghost function BatchReports(c: Config, name: string): seq<Event> {
    CatchTest(name, RunTargets(c.factory.script, Batch(c, name))).0
  }

  /** The events tearDown reports against test target `name`; none without a tearDown target. */
  ghost function TearDownReports(c: Config, name: string): seq<Event> {
    if c.hasTearDown then CatchTest(name, RunTargets(c.factory.script, [TearDown])).0 else []
  }

  lemma RunTargetNotes(c: Config, st: State, name: string)
    requires Valid(st) && st.suiteStarted
    ensures var r := RunTarget(c, st, name);
      r.trace == [] <==> GetCleanProject(c.factory, st).0.Err?
    ensures var r := RunTarget(c, st, name);
      r.trace != [] ==> Notes(r.trace) == [StartTest(name)] + BatchReports(c, name) + [EndTest(name)] + TearDownReports(c, name)
    ensures Reports(BatchReports(c, name), name) && Reports(TearDownReports(c, name), name)
  {
    var (cl, st1) := GetCleanProject(c.factory, st);
    if cl.Ok? {
      TargetTraceNotes(c, cl.value, name);
    }
  }

  lemma TargetTraceNotes(c: Config, p: ProjectId, name: string)
    ensures Notes(TargetTrace(c, p, name)) == [StartTest(name)] + BatchReports(c, name) + [EndTest(name)] + TearDownReports(c, name)
    ensures Reports(BatchReports(c, name), name) && Reports(TearDownReports(c, name), name)
  {
    var batch := Batch(c, name);
    var o1 := BatchReports(c, name);
    var o2 := TearDownReports(c, name);
    var tail := if c.hasTearDown then [TearDownExecuted(p)] + o2 else [];
    assert TargetTrace(c, p, name) == [CapturerRegistered(p), StartTest(name), Executed(p, batch)] + o1 + [EndTest(name)] + tail;
    TargetShapeNotes(p, name, batch, o1, o2, tail);
  }

  /** The finally block of `runTarget`: once a clean project was obtained, tearDown runs on it
      right after endTest was reported, whatever the batch threw, and the throwable that
      escapes is the one the test target and its tearDown leave. */
  lemma TearDownFollowsEndTest(c: Config, st: State, name: string)
    requires Valid(st) && st.suiteStarted && c.hasTearDown
    requires GetCleanProject(c.factory, st).0.Ok?
    ensures var r := RunTarget(c, st, name);
      var i := |r.trace| - |TearDownReports(c, name)| - 2;
      0 <= i && r.trace[i] == EndTest(name) && r.trace[i + 1] == TearDownExecuted(GetCleanProject(c.factory, st).0.value)
    ensures RunTarget(c, st, name).thrown == TargetThrown(c, name)
  {
    var p := GetCleanProject(c.factory, st).0.value;
    var batch := Batch(c, name);
    var o2 := TearDownReports(c, name);
    var head := [CapturerRegistered(p), StartTest(name), Executed(p, batch)] + BatchReports(c, name);
    assert TargetTrace(c, p, name) == head + [EndTest(name), TearDownExecuted(p)] + o2;
  }

  lemma TargetShapeNotes(p: ProjectId, name: string, batch: seq<string>, o1: seq<Event>, o2: seq<Event>, tail: seq<Event>)
    requires Reports(o1, name) && Reports(o2, name)
    requires tail == [] || tail == [TearDownExecuted(p)] + o2
    requires tail == [] ==> o2 == []
    ensures Notes([CapturerRegistered(p), StartTest(name), Executed(p, batch)] + o1 + [EndTest(name)] + tail)
            == [StartTest(name)] + o1 + [EndTest(name)] + o2
  {
    var head := [CapturerRegistered(p), StartTest(name), Executed(p, batch)];
    NotesAppend(head + o1 + [EndTest(name)], tail);
    NotesAppend(head + o1, [EndTest(name)]);
    NotesAppend(head, o1);
    NotesOfReports(o1, name);
    NotesOfReports(o2, name);
    assert Notes(head) == [StartTest(name)] by {
      assert head == [CapturerRegistered(p)] + [StartTest(name)] + [Executed(p, batch)];
      NotesAppend([CapturerRegistered(p)] + [StartTest(name)], [Executed(p, batch)]);
      NotesAppend([CapturerRegistered(p)], [StartTest(name)]);
      NotesSingle(CapturerRegistered(p));
      NotesSingle(StartTest(name));
      NotesSingle(Executed(p, batch));
    }
    NotesSingle(EndTest(name));
    assert Notes(tail) == o2 by {
      if tail != [] {
        NotesAppend([TearDownExecuted(p)], o2);
        NotesSingle(TearDownExecuted(p));
      }
    }
  }

  lemma {:induction false} NotesOfNotifications(s: seq<Event>)
    requires forall i :: 0 <= i < |s| ==> s[i].IsNotification()
    ensures Notes(s) == s
    decreases |s|
  {
    if |s| > 0 {
      NotesOfNotifications(s[1..]);
      assert s == [s[0]] + s[1..];
    }
  }

  lemma NotesOfReports(s: seq<Event>, name: string)
    requires Reports(s, name)
    ensures Notes(s) == s
  {
    NotesOfNotifications(s);
  }

  lemma NotesSingle(e: Event)
    ensures Notes([e]) == if e.IsNotification() then [e] else []
  {
    assert [e][1..] == [];
  }

  /** Prepending a block for `name` to blocks for `names` gives blocks for `[name] + names`. */
  lemma BlocksCons(name: string, o1: seq<Event>, o2: seq<Event>, tail: seq<Event>, names: seq<string>)
    requires Reports(o1, name) && Reports(o2, name)
    requires Blocks(tail, names)
    ensures Blocks([StartTest(name)] + o1 + [EndTest(name)] + o2 + tail, [name] + names)
  {
    assert tail == [] || tail[0].StartTest? by {
      if |names| > 0 { assert TargetBlockLength(tail, names[0]).Some?; }
    }
    BlockParses(name, o1, o2, tail);
    var notes := [StartTest(name)] + o1 + [EndTest(name)] + o2 + tail;
    assert notes[2 + |o1| + |o2|..] == tail;
    assert ([name] + names)[1..] == names;
  }

  /** The loop runs the targets in the given order: its notifications are one block per
      target for a prefix of the list, the whole list unless a throwable escaped. */
  lemma {:induction false} RunAllNotes(c: Config, st: State, names: seq<string>)
    requires Valid(st) && st.suiteStarted
    ensures var r := RunAll(c, st, names);
      exists k :: 0 <= k <= |names| && Blocks(Notes(r.trace), names[..k]) && (r.thrown.None? ==> k == |names|)
    decreases |names|
  {
    if |names| == 0 {
      assert Blocks(Notes(RunAll(c, st, names).trace), names[..0]);
    } else if RunTarget(c, st, names[0]).thrown.Some? {
      RunAllStops(c, st, names);
    } else {
      var s := RunTarget(c, st, names[0]);
      var rest := RunAll(c, s.st, names[1..]);
      RunAllNotes(c, s.st, names[1..]);
      var k' :| 0 <= k' <= |names[1..]| && Blocks(Notes(rest.trace), names[1..][..k'])
                && (rest.thrown.None? ==> k' == |names[1..]|);
      RunAllContinues(c, st, names, k');
    }
  }

  /** The loop left at its first target: at most that target's block was notified. */
  lemma RunAllStops(c: Config, st: State, names: seq<string>)
    requires Valid(st) && st.suiteStarted && |names| > 0 && RunTarget(c, st, names[0]).thrown.Some?
    ensures exists k :: 0 <= k <= |names| && Blocks(Notes(RunAll(c, st, names).trace), names[..k])
  {
    var s := RunTarget(c, st, names[0]);
    assert RunAll(c, st, names) == s;
    RunTargetNotes(c, st, names[0]);
    if s.trace == [] {
      assert Blocks(Notes(s.trace), names[..0]);
    } else {
      assert Blocks([], names[1..][..0]);
      PrefixBlocks(names, Notes(s.trace), [], 0);
      assert Notes(s.trace) + [] == Notes(s.trace);
    }
  }

  /** The loop past its first target: that target's block, then the blocks of the rest. */
  lemma RunAllContinues(c: Config, st: State, names: seq<string>, k: nat)
    requires Valid(st) && st.suiteStarted && |names| > 0 && RunTarget(c, st, names[0]).thrown.None?
    requires var rest := RunAll(c, RunTarget(c, st, names[0]).st, names[1..]);
             k <= |names| - 1 && Blocks(Notes(rest.trace), names[1..][..k]) && (rest.thrown.None? ==> k == |names| - 1)
    ensures var r := RunAll(c, st, names);
            Blocks(Notes(r.trace), names[..k + 1]) && (r.thrown.None? ==> k + 1 == |names|)
  {
    var s := RunTarget(c, st, names[0]);
    var rest := RunAll(c, s.st, names[1..]);
    assert RunAll(c, st, names) == Step(s.trace + rest.trace, rest.st, rest.thrown);
    RunTargetNotes(c, st, names[0]);
    assert s.trace != [];
    NotesAppend(s.trace, rest.trace);
    PrefixBlocks(names, Notes(s.trace), Notes(rest.trace), k);
  }

  lemma PrefixBlocks(names: seq<string>, first: seq<Event>, others: seq<Event>, k: nat)
    requires |names| > 0
    requires exists o1, o2 :: first == [StartTest(names[0])] + o1 + [EndTest(names[0])] + o2
                              && Reports(o1, names[0]) && Reports(o2, names[0])
    requires k <= |names| - 1 && Blocks(others, names[1..][..k])
    ensures Blocks(first + others, names[..k + 1])
  {
    ComposeBlocks(names[0], names[1..], first, others, k);
    assert names[..k + 1] == [names[0]] + names[1..][..k];
  }

  lemma ComposeBlocks(name: string, rest: seq<string>, first: seq<Event>, others: seq<Event>, k: nat)
    requires exists o1, o2 :: first == [StartTest(name)] + o1 + [EndTest(name)] + o2 && Reports(o1, name) && Reports(o2, name)
    requires k <= |rest| && Blocks(others, rest[..k])
    ensures Blocks(first + others, [name] + rest[..k])
  {
    var o1, o2 :| first == [StartTest(name)] + o1 + [EndTest(name)] + o2 && Reports(o1, name) && Reports(o2, name);
    BlocksCons(name, o1, o2, others, rest[..k]);
    assert first + others == [StartTest(name)] + o1 + [EndTest(name)] + o2 + others;
  }

  /** startSuite notifies nothing when it returns true, and startTest(suiteSetUp) plus one
      report when suiteSetUp failed with a `BuildException`. */
  lemma StartSuiteNotes(c: Config, st: State)
    requires Valid(st)
    ensures var (s, ok) := StartSuite(c, st);
      && HookNotes(Notes(s.trace), SuiteSetUp)
      && (ok ==> Notes(s.trace) == [])
      && (!ok && s.thrown.None? ==> Notes(s.trace) != [])
  {
    var (s, ok) := StartSuite(c, st);
    var (cur, st1) := GetCurrentProject(c.factory, st);
    if cur.Ok? && c.hasSuiteSetUp {
      HookNotesOf(c, SuiteSetUp, [BuildStarted(cur.value)], st1);
    }
  }

  lemma HookNotesOf(c: Config, hook: string, trace: seq<Event>, st: State)
    requires Valid(st) && Notes(trace) == []
    ensures var (s, ok) := RunHook(c, hook, trace, st);
      && HookNotes(Notes(s.trace), hook)
      && (ok ==> Notes(s.trace) == [])
      && (!ok && s.thrown.None? ==> Notes(s.trace) != [])
  {
    var (cl, st1) := GetCleanProject(c.factory, st);
    match cl
    case Err(e) =>
      CatchHookNotes(hook, e, trace, st1);
    case Ok(p) =>
      var t := trace + [Executed(p, [hook])];
      NotesAppend(trace, [Executed(p, [hook])]);
      NotesSingle(Executed(p, [hook]));
      match RunTargets(c.factory.script, [hook])
      case None =>
      case Some(e) =>
        CatchHookNotes(hook, e, t, st1);
  }

  lemma CatchHookNotes(hook: string, e: Throwable, trace: seq<Event>, st: State)
    requires Notes(trace) == []
    ensures var s := CatchHook(hook, e, trace, st);
      HookNotes(Notes(s.trace), hook) && (s.thrown.None? ==> Notes(s.trace) != [])
  {
    if e.IsBuildException() {
      var tail := [StartTest(hook)] + FireFailOrError(hook, e);
      assert trace + [StartTest(hook)] + FireFailOrError(hook, e) == trace + tail;
      NotesAppend(trace, tail);
      NotesOfNotifications(tail);
    }
  }

  /** endSuite notifies nothing, or startTest(suiteTearDown) plus one report. */
  lemma EndSuiteNotes(c: Config, st: State, caught: Option<Throwable>)
    requires Valid(st)
    ensures HookNotes(Notes(EndSuite(c, st, caught).trace), SuiteTearDown)
  {
    var r := EndSuite(c, st, caught);
    var s := if c.hasSuiteTearDown then RunHook(c, SuiteTearDown, [], st).0 else Step([], st, None);
    if c.hasSuiteTearDown {
      HookNotesOf(c, SuiteTearDown, [], st);
    }
    if r.trace != s.trace {
      var p := r.trace[|r.trace| - 1].project;
      assert r.trace == s.trace + [BuildFinished(p, caught)];
      NotesAppend(s.trace, [BuildFinished(p, caught)]);
    }
  }

  /** The notifications of a whole suite: those of suiteSetUp, one block per target for a
      prefix of the list (none when suiteSetUp failed), then those of suiteTearDown. */
  lemma RunSuiteNotes(c: Config, st: State, names: seq<string>)
    requires Valid(st)
    ensures exists pre, mid, post, k ::
      && Notes(RunSuite(c, st, names).trace) == pre + mid + post
      && HookNotes(pre, SuiteSetUp) && HookNotes(post, SuiteTearDown)
      && 0 <= k <= |names| && Blocks(mid, names[..k])
      && (pre != [] ==> k == 0)
      && (StartSuite(c, st).1 && SuiteBodyThrown(c, st, names).None? ==> k == |names|)
  {
    var (s, ok) := StartSuite(c, st);
    StartSuiteNotes(c, st);
    var l := if ok then RunAll(c, s.st, names) else Step([], s.st, s.thrown);
    var e := EndSuite(c, l.st, l.thrown);
    EndSuiteNotes(c, l.st, l.thrown);
    NotesAppend(s.trace + l.trace, e.trace);
    NotesAppend(s.trace, l.trace);
    if ok {
      RunAllNotes(c, s.st, names);
      var k :| 0 <= k <= |names| && Blocks(Notes(l.trace), names[..k]) && (l.thrown.None? ==> k == |names|);
      assert Notes(RunSuite(c, st, names).trace) == Notes(s.trace) + Notes(l.trace) + Notes(e.trace);
    } else {
      assert Blocks(Notes(l.trace), names[..0]);
      assert Notes(RunSuite(c, st, names).trace) == Notes(s.trace) + Notes(l.trace) + Notes(e.trace);
    }
  }

  // ---------------------------------------------------------------- isolation

  /** The projects on which targets were first run, in order. */
  function ExecProjects(trace: seq<Event>): seq<ProjectId> {
    if |trace| == 0 then []
    else (if trace[0].Executed? then [trace[0].project] else []) + ExecProjects(trace[1..])
  }

  lemma {:induction false} ExecProjectsAppend(a: seq<Event>, b: seq<Event>)
    ensures ExecProjects(a + b) == ExecProjects(a) + ExecProjects(b)
    decreases |a|
  {
    if |a| > 0 {
      assert (a + b)[1..] == a[1..] + b;
      ExecProjectsAppend(a[1..], b);
    } else {
      assert a + b == b;
    }
  }

  lemma ExecProjectsSingle(e: Event)
    ensures ExecProjects([e]) == if e.Executed? then [e.project] else []
  {
    assert [e][1..] == [];
  }

  lemma {:induction false} ExecProjectsOfNotifications(s: seq<Event>)
    requires forall i :: 0 <= i < |s| ==> s[i].IsNotification()
    ensures ExecProjects(s) == []
    decreases |s|
  {
    if |s| > 0 {
      ExecProjectsOfNotifications(s[1..]);
    }
  }

  /** Every project event of a test target names the clean project it was given:
      setUp, the target and tearDown share one project. */
  lemma TargetRunsOnOneProject(c: Config, p: ProjectId, name: string)
    ensures forall i :: 0 <= i < |TargetTrace(c, p, name)| && TargetTrace(c, p, name)[i].IsExecution()
                        ==> TargetTrace(c, p, name)[i].project == p
    ensures ExecProjects(TargetTrace(c, p, name)) == [p]
  {
    TargetExecutionsOnProject(c, p, name);
    TargetExecutesOnce(c, p, name);
  }

  lemma TargetExecutionsOnProject(c: Config, p: ProjectId, name: string)
    ensures forall i :: 0 <= i < |TargetTrace(c, p, name)| && TargetTrace(c, p, name)[i].IsExecution()
                        ==> TargetTrace(c, p, name)[i].project == p
  {
    var batch := Batch(c, name);
    var o1 := CatchTest(name, RunTargets(c.factory.script, batch)).0;
    var o2 := if c.hasTearDown then CatchTest(name, RunTargets(c.factory.script, [TearDown])).0 else [];
    var tail := if c.hasTearDown then [TearDownExecuted(p)] + o2 else [];
    var head := [CapturerRegistered(p), StartTest(name), Executed(p, batch)];
    assert TargetTrace(c, p, name) == head + o1 + [EndTest(name)] + tail;
  }

  /** Only the batch of a test target counts as an execution of a target on the project. */
  lemma TargetExecutesOnce(c: Config, p: ProjectId, name: string)
    ensures ExecProjects(TargetTrace(c, p, name)) == [p]
  {
    var batch := Batch(c, name);
    var o1 := CatchTest(name, RunTargets(c.factory.script, batch)).0;
    var o2 := if c.hasTearDown then CatchTest(name, RunTargets(c.factory.script, [TearDown])).0 else [];
    var tail := if c.hasTearDown then [TearDownExecuted(p)] + o2 else [];
    assert TargetTrace(c, p, name) == [CapturerRegistered(p), StartTest(name), Executed(p, batch)] + o1 + [EndTest(name)] + tail;
    TargetExecProjects(p, name, batch, o1, tail);
    assert ExecProjects(tail) == [] by {
      if c.hasTearDown {
        ExecProjectsAppend([TearDownExecuted(p)], o2);
        ExecProjectsSingle(TearDownExecuted(p));
        ExecProjectsOfNotifications(o2);
      }
    }
  }

  /** The executions of one test's trace, given its parts: only the batch's, unless the
      tail runs something too. */
  lemma TargetExecProjects(p: ProjectId, name: string, batch: seq<string>, o1: seq<Event>, tail: seq<Event>)
    requires forall i :: 0 <= i < |o1| ==> o1[i].IsNotification()
    ensures ExecProjects([CapturerRegistered(p), StartTest(name), Executed(p, batch)] + o1 + [EndTest(name)] + tail)
            == [p] + ExecProjects(tail)
  {
    var head := [CapturerRegistered(p), StartTest(name), Executed(p, batch)];
    HeadExecProjects(p, name, batch);
    ExecProjectsOfNotifications(o1);
    ExecProjectsAppend(head, o1);
    var h1 := head + o1;
    assert ExecProjects(h1) == [p];
    ExecProjectsAppend(h1, [EndTest(name)]);
    ExecProjectsSingle(EndTest(name));
    var h2 := h1 + [EndTest(name)];
    assert ExecProjects(h2) == [p];
    ExecProjectsAppend(h2, tail);
  }

  lemma HeadExecProjects(p: ProjectId, name: string, batch: seq<string>)
    ensures ExecProjects([CapturerRegistered(p), StartTest(name), Executed(p, batch)]) == [p]
  {
    var head := [CapturerRegistered(p), StartTest(name), Executed(p, batch)];
    assert head[1..] == [StartTest(name), Executed(p, batch)];
    assert head[1..][1..] == [Executed(p, batch)];
    ExecProjectsSingle(Executed(p, batch));
  }

  /** Scanning distributes over concatenation: the test targets of `a + b` are those of
      `a` followed by those of `b`. With `ScanSingle` this makes the scan an
      order-preserving filter. */
  lemma {:induction false} ScanAppend(a: seq<string>, b: seq<string>)
    ensures ScanTestTargets(a + b) == ScanTestTargets(a) + ScanTestTargets(b)
    decreases |a|
  {
    if |a| == 0 {
      assert a + b == b;
    } else {
      assert (a + b)[0] == a[0] && (a + b)[1..] == a[1..] + b;
      ScanAppend(a[1..], b);
    }
  }

  lemma ScanSingle(x: string)
    ensures ScanTestTargets([x]) == if IsTestTarget(x) then [x] else []
  {
    assert [x][1..] == [];
  }

  /** The current project is still the one the constructor scanned, unused, or the first
      project that ran anything was that one. */
  ghost predicate Scanned(st: State, used: seq<ProjectId>) {
    && (used == [] ==> st.project == Some(0) && !st.dirty)
    && (used != [] ==> used[0] == 0)
  }

  lemma CleanProjectScanned(f: ProjectFactory, st: State, used: seq<ProjectId>)
    requires Fresh(st, used) && Scanned(st, used)
    ensures var (r, st') := GetCleanProject(f, st);
      && (r.Ok? ==> Scanned(st', used + [r.value]))
      && (r.Err? ==> Scanned(st', used))
  {
  }

  lemma CatchHookExec(hook: string, e: Throwable, trace: seq<Event>, st: State)
    ensures ExecProjects(CatchHook(hook, e, trace, st).trace) == ExecProjects(trace)
  {
    if e.IsBuildException() {
      var tail := [StartTest(hook)] + FireFailOrError(hook, e);
      assert trace + [StartTest(hook)] + FireFailOrError(hook, e) == trace + tail;
      ExecProjectsAppend(trace, tail);
      ExecProjectsOfNotifications(tail);
    }
  }

  /** A hook leaves the state of its clean-project request and adds that project's run. */
  lemma RunHookExec(c: Config, hook: string, trace: seq<Event>, st: State)
    requires Valid(st)
    ensures var s := RunHook(c, hook, trace, st).0;
      var (cl, st1) := GetCleanProject(c.factory, st);
      && s.st == st1
      && ExecProjects(s.trace) == ExecProjects(trace) + (if cl.Ok? then [cl.value] else [])
  {
    var (cl, st1) := GetCleanProject(c.factory, st);
    match cl
    case Err(e) =>
      CatchHookExec(hook, e, trace, st1);
      assert ExecProjects(trace) + [] == ExecProjects(trace);
    case Ok(p) =>
      var t := trace + [Executed(p, [hook])];
      ExecProjectsAppend(trace, [Executed(p, [hook])]);
      ExecProjectsSingle(Executed(p, [hook]));
      match RunTargets(c.factory.script, [hook])
      case None =>
      case Some(e) =>
        CatchHookExec(hook, e, t, st1);
  }

  lemma RunHookFresh(c: Config, hook: string, trace: seq<Event>, st: State, used: seq<ProjectId>)
    requires Fresh(st, used) && ExecProjects(trace) == []
    ensures var s := RunHook(c, hook, trace, st).0;
      && Fresh(s.st, used + ExecProjects(s.trace))
      && (Scanned(st, used) ==> Scanned(s.st, used + ExecProjects(s.trace)))
  {
    var (cl, st1) := GetCleanProject(c.factory, st);
    RunHookExec(c, hook, trace, st);
    CleanProjectFresh(c.factory, st, used);
    if Scanned(st, used) { CleanProjectScanned(c.factory, st, used); }
    if cl.Err? {
      assert used + [] == used;
    }
  }

  lemma CurrentProjectScanned(f: ProjectFactory, st: State, used: seq<ProjectId>)
    requires Fresh(st, used) && Scanned(st, used)
    ensures Scanned(GetCurrentProject(f, st).1, used)
  {
  }

  /** Bookkeeping shared by every step below: `used` grows by the step's runs, and both
      invariants carry over. */
  ghost predicate StepKeeps(st: State, used: seq<ProjectId>, st': State, trace: seq<Event>) {
    && Fresh(st', used + ExecProjects(trace))
    && (Scanned(st, used) ==> Scanned(st', used + ExecProjects(trace)))
  }

  lemma SuiteFlagIrrelevant(st0: State, used: seq<ProjectId>, st: State, trace: seq<Event>, b: bool)
    requires StepKeeps(st0, used, st, trace)
    ensures StepKeeps(st0, used, st.(suiteStarted := b), trace)
  {
  }

  lemma AddRuns(used: seq<ProjectId>, a: seq<Event>, b: seq<Event>)
    ensures used + ExecProjects(a) + ExecProjects(b) == used + ExecProjects(a + b)
  {
    ExecProjectsAppend(a, b);
  }

  lemma StartSuiteFresh(c: Config, st: State, used: seq<ProjectId>)
    requires Fresh(st, used)
    ensures StepKeeps(st, used, StartSuite(c, st).0.st, StartSuite(c, st).0.trace)
  {
    var cur := GetCurrentProject(c.factory, st).0;
    var st1 := GetCurrentProject(c.factory, st).1;
    CurrentProjectFresh(c.factory, st, used);
    if Scanned(st, used) { CurrentProjectScanned(c.factory, st, used); }
    assert used + [] == used;
    if cur.Ok? {
      var t := [BuildStarted(cur.value)];
      ExecProjectsSingle(BuildStarted(cur.value));
      if c.hasSuiteSetUp {
        var h := RunHook(c, SuiteSetUp, t, st1);
        RunHookFresh(c, SuiteSetUp, t, st1, used);
        assert StepKeeps(st, used, h.0.st, h.0.trace);
        SuiteFlagIrrelevant(st, used, h.0.st, h.0.trace, true);
      } else {
        assert StepKeeps(st, used, st1, t);
        SuiteFlagIrrelevant(st, used, st1, t, true);
      }
    }
  }

  lemma RunTargetFresh(c: Config, st: State, name: string, used: seq<ProjectId>)
    requires Fresh(st, used)
    ensures StepKeeps(st, used, RunTarget(c, st, name).st, RunTarget(c, st, name).trace)
  {
    assert used + [] == used;
    if st.suiteStarted {
      var (cl, st1) := GetCleanProject(c.factory, st);
      CleanProjectFresh(c.factory, st, used);
      if Scanned(st, used) { CleanProjectScanned(c.factory, st, used); }
      if cl.Ok? {
        TargetRunsOnOneProject(c, cl.value, name);
      }
    }
  }

  lemma {:induction false} RunAllFresh(c: Config, st: State, names: seq<string>, used: seq<ProjectId>)
    requires Fresh(st, used)
    ensures StepKeeps(st, used, RunAll(c, st, names).st, RunAll(c, st, names).trace)
    decreases |names|
  {
    if |names| == 0 {
      assert used + [] == used;
    } else {
      var s := RunTarget(c, st, names[0]);
      RunTargetFresh(c, st, names[0], used);
      if s.thrown.None? {
        var used1 := used + ExecProjects(s.trace);
        var rest := RunAll(c, s.st, names[1..]);
        RunAllFresh(c, s.st, names[1..], used1);
        ExecProjectsAppend(s.trace, rest.trace);
        assert used1 + ExecProjects(rest.trace) == used + ExecProjects(s.trace + rest.trace);
      }
    }
  }

  lemma EndSuiteFresh(c: Config, st: State, caught: Option<Throwable>, used: seq<ProjectId>)
    requires Fresh(st, used)
    ensures StepKeeps(st, used, EndSuite(c, st, caught).st, EndSuite(c, st, caught).trace)
  {
    assert used + [] == used;
    var s := if c.hasSuiteTearDown then RunHook(c, SuiteTearDown, [], st).0 else Step([], st, None);
    if c.hasSuiteTearDown {
      RunHookFresh(c, SuiteTearDown, [], st, used);
    }
    if s.thrown.None? {
      FinishBuildFresh(c.factory, st, used, s.trace, s.st, caught);
    }
  }

  /** buildFinished runs no target, and creating the current project keeps the invariants. */
  lemma FinishBuildFresh(f: ProjectFactory, st0: State, used: seq<ProjectId>, trace: seq<Event>, st: State, caught: Option<Throwable>)
    requires Valid(st) && StepKeeps(st0, used, st, trace)
    ensures StepKeeps(st0, used, FinishBuild(f, trace, st, caught).st, FinishBuild(f, trace, st, caught).trace)
  {
    var used1 := used + ExecProjects(trace);
    var (cur, st1) := GetCurrentProject(f, st);
    CurrentProjectFresh(f, st, used1);
    if Scanned(st0, used) { CurrentProjectScanned(f, st, used1); }
    if cur.Ok? {
      ExecProjectsAppend(trace, [BuildFinished(cur.value, caught)]);
      ExecProjectsSingle(BuildFinished(cur.value, caught));
      assert ExecProjects(trace + [BuildFinished(cur.value, caught)]) == ExecProjects(trace);
    }
  }


  lemma RunSuiteFresh(c: Config, st: State, names: seq<string>, used: seq<ProjectId>)
    requires Fresh(st, used)
    ensures StepKeeps(st, used, RunSuite(c, st, names).st, RunSuite(c, st, names).trace)
  {
    var s := StartSuite(c, st).0;
    var ok := StartSuite(c, st).1;
    StartSuiteFresh(c, st, used);
    var used1 := used + ExecProjects(s.trace);
    var l := if ok then RunAll(c, s.st, names) else Step([], s.st, s.thrown);
    if ok {
      RunAllFresh(c, s.st, names, used1);
    } else {
      assert used1 + [] == used1;
    }
    assert StepKeeps(s.st, used1, l.st, l.trace);
    var used2 := used1 + ExecProjects(l.trace);
    var e := EndSuite(c, l.st, l.thrown);
    EndSuiteFresh(c, l.st, l.thrown, used2);
    AddRuns(used, s.trace, l.trace);
    AddRuns(used, s.trace + l.trace, e.trace);
    assert RunSuite(c, st, names) == Step(s.trace + l.trace + e.trace, e.st, e.thrown);
  }

  /** Isolation: over a whole suite, every script target (suite hooks included) starts on a
      project that no earlier one used, and the projects come in creation order. */
  lemma RunSuiteIsolatesTargets(c: Config, st: State, names: seq<string>)
    requires Valid(st)
    ensures var ps := ExecProjects(RunSuite(c, st, names).trace);
      forall i, j :: 0 <= i < j < |ps| ==> ps[i] < ps[j]
  {
    assert Fresh(st, []);
    RunSuiteFresh(c, st, names, []);
    assert [] + ExecProjects(RunSuite(c, st, names).trace) == ExecProjects(RunSuite(c, st, names).trace);
  }

  /** Right after construction, the first target run uses the project that was scanned for
      targets: no project is created in vain. */
  lemma FirstRunUsesScannedProject(f: ProjectFactory, names: seq<string>)
    requires Construct(f).Ok?
    ensures var (c, st) := Construct(f).value;
      var ps := ExecProjects(RunSuite(c, st, names).trace);
      |ps| > 0 ==> ps[0] == 0
  {
    var (c, st) := Construct(f).value;
    assert Fresh(st, []) && Scanned(st, []);
    RunSuiteFresh(c, st, names, []);
    assert [] + ExecProjects(RunSuite(c, st, names).trace) == ExecProjects(RunSuite(c, st, names).trace);
  }

  // ---------------------------------------------------- what escapes and what passes

  /** A throwable that may leave a test target: not a `BuildException` raised by the
      script (those are reported), unless the factory raised it while making the clean
      project outside the target's try block. */
  ghost predicate MayEscape(f: ProjectFactory, t: Throwable) {
    !t.IsBuildException() || t in f.failures.Values
  }

  lemma CleanProjectFailure(f: ProjectFactory, st: State)
    requires Valid(st)
    ensures GetCleanProject(f, st).0.Err? ==> GetCleanProject(f, st).0.error in f.failures.Values
  {
  }

  lemma CurrentProjectFailure(f: ProjectFactory, st: State)
    requires Valid(st)
    ensures GetCurrentProject(f, st).0.Err? ==> GetCurrentProject(f, st).0.error in f.failures.Values
  {
  }

  lemma RunTargetEscapes(c: Config, st: State, name: string)
    requires Valid(st)
    ensures RunTarget(c, st, name).thrown.Some? ==> MayEscape(c.factory, RunTarget(c, st, name).thrown.value)
  {
    CleanProjectFailure(c.factory, st);
  }

  /** The loop stops at the first escaping throwable and passes it on unchanged. */
  lemma {:induction false} RunAllEscapes(c: Config, st: State, names: seq<string>)
    requires Valid(st)
    ensures RunAll(c, st, names).thrown.Some? ==> MayEscape(c.factory, RunAll(c, st, names).thrown.value)
    decreases |names|
  {
    if |names| > 0 {
      RunTargetEscapes(c, st, names[0]);
      var s := RunTarget(c, st, names[0]);
      if s.thrown.None? {
        RunAllEscapes(c, s.st, names[1..]);
      }
    }
  }

  /** When nothing escapes `runSuite`, its last event is the end of the build, carrying the
      throwable that escaped startSuite or the loop; that throwable was never one the script
      raised as a `BuildException`. */
  lemma RunSuiteFinishesBuild(c: Config, st: State, names: seq<string>)
    requires Valid(st)
    ensures var r := RunSuite(c, st, names);
      r.thrown.None? ==>
        && |r.trace| > 0 && r.trace[|r.trace| - 1].BuildFinished?
        && var caught := r.trace[|r.trace| - 1].caught;
           && caught == SuiteBodyThrown(c, st, names)
           && (caught.Some? ==> MayEscape(c.factory, caught.value))
  {
    RunSuiteLast(c, st, names);
    SuiteBodyEscapes(c, st, names);
  }

  /** The throwable `endSuite` is given: what escaped startSuite or the loop. */
  ghost function SuiteBodyThrown(c: Config, st: State, names: seq<string>): Option<Throwable>
    requires Valid(st)
  {
    var s := StartSuite(c, st).0;
    if StartSuite(c, st).1 then RunAll(c, s.st, names).thrown else s.thrown
  }

  /** The state `endSuite` starts from: after startSuite and, when it returned true, the loop. */
  ghost function SuiteBodyState(c: Config, st: State, names: seq<string>): (r: State)
    requires Valid(st)
    ensures Valid(r)
  {
    var s := StartSuite(c, st).0;
    if StartSuite(c, st).1 then RunAll(c, s.st, names).st else s.st
  }

  /** The `finally` of `runSuite`: whatever startSuite or the loop threw, the suite ends with
      the events of `endSuite` given that throwable, and its outcome is the outcome of
      `endSuite`. */
  lemma RunSuiteEndsWithEndSuite(c: Config, st: State, names: seq<string>)
    requires Valid(st)
    ensures var r := RunSuite(c, st, names);
      var e := EndSuite(c, SuiteBodyState(c, st, names), SuiteBodyThrown(c, st, names));
      |e.trace| <= |r.trace| && r.trace[|r.trace| - |e.trace|..] == e.trace && r.thrown == e.thrown
  {
    var s := StartSuite(c, st).0;
    var l := if StartSuite(c, st).1 then RunAll(c, s.st, names) else Step([], s.st, s.thrown);
    var e := EndSuite(c, l.st, l.thrown);
    assert RunSuite(c, st, names) == Step(s.trace + l.trace + e.trace, e.st, e.thrown);
    assert (s.trace + l.trace + e.trace)[|s.trace + l.trace|..] == e.trace;
  }

  /** With a suiteTearDown target, suiteTearDown runs on every path of `runSuite` whenever a
      clean project can be had for it, even after startSuite or the loop threw. */
  lemma SuiteTearDownAlwaysRuns(c: Config, st: State, names: seq<string>)
    requires Valid(st) && c.hasSuiteTearDown
    ensures var b := SuiteBodyState(c, st, names);
      GetCleanProject(c.factory, b).0.Ok? ==>
        Executed(GetCleanProject(c.factory, b).0.value, [SuiteTearDown]) in RunSuite(c, st, names).trace
  {
    var b := SuiteBodyState(c, st, names);
    var r := RunSuite(c, st, names);
    var e := EndSuite(c, b, SuiteBodyThrown(c, st, names));
    RunSuiteEndsWithEndSuite(c, st, names);
    if GetCleanProject(c.factory, b).0.Ok? {
      EndSuiteRunsTearDown(c, b, SuiteBodyThrown(c, st, names));
      assert r.trace[|r.trace| - |e.trace|] == e.trace[0];
    }
  }

  lemma EndSuiteRunsTearDown(c: Config, st: State, caught: Option<Throwable>)
    requires Valid(st) && c.hasSuiteTearDown && GetCleanProject(c.factory, st).0.Ok?
    ensures var e := EndSuite(c, st, caught);
      |e.trace| > 0 && e.trace[0] == Executed(GetCleanProject(c.factory, st).0.value, [SuiteTearDown])
  {
    var p := GetCleanProject(c.factory, st).0.value;
    var h := RunHook(c, SuiteTearDown, [], st).0;
    assert |h.trace| > 0 && h.trace[0] == Executed(p, [SuiteTearDown]);
  }

  lemma RunSuiteLast(c: Config, st: State, names: seq<string>)
    requires Valid(st)
    ensures var r := RunSuite(c, st, names);
      r.thrown.None? ==> |r.trace| > 0 && r.trace[|r.trace| - 1].BuildFinished?
                         && r.trace[|r.trace| - 1].caught == SuiteBodyThrown(c, st, names)
  {
    var s := StartSuite(c, st).0;
    var l := if StartSuite(c, st).1 then RunAll(c, s.st, names) else Step([], s.st, s.thrown);
    var e := EndSuite(c, l.st, l.thrown);
    assert RunSuite(c, st, names) == Step(s.trace + l.trace + e.trace, e.st, e.thrown);
    if e.thrown.None? {
      LastOfAppend(s.trace + l.trace, e.trace);
    }
  }

  /** What startSuite and the loop let through, and `endSuite` is then given, is either not
      a `BuildException` or a failure of the factory. */
  lemma SuiteBodyEscapes(c: Config, st: State, names: seq<string>)
    requires Valid(st)
    ensures SuiteBodyThrown(c, st, names).Some? ==> MayEscape(c.factory, SuiteBodyThrown(c, st, names).value)
  {
    var s := StartSuite(c, st).0;
    if StartSuite(c, st).1 {
      RunAllEscapes(c, s.st, names);
    } else {
      CurrentProjectFailure(c.factory, st);
    }
  }

  lemma LastOfAppend(a: seq<Event>, b: seq<Event>)
    requires |b| > 0
    ensures |a + b| > 0 && (a + b)[|a + b| - 1] == b[|b| - 1]
  {
  }

  /** The notes of targets that all pass: startTest and endTest for each, in order. */
  function Passes(names: seq<string>): (r: seq<Event>)
    ensures |r| == 2 * |names|
    ensures forall i :: 0 <= i < |names| ==> r[2 * i] == StartTest(names[i]) && r[2 * i + 1] == EndTest(names[i])
  {
    if |names| == 0 then [] else [StartTest(names[0]), EndTest(names[0])] + Passes(names[1..])
  }

  /** A script whose targets and factory never fail: every project is obtained, nothing
      escapes, and the notifier sees exactly a start and an end per target. */
  ghost predicate NeverFails(f: ProjectFactory) {
    f.script.throws == map[] && f.failures == map[]
  }

  lemma RunTargetPasses(c: Config, st: State, name: string)
    requires Valid(st) && st.suiteStarted && NeverFails(c.factory)
    ensures RunTarget(c, st, name).thrown.None?
    ensures Notes(RunTarget(c, st, name).trace) == [StartTest(name), EndTest(name)]
  {
    var cl := GetCleanProject(c.factory, st).0;
    assert cl.Ok?;
    var batch := Batch(c, name);
    assert RunTargets(c.factory.script, batch).None?;
    assert RunTargets(c.factory.script, [TearDown]).None?;
    var tail := if c.hasTearDown then [TearDownExecuted(cl.value)] else [];
    assert TargetTrace(c, cl.value, name) ==
      [CapturerRegistered(cl.value), StartTest(name), Executed(cl.value, batch)] + [] + [EndTest(name)] + tail;
    TargetShapeNotes(cl.value, name, batch, [], [], tail);
  }

  lemma {:induction false} RunAllPasses(c: Config, st: State, names: seq<string>)
    requires Valid(st) && st.suiteStarted && NeverFails(c.factory)
    ensures RunAll(c, st, names).thrown.None?
    ensures Notes(RunAll(c, st, names).trace) == Passes(names)
    decreases |names|
  {
    if |names| > 0 {
      var s := RunTarget(c, st, names[0]);
      RunTargetPasses(c, st, names[0]);
      RunAllPasses(c, s.st, names[1..]);
      NotesAppend(s.trace, RunAll(c, s.st, names[1..]).trace);
    }
  }

  lemma StartSuitePasses(c: Config, st: State)
    requires Valid(st) && NeverFails(c.factory)
    ensures StartSuite(c, st).1 && Notes(StartSuite(c, st).0.trace) == []
  {
    assert GetCurrentProject(c.factory, st).0.Ok?;
    if c.hasSuiteSetUp {
      assert RunTargets(c.factory.script, [SuiteSetUp]).None?;
    }
    StartSuiteNotes(c, st);
  }

  /** With a factory that never fails and targets that never throw, a hook completes and
      notifies nothing. */
  lemma RunHookPasses(c: Config, hook: string, trace: seq<Event>, st: State)
    requires Valid(st) && NeverFails(c.factory)
    ensures RunHook(c, hook, trace, st).1
    ensures Notes(RunHook(c, hook, trace, st).0.trace) == Notes(trace)
  {
    var cl := GetCleanProject(c.factory, st).0;
    assert cl.Ok?;
    assert RunTargets(c.factory.script, [hook]).None?;
    NotesAppend(trace, [Executed(cl.value, [hook])]);
    NotesSingle(Executed(cl.value, [hook]));
  }

  lemma EndSuitePasses(c: Config, st: State, caught: Option<Throwable>)
    requires Valid(st) && NeverFails(c.factory)
    ensures EndSuite(c, st, caught).thrown.None? && Notes(EndSuite(c, st, caught).trace) == []
  {
    var s := if c.hasSuiteTearDown then RunHook(c, SuiteTearDown, [], st).0 else Step([], st, None);
    if c.hasSuiteTearDown {
      RunHookPasses(c, SuiteTearDown, [], st);
    }
    assert Notes(s.trace) == [] && s.thrown.None?;
    var p := GetCurrentProject(c.factory, s.st).0.value;
    assert EndSuite(c, st, caught).trace == s.trace + [BuildFinished(p, caught)];
    NotesAppend(s.trace, [BuildFinished(p, caught)]);
    NotesSingle(BuildFinished(p, caught));
  }

  lemma RunSuitePasses(c: Config, st: State, names: seq<string>)
    requires Valid(st) && NeverFails(c.factory)
    ensures RunSuite(c, st, names).thrown.None?
    ensures Notes(RunSuite(c, st, names).trace) == Passes(names)
  {
    var s := StartSuite(c, st).0;
    StartSuitePasses(c, st);
    var l := RunAll(c, s.st, names);
    RunAllPasses(c, s.st, names);
    var e := EndSuite(c, l.st, l.thrown);
    EndSuitePasses(c, l.st, l.thrown);
    assert RunSuite(c, st, names) == Step(s.trace + l.trace + e.trace, e.st, e.thrown);
    NotesAppend(s.trace + l.trace, e.trace);
    NotesAppend(s.trace, l.trace);
    assert [] + Passes(names) + [] == Passes(names);
  }
}

=== FILE: Strings.dfy ===
/** The few `java.lang.String` operations the model relies on, with their Java meaning. */
module Strings {

  /** `s.startsWith(prefix)`. */
  predicate StartsWith(s: string, prefix: string) {
    |prefix| <= |s| && s[..|prefix|] == prefix
  }

  /** `pat` occurs in `s` at position `i`. */
  predicate OccursAt(s: string, pat: string, i: int) {
    0 <= i && i + |pat| <= |s| && s[i..i + |pat|] == pat
  }

  /** `pat` occurs somewhere in `s`. */
  ghost predicate Occurs(s: string, pat: string) {
    exists i :: OccursAt(s, pat, i)
  }

  /** `s.indexOf(pat, from)`: the first occurrence at or after `from`, or -1. */
  function IndexFrom(s: string, pat: string, from: nat): (r: int)
    requires from <= |s| + 1
    ensures r == -1 || (from <= r && OccursAt(s, pat, r))
    ensures r == -1 ==> forall i :: from <= i ==> !OccursAt(s, pat, i)
    ensures r != -1 ==> forall i :: from <= i < r ==> !OccursAt(s, pat, i)
    decreases |s| + 1 - from
  {
    if from + |pat| > |s| then -1
    else if s[from..from + |pat|] == pat then from
    else IndexFrom(s, pat, from + 1)
  }

  /** `s.indexOf(pat)`. */
  function IndexOf(s: string, pat: string): (r: int)
    ensures r == -1 <==> !Occurs(s, pat)
    ensures r != -1 ==> OccursAt(s, pat, r) && forall i :: 0 <= i < r ==> !OccursAt(s, pat, i)
  {
    IndexFrom(s, pat, 0)
  }

  /** `s.indexOf(pat) > -1`, the test `LogContains` applies. */
  predicate Contains(s: string, pat: string) {
    IndexOf(s, pat) > -1
  }

  lemma ContainsIffOccurs(s: string, pat: string)
    ensures Contains(s, pat) <==> Occurs(s, pat)
  {
  }

  /** `s.replace(from, to)` on single characters. */
  function ReplaceChar(s: string, from: char, to: char): (r: string)
    ensures |r| == |s|
    ensures forall i :: 0 <= i < |s| ==> r[i] == (if s[i] == from then to else s[i])
  {
    if |s| == 0 then ""
    else [if s[0] == from then to else s[0]] + ReplaceChar(s[1..], from, to)
  }

  /** The decimal digit for `d`. */
  function Digit(d: nat): char
    requires d < 10
  {
    "0123456789"[d]
  }

  /** The value of a decimal digit character. */
  function DigitValue(c: char): nat {
    if '0' <= c <= '9' then (c as int - '0' as int) else 0
  }

  predicate IsDigit(c: char) {
    '0' <= c <= '9'
  }

  /** Plain decimal rendering of a natural number, as string concatenation of an `int` gives. */
  function NatToString(n: nat): (r: string)
    ensures |r| >= 1
    ensures forall i :: 0 <= i < |r| ==> IsDigit(r[i])
    ensures n > 0 ==> r[0] != '0'
  {
    if n < 10 then [Digit(n)] else NatToString(n / 10) + [Digit(n % 10)]
  }

  /** Decimal rendering of any integer, with a leading minus sign when negative. */
  function IntToString(n: int): (r: string)
    ensures |r| >= 1
    ensures n < 0 <==> r[0] == '-'
  {
    if n < 0 then "-" + NatToString(-n) else NatToString(n)
  }

  /** Reads back a string of decimal digits. */
  function ParseDigits(s: string): nat {
    if |s| == 0 then 0 else ParseDigits(s[..|s| - 1]) * 10 + DigitValue(s[|s| - 1])
  }

  /** Decimal rendering is undone by reading the digits back. */
  lemma {:induction false} NatToStringRoundTrip(n: nat)
    ensures ParseDigits(NatToString(n)) == n
  {
    if n >= 10 {
      NatToStringRoundTrip(n / 10);
      var s := NatToString(n);
      assert s[..|s| - 1] == NatToString(n / 10);
    }
  }

  /** Different numbers render differently. */
  lemma NatToStringInjective(m: nat, n: nat)
    requires NatToString(m) == NatToString(n)
    ensures m == n
  {
    NatToStringRoundTrip(m);
    NatToStringRoundTrip(n);
  }

  /** Equal strings with a common prefix agree after it. */
  lemma StripPrefix(p: string, a: string, b: string)
    requires p + a == p + b
    ensures a == b
  {
    assert a == (p + a)[|p|..];
    assert b == (p + b)[|p|..];
  }

  /** A run of digits followed by a non-digit is determined by the whole string: reading
      a decimal number stops at the same place in both. */
  lemma DigitsThenOther(d1: string, x1: string, d2: string, x2: string)
    requires forall i :: 0 <= i < |d1| ==> IsDigit(d1[i])
    requires forall i :: 0 <= i < |d2| ==> IsDigit(d2[i])
    requires |x1| > 0 && !IsDigit(x1[0]) && |x2| > 0 && !IsDigit(x2[0])
    requires d1 + x1 == d2 + x2
    ensures d1 == d2 && x1 == x2
  {
    var m := if |d1| < |d2| then |d1| else |d2|;
    assert (d1 + x1)[m] == (d2 + x2)[m];
    assert IsDigit((d1 + x1)[m]) <==> m < |d1|;
    assert IsDigit((d2 + x2)[m]) <==> m < |d2|;
    assert d1 == (d1 + x1)[..|d1|];
    assert d2 == (d2 + x2)[..|d2|];
    assert x1 == (d1 + x1)[|d1|..];
    assert x2 == (d2 + x2)[|d2|..];
  }

  /** The UTF-16 code units of one character: the character itself below U+10000, else
      its surrogate pair. */
  function CodeUnits(c: char): (r: seq<int>)
    ensures forall i :: 0 <= i < |r| ==> 0 <= r[i] < 0x1_0000
    ensures |r| == 1 <==> (c as int) < 0x1_0000
    ensures |r| == 1 ==> r[0] == c as int && !(0xD800 <= r[0] < 0xE000)
    ensures |r| != 1 ==> |r| == 2 && 0xD800 <= r[0] < 0xDC00 && 0xDC00 <= r[1] < 0xE000
                         && c as int == 0x1_0000 + (r[0] - 0xD800) * 0x400 + (r[1] - 0xDC00)
  {
    var v := c as int;
    if v < 0x1_0000 then [v]
    else [0xD800 + (v - 0x1_0000) / 0x400, 0xDC00 + (v - 0x1_0000) % 0x400]
  }

  /** A string as the sequence of UTF-16 code units a Java `String` holds. */
  function Utf16(s: string): seq<int>
    decreases |s|
  {
    if |s| == 0 then [] else CodeUnits(s[0]) + Utf16(s[1..])
  }

  /** Different strings have different UTF-16 encodings. */
  lemma {:induction false} Utf16Injective(a: string, b: string)
    requires Utf16(a) == Utf16(b)
    ensures a == b
    decreases |a|
  {
    if |a| > 0 && |b| > 0 {
      var ua, ub := CodeUnits(a[0]), CodeUnits(b[0]);
      assert Utf16(a)[0] == ua[0] && Utf16(b)[0] == ub[0];
      assert |ua| == |ub|;
      if |ua| == 2 {
        assert Utf16(a)[1] == ua[1] && Utf16(b)[1] == ub[1];
      }
      assert a[0] == b[0];
      assert Utf16(a[1..]) == Utf16(a)[|ua|..];
      assert Utf16(b[1..]) == Utf16(b)[|ub|..];
      Utf16Injective(a[1..], b[1..]);
      assert a == [a[0]] + a[1..] && b == [b[0]] + b[1..];
    }
  }

  /** Encoding distributes over concatenation. */
  lemma {:induction false} Utf16Append(a: string, b: string)
    ensures Utf16(a + b) == Utf16(a) + Utf16(b)
    decreases |a|
  {
    if |a| > 0 {
      assert (a + b)[1..] == a[1..] + b;
      Utf16Append(a[1..], b);
    } else {
      assert a + b == b;
    }
  }

  /** A string has at least as many code units as characters. */
  lemma {:induction false} Utf16Length(s: string)
    ensures |Utf16(s)| >= |s|
    decreases |s|
  {
    if |s| > 0 {
      Utf16Length(s[1..]);
    }
  }

  /** The encoding of a string split around one of its characters. */
  lemma Utf16Around(a: string, c: char, b: string)
    ensures Utf16(a + [c] + b) == Utf16(a) + CodeUnits(c) + Utf16(b)
  {
    Utf16Append(a + [c], b);
    Utf16Append(a, [c]);
    assert Utf16([c]) == CodeUnits(c) + Utf16([]);
  }

  /** A character below the surrogate range is a code unit of a string's encoding iff it is
      a character of the string: no surrogate pair contains it. */
  lemma {:induction false} BmpCharUnits(s: string, c: char)
    requires (c as int) < 0xD800
    ensures (c as int in Utf16(s)) <==> c in s
    decreases |s|
  {
    if |s| > 0 {
      BmpCharUnits(s[1..], c);
      var h := CodeUnits(s[0]);
      assert Utf16(s) == h + Utf16(s[1..]);
      assert c as int in h <==> s[0] == c;
      assert c in s <==> s[0] == c || c in s[1..] by { assert s == [s[0]] + s[1..]; }
    }
  }

  /** `s.indexOf(ch)` for a character `ch`, over the code units a Java `String` holds: the
      first unit equal to `x`, or -1. */
  function IndexOfUnit(u: seq<int>, x: int): (r: int)
    ensures r == -1 <==> x !in u
    ensures r != -1 ==> 0 <= r < |u| && u[r] == x && x !in u[..r]
    decreases |u|
  {
    if |u| == 0 then -1
    else if u[0] == x then (assert u[..0] == []; 0)
    else
      var r := IndexOfUnit(u[1..], x);
      assert u == [u[0]] + u[1..];
      if r == -1 then -1
      else
        assert u[..r + 1] == [u[0]] + u[1..][..r];
        r + 1
  }

  /** The loop of `String.compareTo` over two code-unit sequences: the difference of the
      first differing units, or else the difference of the lengths. */
  function CompareUnits(a: seq<int>, b: seq<int>): (r: int)
    ensures r == 0 <==> a == b
    decreases |a|
  {
    if |a| == 0 || |b| == 0 then |a| - |b|
    else if a[0] != b[0] then a[0] - b[0]
    else
      var r := CompareUnits(a[1..], b[1..]);
      assert a == [a[0]] + a[1..] && b == [b[0]] + b[1..];
      r
  }

  lemma {:induction false} CompareUnitsAntisymmetric(a: seq<int>, b: seq<int>)
    ensures CompareUnits(a, b) == -CompareUnits(b, a)
    decreases |a|
  {
    if |a| > 0 && |b| > 0 && a[0] == b[0] {
      CompareUnitsAntisymmetric(a[1..], b[1..]);
    }
  }

  lemma {:induction false} CompareUnitsTransitive(a: seq<int>, b: seq<int>, c: seq<int>)
    requires CompareUnits(a, b) < 0 && CompareUnits(b, c) < 0
    ensures CompareUnits(a, c) < 0
    decreases |a|
  {
    if |a| == 0 || |b| == 0 || |c| == 0 {
    } else if a[0] != b[0] || b[0] != c[0] {
    } else {
      CompareUnitsTransitive(a[1..], b[1..], c[1..]);
    }
  }

  /** `a.compareTo(b)` of `java.lang.String`, which compares UTF-16 code units, so a
      character above U+FFFF sorts by its high surrogate. */
  function CompareTo(a: string, b: string): (r: int)
    ensures r == 0 <==> a == b
  {
    var r := CompareUnits(Utf16(a), Utf16(b));
    if r == 0 then Utf16Injective(a, b); r else r
  }

  /** Swapping the operands negates the comparison. */
  lemma CompareToAntisymmetric(a: string, b: string)
    ensures CompareTo(a, b) == -CompareTo(b, a)
  {
    CompareUnitsAntisymmetric(Utf16(a), Utf16(b));
  }

  /** U+1F600 sorts before U+FFFD, although its scalar value is larger: its high
      surrogate 0xD83D is the unit compared. */
  lemma SupplementarySortsBySurrogate()
    ensures '\U{1F600}' as int > '\U{FFFD}' as int
    ensures CompareTo(['\U{1F600}'], ['\U{FFFD}']) == 0xD83D - 0xFFFD
  {
    var a, b := ['\U{1F600}'], ['\U{FFFD}'];
    assert Utf16(a) == CodeUnits('\U{1F600}') + Utf16([]);
    assert Utf16(b) == CodeUnits('\U{FFFD}') + Utf16([]);
    assert Utf16(a) == [0xD83D, 0xDE00];
    assert Utf16(b) == [0xFFFD];
  }

  /** `a` sorts strictly before `b` in the order of `compareTo`. */
  predicate Less(a: string, b: string) {
    CompareTo(a, b) < 0
  }

  lemma LessTransitive(a: string, b: string, c: string)
    requires Less(a, b) && Less(b, c)
    ensures Less(a, c)
  {
    CompareUnitsTransitive(Utf16(a), Utf16(b), Utf16(c));
  }
}

=== FILE: Wrappers.dfy ===
/** Optional values and results, used for the source's nullable references and thrown exceptions. */
module Wrappers {

  /** A value that may be absent; `None` stands for a Java `null`. */
  datatype Option<+T> = None | Some(value: T) {

    /** The value held, or `default` when absent. */
    function GetOr(default: T): T {
      match this
      case Some(v) => v
      case None => default
    }
  }

  /** Either a normal result or the exception a call throws. */
  datatype Result<+R, +E> = Ok(value: R) | Err(error: E) {

    predicate IsFailure() {
      Err?
    }

    function PropagateFailure<U>(): Result<U, E>
      requires Err?
    {
      Err(error)
    }

    function Extract(): R
      requires Ok?
    {
      value
    }
  }
}
